=== FILE: README.md ===
# nRF52 SWD programmer and BLE proxy: a Dafny model

The firmware runs on an ESP32 and programs an nRF52 target over Serial Wire
Debug (SWD). It drives the debug wires by bit-banging GPIOs. It reaches the
target's memory through the DP/AP transaction layer. It programs the flash
through the nRF52's Non-Volatile Memory Controller (NVMC). A web page uploads
Intel-hex firmware, which the device stages into 4 KiB pages and flashes. A
NimBLE scanner keeps a table of the BLE devices it has seen, and a web handler
turns an `addr=` form field into a BLE address to connect to.

This project models that core as pure Dafny functions and short methods over
immutable state. The modules follow the source files:

- `Bits`: bit sequences, LSB- and MSB-first values, XOR, AND and parity on
  unbounded naturals. C's 32-bit words are the `u32` subset of `nat`.
- `SwdLink` (swd_core.c, the wire layer): the SWDIO line is a `Link`. It holds
  the cycles driven so far, the target's pending answer bits, and the
  direction. Every primitive states exactly which cycles it appends.
- `SwdTransfer` (swd_core.c, `swd_transfer_raw`): the request byte, the
  ACK/data/parity phases, and what a target answer decodes to.
- `SwdEngine` (swd_core.c, the DP/AP layer and session): the target is an
  oracle, a list of `Reply` values consumed in order. The engine keeps a log
  of every transfer it issued. Retries, power-up polling, connect,
  disconnect and reset are functions of that state.
- `Nvmc`: the nRF52 flash, UICR and NVMC registers, as the firmware sees them
  through `swd_mem_read32` and `swd_mem_write32`. Each memory access has a
  *fate*: it may fail at the link, or succeed with or without reaching the
  chip. A trace records every access.
- `SwdFlash` (swd_flash.c): ready polling, the mode switch, page erase, word
  write, the unaligned buffer write, mass erase, firmware update, and the
  APPROTECT disable sequence.
- `WebUpload` (web_upload.c): the page staging buffer, `flush_buffer`, the hex
  record callback, and the APPROTECT classification of the check handler.
  The predicate `Flushed` states what a flush does to the target; every
  callback case that flushes carries it.
- `BleConnect` (web_ble_connect.c): `strstr`, percent-decoding, `strtol`,
  `sscanf("%02hhx:…")` and the handler's decisions. It also has an
  encoder/formatter that the decoder is proved to invert.
- `BleProxy` (ble_proxy.c, ble_proxy.h): the 20-slot discovery table, its
  update on a DISC event, and copy, clear, start and stop of the scan.

Inputs the firmware gets from outside the core are parameters:

| Input | Parameter |
|---|---|
| Target's answers | `Reply` list |
| Memory-access outcomes | fate list |
| Reconnect and `swd_mem_init` results | `reconnect`, `memInit` |
| Verify result | `verified` |
| Connection check | `connected` |
| NimBLE return codes | `rc` |
| Scan timestamp | `now` |

## Model

| member | source | states |
|---|---|---|
| Bits.Parity32 | components/swd/src/swd_core.c:46-52 | The nibble-table parity of a 32-bit word is the XOR of its 32 bits. |
| Bits.WordRoundTrip | components/swd/src/swd_core.c:70-104 | Shifting a word out LSB first and collecting the 32 bits back gives the same word. |
| Bits.ValueOfBits | components/swd/src/swd_core.c:70-104 | Reading n bits LSB first gives the value modulo 2^n. |
| Bits.BitsOfValue | components/swd/src/swd_core.c:87-104 | Any bit string is the LSB-first bit string of the value it is read as. |
| Bits.AndCovers | components/swd/src/swd_core.c:517 | `(v & m) == m` holds exactly when every bit set in m is set in v. |
| Bits.LowBits | components/swd/src/swd_flash.c:156 | Masking with 2^n-1 keeps the value modulo 2^n. |
| Bits.HighBits | components/swd/src/swd_flash.c:60 | Masking with 2^n-2^k clears exactly the low k bits. |
| SwdLink.Turnaround | components/swd/src/swd_core.c:55-67 | One turnaround cycle is clocked; afterwards the host drives exactly when it asked to write. |
| SwdLink.WriteBits | components/swd/src/swd_core.c:70-84 | A turnaround is inserted only if the host was reading; the n bits of the value then appear on the wire LSB first; the target's pending answer is untouched. |
| SwdLink.ShiftIn | components/swd/src/swd_core.c:91-103 | The value returned is the first n answer bits read LSB first; exactly those bits are consumed and sampled. |
| SwdLink.ReadBits | components/swd/src/swd_core.c:87-104 | Like ShiftIn, with a turnaround only when the host was driving; the result is below 2^n and the host releases the line. |
| SwdLink.WriteParking | components/swd/src/swd_core.c:123-129 | One low bit is driven after a turnaround if needed, leaving the line driven low. |
| SwdLink.LineReset | components/swd/src/swd_core.c:132-140 | The host takes the line and drives 60 high cycles followed by exactly one low cycle; only the wire, the output enable and the level change. |
| SwdLink.JtagToSwd | components/swd/src/swd_core.c:143-159 | The 16-bit select code 0xE79E sent LSB first, then one line reset; nothing is sent before the code. |
| SwdLink.DormantWakeup | components/swd/src/swd_core.c:162-205 | 8 high cycles, the 128-bit selection alert sent MSB first word by word, 4 low cycles, the activation code 0x58 MSB first, then a line reset. |
| SwdLink.DrivesAppend | components/swd/src/swd_core.c:70-84 | Driving two bit strings one after the other puts their concatenation on the wire. |
| SwdTransfer.RequestFraming | components/swd/src/swd_core.c:107-120 | The request byte has start 1, stop 0 and park 1; its APnDP, RnW and A[3:2] bits come from the arguments; the parity bit is their XOR. |
| SwdTransfer.RequestByte | components/swd/src/swd_core.c:107-120 | The request byte has its start bit (bit 0) and park bit (bit 7) set and its stop bit (bit 6) clear. |
| SwdTransfer.RequestRoundTrip | components/swd/src/swd_core.c:107-120 | Decoding the request byte gives back the port, direction and register address bits. |
| SwdTransfer.RequestPhase | components/swd/src/swd_core.c:249-256 | The request is driven, then a turnaround, then the 3-bit ACK is read from the target's answer. |
| SwdTransfer.TransferRaw | components/swd/src/swd_core.c:245-298 | The exact cycles of one transaction for each ACK; the link ends idle; the ACK and data reported are what the target's answer bits decode to. |
| SwdTransfer.ReportsConsume | components/swd/src/swd_core.c:245-298 | Every transaction consumes some answer bits unless nobody answered, and the ACK fits in three bits. |
| SwdTransfer.AckNoneIsHigh | components/swd/src/swd_core.c:256 | A target that answers nothing reads as ACK 0b111, the no-response code. |
| SwdTransfer.Answer | components/swd/src/swd_core.c:256-297 | What a target reply means: only an OK read changes the data; a parity mismatch turns OK into FAULT. |
| SwdTransfer.ReplyDecodes | components/swd/src/swd_core.c:256-297 | The bits of any reply, decoded by the transaction, give exactly that reply's Answer. |
| SwdTransfer.TransferAnswers | components/swd/src/swd_core.c:245-298 | A transaction against a target that sends a reply reports the reply's Answer and leaves the following replies pending. |
| SwdTransfer.TransferFloating | components/swd/src/swd_core.c:256-297 | A transaction against a silent line reports no response and the data unchanged. |
| SwdEngine.TransferIsRaw | components/swd/src/swd_core.c:245-298 | The engine's one-step transaction against the reply list agrees with the wire-level TransferRaw. |
| SwdEngine.Raw | components/swd/src/swd_core.c:245-298 | One transfer consumes the next reply, or reads no response and keeps the data when none is left; it appends exactly its own transfer, with the ack and data it reports, to the log. |
| SwdEngine.Recover | components/swd/src/swd_core.c:311-316 | After WAIT exactly one delay is logged and nothing else changes; after FAULT the sticky-error clear is issued, which on an initialized session starts with the ABORT write. |
| SwdEngine.Attempts | components/swd/src/swd_core.c:301-321 | Succeeds exactly when an attempt is acknowledged OK with no OK before it; a failure has used every try. Attempt i starts where the previous one and its recovery ended, and logs one transfer whose ack is the one recorded for it. WAIT is followed by exactly one delay, FAULT by a clear that starts with the ABORT write, any other ack by nothing. The loop logs only its own transfers, delays and clears; the data changes only on a good read. |
| SwdEngine.RepliesInOrder | components/swd/src/swd_core.c:301-321 | Against any reply list, while no FAULT clear intervenes, attempt i reports the ack decoded from reply i, or no response once the replies have run out. |
| SwdEngine.ClearErrors | components/swd/src/swd_core.c:483-488 | The clear pattern 0x1E goes to DP ABORT as a DP write with the loop guarantees of Attempts; on an initialized session the first event is that write, and only ABORT writes and delays follow. |
| SwdEngine.DpRead | components/swd/src/swd_core.c:301-321 | Refuses without init, touching nothing; otherwise a DP read with ten tries, carrying the per-attempt trace of Attempts. |
| SwdEngine.DpWrite | components/swd/src/swd_core.c:324-343 | Refuses without init, touching nothing; otherwise a DP write with ten tries, carrying the per-attempt trace of Attempts. |
| SwdEngine.ApRead | components/swd/src/swd_core.c:346-366 | Refuses without init. Otherwise the result is one of two traces: the AP read loop failing, or an AP read loop that succeeded followed by the RDBUFF read loop, whose outcome is returned. |
| SwdEngine.ApWrite | components/swd/src/swd_core.c:369-388 | Refuses without init, touching nothing; otherwise an AP write with ten tries, carrying the per-attempt trace of Attempts. |
| SwdEngine.SilentAttempts | components/swd/src/swd_core.c:301-321 | With no target on the line every try reads no response; all tries are made, nothing is waited for or cleared, and the loop fails. |
| SwdEngine.WaitingAttempts | components/swd/src/swd_core.c:301-321 | A target answering WAIT k times in a row gets k tries, each followed by a delay, and the loop fails. |
| SwdEngine.DpReadGivesUp | components/swd/src/swd_core.c:306-320 | Ten WAIT answers in a row make the DP read fail after exactly ten transfers and ten delays. |
| SwdEngine.FirstOk | components/swd/src/swd_core.c:306-313 | An OK answer at the first try ends the attempts with its data and consumes one reply. |
| SwdEngine.DpWriteAccepted | components/swd/src/swd_core.c:324-335 | A DP write answered OK is one logged transfer. |
| SwdEngine.DpReadAnswered | components/swd/src/swd_core.c:301-313 | A DP read answered OK with good parity returns the target's word. |
| SwdEngine.ParityErrorRetried | components/swd/src/swd_core.c:271-274 | A read with bad parity counts as FAULT: the sticky errors are cleared and the read is retried, returning the second answer. |
| SwdEngine.ApReadIsPosted | components/swd/src/swd_core.c:352-357 | The AP read's own data is discarded; the value returned is the RDBUFF word. |
| SwdEngine.PoweredUpBits | components/swd/src/swd_core.c:517 | The status counts as powered up exactly when CDBGPWRUPACK (bit 29) and CSYSPWRUPACK (bit 31) are both set. |
| SwdEngine.PowerMasks | components/swd/src/swd_core.c:503-517 | The request word 0x50000000 sets bits 28 and 30; the acknowledge mask 0xA0000000 is bits 29 and 31. |
| SwdEngine.Poll | components/swd/src/swd_core.c:508-526 | Polls CTRL/STAT at most `n` times. Every status read that does not acknowledge power is followed by a delay. Success means the last event is the one read that acknowledged power, after 1 to `n` status reads. Timeout means exactly `n` status reads, none of which acknowledged power. Fail comes after fewer than `n`. |
| SwdEngine.OkOnlyLast | components/swd/src/swd_core.c:301-320 | Among the transfers of a DP read's retry loop, a read answered OK can only be the last one, and only when the loop succeeds. |
| SwdEngine.PowerUp | components/swd/src/swd_core.c:498-527 | Reports success only once the last status read acknowledged both power domains. A success comes after an accepted write of the power request to CTRL/STAT, followed by 1 to 100 status polls. A timeout comes after that write followed by exactly 100 polls, none of which acknowledged power. |
| SwdEngine.Connect | components/swd/src/swd_core.c:391-429 | Refused before init; success marks the session connected, and requires an IDCODE other than 0 and 0xFFFFFFFF followed by an acknowledged power-up; failure leaves the flag alone. |
| SwdEngine.ConnectAtOnce | components/swd/src/swd_core.c:391-429 | A target answering the IDCODE and the first power poll OK is connected after exactly those transfers. |
| SwdEngine.ConnectSilent | components/swd/src/swd_core.c:391-429 | Against a silent target, connect tries the dormant wake-up and then the JTAG-to-SWD route, ten IDCODE reads each, and fails still disconnected. |
| SwdEngine.Disconnect | components/swd/src/swd_core.c:432-444 | Refused exactly when not initialized, touching nothing; otherwise clears the connected flag and sends one line reset. |
| SwdEngine.IsConnected | components/swd/src/swd_core.c:447-462 | True exactly when the flag stays set. For a session marked connected, the result is true exactly when the fresh IDCODE read is answered with a valid code, and that read's transfers are the only ones logged. A failed check clears the flag. |
| SwdEngine.ResetTarget | components/swd/src/swd_core.c:465-480 | Not supported exactly when no reset pin is configured, touching nothing. Otherwise the reset pulse comes first and the result is the reconnect's. Before init that is Invalid state with nothing after the pulse. Success means connected, with a valid IDCODE read after the pulse and a final status read showing both power-up acknowledgements. On failure the connected flag is as it was. |
| SwdEngine.ResetAtOnce | components/swd/src/swd_core.c:465-480 | A target that answers at once after the pulse is connected again after exactly the IDCODE, ABORT, power-request and status transfers. |
| SwdEngine.ResetSilent | components/swd/src/swd_core.c:465-480 | With no target, the pulse is followed by both wake-up routes of ten IDCODE reads each, and the reset fails with the flag untouched. |
| SwdEngine.GetIdcode | components/swd/src/swd_core.c:491-495 | The result is the word of the DP IDCODE read when that read succeeds, and 0 when it fails or before init. |
| SwdEngine.Identify | components/swd/src/swd_core.c:398-416 | The dormant wake-up sequence is sent first, then an IDCODE read. If that read identifies a target, it is the result. Otherwise a line reset and the JTAG-to-SWD sequence follow, then a second IDCODE read, whose result is returned. When a target is identified, the last event is an IDCODE read answered with a valid code. |
| SwdEngine.Init | components/swd/src/swd_core.c:208-242 | Rejects a missing config and leaves the state alone; otherwise stores the config, initialized and not connected. |
| Nvmc.PackBytes | components/swd/src/swd_flash.c:184 | Splitting a packed little-endian word into bytes gives the bytes back. |
| Nvmc.BytesPack | components/swd/src/swd_flash.c:164-170 | Packing a word's bytes gives the word back. |
| Nvmc.PageMask | components/swd/src/swd_flash.c:60 | `addr & ~0xFFF` rounds down to the page start. |
| Nvmc.WordMask | components/swd/src/swd_flash.c:155-156 | `addr & ~3` rounds down to the word; `addr & 3` is the offset in it. |
| Nvmc.ProgramErased | components/swd/src/swd_flash.c:121-128 | Programming an erased word stores the value exactly, since flash only clears bits. |
| SwdFlash.WaitReady | components/swd/src/swd_flash.c:13-29 | Polls READY at most `polls` times without changing flash or UICR; Ok after a ready poll, Fail on a failed read, Timeout after a full budget of busy polls, where the budget stands for the tick timeout at one poll per tick. |
| SwdFlash.WaitReliable | components/swd/src/swd_flash.c:13-29 | With reliable accesses and a busy count below the budget the wait succeeds. |
| SwdFlash.SetConfig | components/swd/src/swd_flash.c:32-50 | Writes CONFIG, reads it back and waits; success means the mode is in force. |
| SwdFlash.SetConfigReliable | components/swd/src/swd_flash.c:32-50 | With reliable accesses the mode switch succeeds. |
| SwdFlash.SwitchHalfDone | components/swd/src/swd_flash.c:39-46 | A CONFIG write that is acknowledged but does not land is caught by the read-back. |
| SwdFlash.Enable | components/swd/src/swd_flash.c:64-70 | Wait for ready, then switch mode; flash and UICR are unchanged, and Ok means the requested mode is in force. |
| SwdFlash.Restore | components/swd/src/swd_flash.c:90-93 | The cleanup returns the error it was given, whatever the switch back to read mode reports, and issues that switch. |
| SwdFlash.PageBase | components/swd/src/swd_flash.c:60 | The page start is the greatest page-aligned address not above addr. |
| SwdFlash.ErasePage | components/swd/src/swd_flash.c:53-94 | Invalid argument exactly beyond flash; never touches another page; Ok means the sampled first word reads erased. |
| SwdFlash.EraseStep | components/swd/src/swd_flash.c:72-88 | Only the given page can change. Ok exactly when the last access read the erased word 0xFFFFFFFF at the page start, which is then erased. |
| SwdFlash.ErasePageReliable | components/swd/src/swd_flash.c:53-94 | With reliable accesses an in-range erase succeeds and the whole page is erased. |
| SwdFlash.EraseLeavesEraseMode | components/swd/src/swd_flash.c:77-93 | If the erase times out, the cleanup switch back to read mode is still issued. |
| SwdFlash.WriteWord | components/swd/src/swd_flash.c:97-134 | Invalid argument exactly for an unaligned address; success means the word reads back as written and only that word changed. |
| SwdFlash.ProgramStep | components/swd/src/swd_flash.c:111-128 | Only the addressed word can change. Ok exactly when the last access read back the word written, which then holds it. |
| SwdFlash.WriteWordReliable | components/swd/src/swd_flash.c:97-134 | With reliable accesses an aligned write over erased flash succeeds. |
| SwdFlash.WriteLeavesWriteMode | components/swd/src/swd_flash.c:108-133 | A write that fails after WEN still restores read mode. |
| SwdFlash.RangeCheckWraps | components/swd/src/swd_flash.c:144 | The 32-bit range check lets a buffer through that runs past the end of the address space. |
| SwdFlash.RangeCheckFixed | components/swd/src/swd_flash.c:144 | The unbounded check admits only ranges inside flash and agrees with the source whenever the sum fits in 32 bits. |
| SwdFlash.Splice | components/swd/src/swd_flash.c:163-170 | The bytes of the new word are the old word's bytes with the given run replaced. |
| SwdFlash.Image | components/swd/src/swd_flash.c:154-213 | After a buffer write, a byte inside the span holds the data; a byte outside it keeps its old value, except the 0xFF padding in the last word the span touches. |
| SwdFlash.WriteHead | components/swd/src/swd_flash.c:154-180 | Writes the bytes up to the next word boundary, keeping the other bytes of that word. |
| SwdFlash.WriteWords | components/swd/src/swd_flash.c:183-198 | Whole words are written in order; progress reports carry the total and never exceed it. |
| SwdFlash.WriteTail | components/swd/src/swd_flash.c:201-213 | The last partial word keeps the trailing bytes already in flash. |
| SwdFlash.WriteBuffer | components/swd/src/swd_flash.c:137-221 | NULL or empty data is InvalidArg before any access. InvalidSize comes exactly when the range end, summed in 32 bits, lies past flash. A range whose sum wraps is accepted. For a range inside flash, Ok means flash holds the data at addr and every other byte is unchanged; the last report is Complete. |
| SwdFlash.WriteSpan | components/swd/src/swd_flash.c:150-217 | The writing part of WriteBuffer: for a non-empty buffer inside flash, Ok means flash holds the data at addr and every other byte is unchanged. |
| SwdFlash.Settle | components/swd/src/swd_flash.c:242-255 | Polls READY every 50 ms up to 500 ms, reporting rising percentages; polling never changes flash. |
| SwdFlash.SettleIdle | components/swd/src/swd_flash.c:242-255 | An idle controller is seen ready at the first poll. |
| SwdFlash.MassErase | components/swd/src/swd_flash.c:224-268 | The chip ends either as it was or fully wiped, flash and UICR. |
| SwdFlash.MassEraseReports | components/swd/src/swd_flash.c:242-260 | Reported percentages rise; Ok is reported with 100% only once the controller is ready. |
| SwdFlash.MassEraseCleansUp | components/swd/src/swd_flash.c:238-267 | Read mode is restored after a trigger or a timeout. |
| SwdFlash.MassEraseReliable | components/swd/src/swd_flash.c:224-268 | With reliable accesses the chip is blank and the result is Ok. |
| SwdFlash.MassEraseDropped | components/swd/src/swd_flash.c:238-260 | An ERASEALL write acknowledged by the link but dropped before the chip is still reported Ok, with flash and UICR unwiped. |
| SwdFlash.EraseChip | components/swd/src/swd_flash.c:364-385 | The chip is kept or wiped. A failed wait or mode switch returns its error with nothing else written. Once EEN is set, REN is written back: both after a failed ERASEALL write, returning that write's error, and after the wait for the erase, returning the wait's result. |
| SwdFlash.EraseChipReliable | components/swd/src/swd_flash.c:364-385 | With reliable accesses the chip is wiped. |
| SwdFlash.EraseAll | components/swd/src/swd_flash.c:435-460 | The chip is kept or wiped. Once EEN is set, REN is written back: both after a failed ERASEALL write, returning that write's error, and after the 500-poll wait, returning the wait's result. |
| SwdFlash.EraseAllReliable | components/swd/src/swd_flash.c:435-460 | With reliable accesses the chip is wiped. |
| SwdFlash.FlashInit | components/swd/src/swd_flash.c:325-345 | Ok exactly when the memory layer came up and the READY probe read succeeds; the chip is unchanged. |
| SwdFlash.ProgramApprotect | components/swd/src/swd_flash.c:389-402 | Only UICR changes, and at most by programming 0xFFFFFF5A into it. |
| SwdFlash.ProgramApprotectReliable | components/swd/src/swd_flash.c:389-402 | With reliable accesses on an erased UICR, APPROTECT becomes HwDisabled. |
| SwdFlash.ProgramApprotectIgnoresWait | components/swd/src/swd_flash.c:399-402 | A failed READY read after the UICR write is not reported: the result is still Ok. |
| SwdFlash.DisableApprotect | components/swd/src/swd_flash.c:347-432 | Ok means UICR reads back HwDisabled; flash is either kept or blank. |
| SwdFlash.Unprotect | components/swd/src/swd_flash.c:364-431 | Erase, program, recheck: Ok only with UICR HwDisabled. |
| SwdFlash.Recheck | components/swd/src/swd_flash.c:409-431 | Ok only if the read-back UICR is HwDisabled; a failed reconnect is returned as is. |
| SwdFlash.DisableApprotectAlreadyOff | components/swd/src/swd_flash.c:351-358 | A target already HwDisabled is left untouched and Ok is returned. |
| SwdFlash.DisableApprotectReliable | components/swd/src/swd_flash.c:347-432 | With reliable accesses and a good reconnect, a protected target ends blank, HwDisabled, and the result is Ok. |
| SwdFlash.Share | components/swd/src/swd_flash.c:296 | The percentage is the floor of done/count*100 and stays below 100. |
| SwdFlash.EraseOne | components/swd/src/swd_flash.c:289 | Erases one page by number; no other page changes. |
| SwdFlash.ErasePages | components/swd/src/swd_flash.c:288-299 | Ok means every page from first to last is erased; pages outside the range never change. |
| SwdFlash.UpdateFirmware | components/swd/src/swd_flash.c:271-323 | Rejects a missing update, a NULL buffer or zero size. Ok means the 32-bit range check passed, so the image lies in flash or its sum wraps. An erase failure is returned at once, with only NVMC control registers written. Once every page is erased, the first word of each page in the range is erased before the write begins. The result is the verify result only when verification was asked for, the write succeeded and the verify failed; otherwise it is the write's result. For an image inside flash, Ok also means the image sits at start, the rest of flash is kept, and the verify result passed. |
| SwdFlash.EraseAndWrite | components/swd/src/swd_flash.c:280-310 | Erases the pages in ascending order, stopping at the first failure, whose error it returns having written only NVMC control registers. After a full erase every page in the range starts with an erased word, then the write runs. Ok means the image is in place and other pages are kept. |
| SwdFlash.UpdateKeepsOtherPages | components/swd/src/swd_flash.c:280-303 | Bytes on pages outside the image's page range are untouched. |
| WebUpload.Flush | components/web/src/web_upload.c:38-76 | An empty buffer is a no-op; on failure the context is unchanged. On success the buffer is refilled with 0xFF, and the range check passed in 32 bits. The page erases come first and reach the target whenever the first page is in flash. A page-erase failure is returned at once with the context unchanged, having written only NVMC control registers. The write runs only after every page erase succeeded, when each page in the range starts with an erased word. For a buffer inside flash, success also means flash holds the buffered bytes at the start address and the other pages are kept. |
| WebUpload.WriteStage | components/web/src/web_upload.c:59-66 | After an erase that kept every page outside the range, a successful write passed the 32-bit range check, and for a buffer inside flash it leaves the buffered bytes at their addresses and the other pages as before the erase. |
| WebUpload.Copy | components/web/src/web_upload.c:100 | memcpy: the bytes at the offset are replaced and the rest are kept. |
| WebUpload.OffsetCheckWraps | components/web/src/web_upload.c:91-92 | The 32-bit bounds check accepts a record whose offset plus length wraps to 0. |
| WebUpload.FitsCorrected | components/web/src/web_upload.c:91-92 | The unbounded check admits only copies inside the buffer and agrees with the source whenever the sum fits in 32 bits. |
| WebUpload.Place | components/web/src/web_upload.c:100-108 | The record's bytes sit at the offset; the rest of the buffer is kept; the length grows to cover them; the current address moves past them. |
| WebUpload.Overrun | components/web/src/web_upload.c:91-100 | An overrun is a record the 32-bit check admits although it does not fit the buffer. |
| WebUpload.PlaceWrapped | components/web/src/web_upload.c:100-108 | For an overrunning record the first d bytes fall outside the buffer and the rest land at its start; the other bytes are kept and the length covers the wrapped end. |
| WebUpload.OnData | components/web/src/web_upload.c:83-110 | The check is the 32-bit one. Unless the record overruns, it ends up in the buffer at its address minus the buffer start. An overrun leaves the target alone, puts the record's tail at the start of the buffer, and returns the head as stray bytes. A record that fails the check forces a flush of a non-empty buffer, with the same effect on the target as a flush, and a restart at its own address. |
| WebUpload.Coalesce | components/web/src/web_upload.c:85-108 | A record admitted behind the buffered bytes lands at its offset with every other buffered byte kept, exactly when the unbounded check also admits it; otherwise the head of the record is returned as stray bytes and its tail lies over the start of the buffer. |
| WebUpload.Reanchor | components/web/src/web_upload.c:87-108 | A record that starts the buffer afresh changes the target as `Flushed` describes, then lies at the start of a buffer anchored at its address; after a failed flush the old length and the old bytes behind the record survive. |
| WebUpload.Restart | components/web/src/web_upload.c:93-96 | Re-anchors at the new address after flushing a non-empty buffer. The target is left alone for an empty buffer. Otherwise it is changed as the predicate `Flushed` describes a flush: the erase comes first and reaches the target when the first page is in flash, an erase failure is returned with nothing written, and on success a buffer inside flash is in flash with other pages kept. |
| WebUpload.OnEnd | components/web/src/web_upload.c:112-118 | Always flushes, with the same effect on the target as a flush, and reports the number of bytes flashed whether or not the flush succeeded. |
| WebUpload.OnAddress | components/web/src/web_upload.c:120-125 | A new linear address flushes a non-empty buffer, with the same effect on the target as a flush, and leaves everything alone for an empty one. |
| WebUpload.Callback | components/web/src/web_upload.c:79-127 | Dispatches on the record type. Stray bytes appear exactly for an overrunning data record; the stray bytes followed by the start of the buffer are the record. A data record leaves the target alone unless the buffer holds bytes and the record fails the check; then, and for end of file and for a new linear address, the target changes exactly as a flush changes it. Other records change nothing. |
| WebUpload.CheckSwd | components/web/src/web_upload.c:330-353 | The status is the classification of the value reported; HwDisabled or Enabled only for a connected target whose UICR holds that value; not connected reports Erased/Protected. |
| WebUpload.Classify | components/web/src/web_upload.c:346-348 | HwDisabled, Erased/Protected and Enabled each exactly for 0xFFFFFF5A, 0xFFFFFFFF and 0xFFFFFF00. |
| WebUpload.StatusText | components/web/src/web_upload.c:346-348 | Every class has a non-empty status string. |
| WebUpload.ClassifyExact | components/web/src/web_upload.c:342-348 | Each class corresponds to exactly one value, except Unknown; the four status strings are distinct. |
| WebUpload.DisabledReportsDisabled | components/web/src/web_upload.c:342-348 | After a successful disable_approtect, the check handler reports HwDisabled. |
| WebUpload.ErasedReportsErased | components/web/src/web_upload.c:342-348 | After a successful erase_all, the check handler reports Erased/Protected. |
| BleConnect.Find | components/web/src/web_ble_connect.c:31-36 | strstr: the first position where the key occurs, or None when it never occurs. |
| BleConnect.Hex2 | components/web/src/web_ble_connect.c:48-49 | `strtol` on two characters in base 16, truncated to a char. |
| BleConnect.Decode | components/web/src/web_ble_connect.c:41-61 | Percent-decoding stops at NUL, `&` or space, or at 17 characters. |
| BleConnect.Field | components/web/src/web_ble_connect.c:73-74 | One `%02hhx` field reads one or two hex digits. |
| BleConnect.Conversion | components/web/src/web_ble_connect.c:73-74 | `%02hhx` after skipping white space. |
| BleConnect.Scan | components/web/src/web_ble_connect.c:73-76 | A successful scan yields exactly the remaining fields. |
| BleConnect.ParseMac | components/web/src/web_ble_connect.c:72-80 | A successful parse is six bytes, the first field read into the last byte. |
| BleConnect.AddressText | components/web/src/web_ble_connect.c:31-65 | The decoded text after the first `addr=`, cut at NUL, at most 17 characters. |
| BleConnect.Handle | components/web/src/web_ble_connect.c:20-90 | Connects exactly when something was received, the key is present, the decoded text is 17 characters, and the six fields scan. |
| BleConnect.Hex2Escape | components/web/src/web_ble_connect.c:48-49 | Every escape the encoder writes decodes back to its character. |
| BleConnect.DecodeEncode | components/web/src/web_ble_connect.c:41-61 | Decoding undoes form-encoding for texts up to the 17-character limit. |
| BleConnect.ParseFormatted | components/web/src/web_ble_connect.c:72-80 | Scanning the `AA:BB:…` text of an address gives that address back. |
| BleConnect.FormattedHex | components/web/src/web_ble_connect.c:72-80 | A formatted address is only hex digits and colons. |
| BleConnect.AddressTextEncoded | components/web/src/web_ble_connect.c:31-65 | A body carrying a form-encoded formatted address decodes back to that text. |
| BleConnect.HandleEncoded | components/web/src/web_ble_connect.c:20-90 | Such a body makes the handler connect to exactly that address. |
| BleConnect.NoNulEncoded | components/web/src/web_ble_connect.c:41-61 | Encoding never introduces a NUL. |
| BleProxy.Find | components/ble_proxy/src/ble_proxy.c:29-36 | -1 exactly when no used slot holds the address; otherwise the index of a slot holding it. |
| BleProxy.FindFirst | components/ble_proxy/src/ble_proxy.c:29-36 | The search returns the first matching slot. |
| BleProxy.StoreName | components/ble_proxy/src/ble_proxy.c:62-69 | The name is cut to 31 bytes and NUL-terminated; the bytes after the terminator are kept. |
| BleProxy.OnDisc | components/ble_proxy/src/ble_proxy.c:43-85 | A known device keeps its slot; a new one gets the next slot if the table is not full; a full table ignores it; afterwards the address is known exactly when it was known or there was room. |
| BleProxy.OnDiscDistinct | components/ble_proxy/src/ble_proxy.c:47-54 | No address appears twice in the table after an update. |
| BleProxy.OnDiscEntry | components/ble_proxy/src/ble_proxy.c:56-76 | The device's entry holds the report's RSSI and time, and is named if the report was. |
| BleProxy.Refresh | components/ble_proxy/src/ble_proxy.c:56-76 | The entry keeps its address and takes the report's RSSI and time; a non-empty name replaces the stored one, and otherwise the name is kept. |
| BleProxy.OnGapEvent | components/ble_proxy/src/ble_proxy.c:39-97 | DISC_COMPLETE clears scanning; other events change nothing; the table never shrinks. |
| BleProxy.GetDevices | components/ble_proxy/src/ble_proxy.c:158-164 | Returns the smaller of the count and the maximum; copies that many leading entries if there is a buffer. |
| BleProxy.Clear | components/ble_proxy/src/ble_proxy.c:167-170 | Empties the table and zeroes every slot; the scan flags are kept. |
| BleProxy.StartScan | components/ble_proxy/src/ble_proxy.c:100-133 | Invalid state exactly when not initialized or already scanning; Ok exactly when NimBLE also accepts, which sets scanning. |
| BleProxy.StopScan | components/ble_proxy/src/ble_proxy.c:136-150 | Fails exactly while scanning with a code other than 0 or EALREADY; otherwise scanning ends. |
| BleProxy.StartStop | components/ble_proxy/src/ble_proxy.c:100-150 | A started scan stopped successfully restores the previous state; stopping twice is the same as once. |
| BleProxy.ClearForgets | components/ble_proxy/src/ble_proxy.c:158-170 | After a clear no address is found, nothing is copied, and clearing again changes nothing. |

## Left out

- GPIO, delays and `ets_delay_us` timing: the wire is a sequence of cycles, not a waveform.
- The Intel-hex parser itself: the callback receives decoded records.
- The memory access port layer (swd_mem.c) is not part of this model. Its reads and writes are given a fate per access, and `swd_mem_init` and the reconnect before the APPROTECT check are parameters.
- `swd_flash_verify` is not part of this model. Its result is the `verified` parameter of UpdateFirmware.
- The connection check in the check handler is the `connected` parameter.
- `esp_timer_get_time` in the DISC handler is the `now` parameter, already in seconds.
- NimBLE calls (`ble_gap_disc`, `ble_gap_disc_cancel`, advertisement parsing) are return-code and report parameters.
- StartScan: the `duration_sec * 1000` product, which can wrap in 32 bits, is not modelled; only NimBLE's return code matters to the result.
- WebUpload.Flush: the progress value sent to the browser is not modelled.
- SwdFlash.UpdateFirmware: states nothing about UICR, which the update never writes.
- SwdEngine.ResetTarget: the pulse is one logged event, without pin levels or duration.
- SwdFlash.WaitReady: the tick timeout of `wait_nvmc_ready` is modelled as a budget of ms/10 polls, assuming a FreeRTOS tick rate of 100 Hz (CONFIG_FREERTOS_HZ is not part of this model) and that each poll takes exactly one tick. In the driver a READY read whose retries sleep can use up more than one tick, so the real loop can time out after fewer polls than the budget; the exact poll count on Timeout holds only under that assumption.
- The NULL `data` pointer check of the DP and AP accessors: the model passes words by value.
- JSON, HTTP responses and logging.
- Hex2 and Conversion: `strtol` and `sscanf` also accept a `0x` prefix in general; the model treats the two characters as the whole input, as the handler's buffers allow.
- Four behaviours of the driver are modelled as the code has them:
  - `write_word` checks a write by reading the word back.
  - `wait_nvmc_ready` accepts the first ready poll.
  - `erase_page` checks only the first word of the page.
  - A read parity error is reported as FAULT and retried.
- SwdFlash.WriteBuffer: for a range whose 32-bit sum wraps, the model states the result and the progress reports but no flash image. The head of such a range is not flash at all, and the image its wrapped tail leaves at address 0 is not stated.
- SwdFlash.UpdateFirmware: the image and the kept pages are stated only for an image inside flash, for the same reason.
- WebUpload.Flush: the flash image is stated only for a buffer inside flash, for the same reason.
- SwdEngine.Attempts: swd_clear_errors writes ABORT through swd_dp_write, whose own FAULT answers call swd_clear_errors again (components/swd/src/swd_core.c:315, 337 and 483-488). In C this recursion is unbounded. The model bounds it by the finite list of target replies, so a target that answers FAULT forever cannot be represented.
- WebUpload.CheckSwd: assumes that a failed `swd_mem_read32` leaves `approtect` at its initial 0xFFFFFFFF. A failed AP read can instead leave a stale word in the output (components/swd/src/swd_core.c:352-355), and that case is reported here as Erased (Protected).
- WebUpload.OnData: the memory in front of the page buffer is not modelled; the bytes an overrun writes there are returned as `stray` instead.
- WebUpload.Callback: the stray bytes of an overrun are returned, and nothing else about the memory in front of the buffer is stated.

## Findings

| source | as written | input that shows it | evidently intended | confidence | as-written member | corrected member |
|---|---|---|---|---|---|---|
| components/swd/src/swd_flash.c:144 | `addr + size > NRF52_FLASH_SIZE` computed in 32 bits | addr 0xFFFFFFF0, size 0x20: the sum wraps to 0x10, the check passes, and the byte at offset 16 (the seventeenth) goes to address 0 | reject any range that runs past flash | not executed | SwdFlash.RangeCheckWraps | SwdFlash.RangeCheckFixed |
| components/web/src/web_upload.c:91-92 | `offset_in_buffer + byte_count <= PAGE_BUFFER_SIZE` computed in 32 bits | buffer start 0, record at 0xFFFFFF80 with 0x80 bytes: the sum wraps to 0, and with 32-bit pointers the memcpy lands in the 0x80 bytes before page_buffer | flush and restart instead of copying | not executed | WebUpload.OffsetCheckWraps | WebUpload.FitsCorrected |

=== FILE: bits.dfy ===
/**
 * Bit-level vocabulary of the Serial Wire Debug wire: unsigned words, their
 * bit streams in wire order, the C shift and bitwise operators on them, and
 * even parity.
 *
 * Words are natural numbers below 2^32, standing for the driver's `uint32_t`
 * values; every operator used on them here (right shift, xor, and) keeps a
 * 32-bit value below 2^32, so no wrap-around arises in this module. A bit
 * stream is a `seq<bool>` whose element 0 is the first bit on the wire.
 * SWD sends every register-access field least significant bit first; only
 * the dormant-wake selection alert and activation code are sent most
 * significant bit first (sections B4.2 and B5.3 of the ARM Debug Interface
 * Architecture Specification ADIv5.2).
 */
module Bits {

  const WORD_LIMIT: nat := 0x1_0000_0000

  type u8 = x: int | 0 <= x < 0x100
  type u32 = x: int | 0 <= x < 0x1_0000_0000

  function Pow2(n: nat): (r: nat)
    ensures r >= 1
  {
    if n == 0 then 1 else 2 * Pow2(n - 1)
  }

  /** Unsigned right shift, `v >> k`: `k` halvings. */
  function Shr(v: nat, k: nat): (r: nat)
    ensures r <= v
  {
    if k == 0 then v else Shr(v / 2, k - 1)
  }

  function BitValue(b: bool): nat
  {
    if b then 1 else 0
  }

  /** The `n` low bits of `v`, least significant first: what a loop that sends
      `v & 1` and then shifts `v` right by one emits in `n` iterations. */
  function BitsLsb(v: nat, n: nat): (r: seq<bool>)
    ensures |r| == n
  {
    if n == 0 then [] else [v % 2 == 1] + BitsLsb(v / 2, n - 1)
  }

  /** The number whose low bits are `b`, read least significant first: what a
      loop that ors in `bit` for every high sample and doubles `bit` builds. */
  function ValueLsb(b: seq<bool>): (r: nat)
    ensures r < Pow2(|b|)
  {
    if |b| == 0 then 0 else BitValue(b[0]) + 2 * ValueLsb(b[1..])
  }

  /** A stream sent most significant bit first is the reverse of the
      least-significant-first stream. */
  function Reverse<T>(s: seq<T>): (r: seq<T>)
    ensures |r| == |s|
    ensures forall i :: 0 <= i < |s| ==> r[i] == s[|s| - 1 - i]
  {
    if |s| == 0 then [] else Reverse(s[1..]) + [s[0]]
  }

  function BitsMsb(v: nat, n: nat): (r: seq<bool>)
    ensures |r| == n
  {
    Reverse(BitsLsb(v, n))
  }

  /** The number whose low bits are `b`, read most significant first. */
  function ValueMsb(b: seq<bool>): (r: nat)
    ensures r < Pow2(|b|)
  {
    ValueLsb(Reverse(b))
  }

  /** Exclusive or of every bit of a stream: true when an odd number are set. */
  function XorAll(b: seq<bool>): bool
  {
    if |b| == 0 then false else b[0] != XorAll(b[1..])
  }

  /** Bitwise exclusive or of two unsigned numbers, `a ^ b`. */
  function Xor(a: nat, b: nat): (r: nat)
    decreases a + b
  {
    if a == 0 && b == 0 then 0
    else BitValue(a % 2 != b % 2) + 2 * Xor(a / 2, b / 2)
  }

  /** Bitwise and of two unsigned numbers, `a & b`. */
  function And(a: nat, b: nat): (r: nat)
    ensures r <= a && r <= b
    decreases a + b
  {
    if a == 0 || b == 0 then 0
    else BitValue(a % 2 == 1 && b % 2 == 1) + 2 * And(a / 2, b / 2)
  }

  /** Even parity of a word as the driver computes it (swd_core.c parity32):
      fold the word onto its low nibble with three shift-and-xor steps, keep
      the nibble (`x & 0xF`) and look it up in the 16-entry parity table
      0x6996. True means an odd number of bits is set. */
  function Parity32(x: u32): (r: bool)
    ensures r == XorAll(BitsLsb(x, 32))
  {
    var x1 := Xor(x, Shr(x, 16));
    var x2 := Xor(x1, Shr(x1, 8));
    var x3 := Xor(x2, Shr(x2, 4));
    NibbleFold(x);
    Shr(0x6996, x3 % 16) % 2 == 1
  }

  // ---------------------------------------------------------------------
  // Word/stream round trips

  /** Reading back the `n` bits a number was sent as recovers the number. */
  lemma {:induction false} ValueOfBits(v: nat, n: nat)
    requires v < Pow2(n)
    ensures ValueLsb(BitsLsb(v, n)) == v
    decreases n
  {
    if n > 0 {
      var b := BitsLsb(v, n);
      assert b[1..] == BitsLsb(v / 2, n - 1);
      ValueOfBits(v / 2, n - 1);
    }
  }

  /** Sending the number a stream reads as reproduces the stream. */
  lemma {:induction false} BitsOfValue(b: seq<bool>)
    ensures BitsLsb(ValueLsb(b), |b|) == b
    decreases |b|
  {
    if |b| > 0 {
      BitsOfValue(b[1..]);
      assert ValueLsb(b) / 2 == ValueLsb(b[1..]);
    }
  }

  /** A full 32-bit word survives being sent and read back. */
  lemma WordRoundTrip(v: u32)
    ensures ValueLsb(BitsLsb(v, 32)) == v
  {
    assert Pow2(8) == 0x100;
    assert Pow2(16) == 0x1_0000;
    assert Pow2(24) == 0x100_0000;
    assert Pow2(32) == WORD_LIMIT;
    ValueOfBits(v, 32);
  }

  lemma Pow2Word()
    ensures Pow2(32) == WORD_LIMIT
  {
    assert Pow2(8) == 0x100;
    assert Pow2(16) == 0x1_0000;
    assert Pow2(24) == 0x100_0000;
  }

  /** Any 32 sampled bits read as a 32-bit word. */
  lemma ValueIsWord(b: seq<bool>)
    requires |b| == 32
    ensures ValueLsb(b) < WORD_LIMIT
  {
    Pow2Word();
  }

  /** Most-significant-first framing round-trips as well. */
  lemma WordRoundTripMsb(v: nat, n: nat)
    requires v < Pow2(n)
    ensures ValueMsb(BitsMsb(v, n)) == v
  {
    ReverseReverse(BitsLsb(v, n));
    ValueOfBits(v, n);
  }

  lemma ReverseReverse<T>(s: seq<T>)
    ensures Reverse(Reverse(s)) == s
  {
  }

  // ---------------------------------------------------------------------
  // Parity

  /** The parity of the `n` low bits of `v`. */
  function ParityOf(v: nat, n: nat): bool
  {
    XorAll(BitsLsb(v, n))
  }

  lemma {:induction false} XorAllAppend(a: seq<bool>, b: seq<bool>)
    ensures XorAll(a + b) == (XorAll(a) != XorAll(b))
    decreases |a|
  {
    if |a| > 0 {
      assert (a + b)[1..] == a[1..] + b;
      XorAllAppend(a[1..], b);
    } else {
      assert a + b == b;
    }
  }

  /** The low `k + m` bits are the low `k` bits followed by the low `m` bits
      of `v >> k`. */
  lemma {:induction false} BitsSplit(v: nat, k: nat, m: nat)
    ensures BitsLsb(v, k + m) == BitsLsb(v, k) + BitsLsb(Shr(v, k), m)
    decreases k
  {
    if k > 0 {
      BitsSplit(v / 2, k - 1, m);
    }
  }

  lemma XorStep(a: nat, b: nat)
    ensures Xor(a, b) % 2 == BitValue(a % 2 != b % 2)
    ensures Xor(a, b) / 2 == Xor(a / 2, b / 2)
  {
    if a == 0 && b == 0 {
      assert Xor(a / 2, b / 2) == 0;
    } else {
      var rest := Xor(a / 2, b / 2);
      assert Xor(a, b) == BitValue(a % 2 != b % 2) + 2 * rest;
    }
  }

  /** Parity distributes over xor, bit range by bit range. */
  lemma {:induction false} ParityXor(a: nat, b: nat, n: nat)
    ensures ParityOf(Xor(a, b), n) == (ParityOf(a, n) != ParityOf(b, n))
    decreases n
  {
    if n > 0 {
      XorStep(a, b);
      ParityXor(a / 2, b / 2, n - 1);
    }
  }

  /** One folding step of parity32: the parity of `2k` bits equals the parity
      of the `k` low bits of `v ^ (v >> k)`. */
  lemma FoldStep(v: nat, k: nat)
    ensures ParityOf(v, k + k) == ParityOf(Xor(v, Shr(v, k)), k)
  {
    BitsSplit(v, k, k);
    XorAllAppend(BitsLsb(v, k), BitsLsb(Shr(v, k), k));
    ParityXor(v, Shr(v, k), k);
  }

  /** The low `n` bits do not see multiples of 2^n. */
  lemma {:induction false} BitsLow(v: nat, q: nat, n: nat)
    ensures BitsLsb(v + Pow2(n) * q, n) == BitsLsb(v, n)
    decreases n
  {
    if n > 0 {
      var p := Pow2(n - 1);
      assert Pow2(n) * q == 2 * (p * q);
      assert (v + Pow2(n) * q) / 2 == v / 2 + p * q;
      BitsLow(v / 2, q, n - 1);
    }
  }

  lemma {:induction false} ShrShr(v: nat, a: nat, b: nat)
    ensures Shr(Shr(v, a), b) == Shr(v, a + b)
    decreases a
  {
    if a > 0 {
      ShrShr(v / 2, a - 1, b);
    }
  }

  lemma NibbleTableLow(nib: nat)
    requires nib < 4
    ensures (Shr(0x6996, nib) % 2 == 1) == ParityOf(nib, 4)
  {
    if nib == 0 {} else if nib == 1 {} else if nib == 2 {} else {
      assert nib == 3;
      assert (Shr(0x6996, 3) % 2 == 1) == ParityOf(3, 4);
    }
  }

  lemma NibbleTableMid(nib: nat)
    requires 4 <= nib < 8
    ensures (Shr(0x6996, nib) % 2 == 1) == ParityOf(nib, 4)
  {
    ShrShr(0x6996, 4, nib - 4);
    assert Shr(0x6996, 4) == 0x699;
    if nib == 4 {
      assert (Shr(0x699, 0) % 2 == 1) == ParityOf(4, 4);
    } else if nib == 5 {
      assert (Shr(0x699, 1) % 2 == 1) == ParityOf(5, 4);
    } else if nib == 6 {
      assert (Shr(0x699, 2) % 2 == 1) == ParityOf(6, 4);
    } else {
      assert nib == 7;
      assert (Shr(0x699, 3) % 2 == 1) == ParityOf(7, 4);
    }
  }

  lemma NibbleTableHigh(nib: nat)
    requires 8 <= nib < 12
    ensures (Shr(0x6996, nib) % 2 == 1) == ParityOf(nib, 4)
  {
    ShrShr(0x6996, 8, nib - 8);
    assert Shr(0x6996, 8) == 0x69;
    if nib == 8 {
      assert (Shr(0x69, 0) % 2 == 1) == ParityOf(8, 4);
    } else if nib == 9 {
      assert (Shr(0x69, 1) % 2 == 1) == ParityOf(9, 4);
    } else if nib == 10 {
      assert (Shr(0x69, 2) % 2 == 1) == ParityOf(10, 4);
    } else {
      assert nib == 11;
      assert (Shr(0x69, 3) % 2 == 1) == ParityOf(11, 4);
    }
  }

  lemma NibbleTableTop(nib: nat)
    requires 12 <= nib < 16
    ensures (Shr(0x6996, nib) % 2 == 1) == ParityOf(nib, 4)
  {
    ShrShr(0x6996, 12, nib - 12);
    assert Shr(0x6996, 12) == 0x6;
    if nib == 12 {
      assert (Shr(0x6, 0) % 2 == 1) == ParityOf(12, 4);
    } else if nib == 13 {
      assert (Shr(0x6, 1) % 2 == 1) == ParityOf(13, 4);
    } else if nib == 14 {
      assert (Shr(0x6, 2) % 2 == 1) == ParityOf(14, 4);
    } else {
      assert nib == 15;
      assert (Shr(0x6, 3) % 2 == 1) == ParityOf(15, 4);
    }
  }

  /** The lookup table 0x6996 holds the parity of each nibble. */
  lemma NibbleTable(nib: nat)
    requires nib < 16
    ensures (Shr(0x6996, nib) % 2 == 1) == ParityOf(nib, 4)
  {
    if nib < 4 {
      NibbleTableLow(nib);
    } else if nib < 8 {
      NibbleTableMid(nib);
    } else if nib < 12 {
      NibbleTableHigh(nib);
    } else {
      NibbleTableTop(nib);
    }
  }

  /** The three folds and the table lookup of parity32 compute the xor of
      all 32 bits of the word. */
  lemma NibbleFold(x: u32)
    ensures var x1 := Xor(x, Shr(x, 16));
      var x2 := Xor(x1, Shr(x1, 8));
      var x3 := Xor(x2, Shr(x2, 4));
      (Shr(0x6996, x3 % 16) % 2 == 1) == XorAll(BitsLsb(x, 32))
  {
    var x1 := Xor(x, Shr(x, 16));
    var x2 := Xor(x1, Shr(x1, 8));
    var x3 := Xor(x2, Shr(x2, 4));
    FoldStep(x, 16);
    FoldStep(x1, 8);
    FoldStep(x2, 4);
    assert Pow2(4) == 16;
    BitsLow(x3 % 16, x3 / 16, 4);
    NibbleTable(x3 % 16);
  }

  // ---------------------------------------------------------------------
  // Masks

  /** Bit `i` of `v` as the C expression `v & (1 << i)` tests it. */
  function BitAt(v: nat, i: nat): bool
  {
    Shr(v, i) % 2 == 1
  }

  /** Every bit set in `m` is also set in `v`. */
  predicate Covers(v: nat, m: nat)
    decreases m
  {
    m == 0 || ((m % 2 == 1 ==> v % 2 == 1) && Covers(v / 2, m / 2))
  }

  /** `(v & m) == m` holds exactly when `v` has every bit of `m` set. */
  lemma {:induction false} AndCovers(v: nat, m: nat)
    ensures And(v, m) == m <==> Covers(v, m)
    decreases m
  {
    if m > 0 {
      AndCovers(v / 2, m / 2);
    }
  }

  /** A mask of the two bits `a` and `b`. */
  lemma {:induction false} CoversTwo(v: nat, a: nat, b: nat)
    requires b < a
    ensures Covers(v, Pow2(a) + Pow2(b)) <==> BitAt(v, a) && BitAt(v, b)
    decreases b
  {
    if b == 0 {
      CoversOne(v / 2, a - 1);
    } else {
      CoversTwo(v / 2, a - 1, b - 1);
    }
  }

  /** A mask of the single bit `a`. */
  lemma {:induction false} CoversOne(v: nat, a: nat)
    ensures Covers(v, Pow2(a)) <==> BitAt(v, a)
    decreases a
  {
    if a > 0 {
      CoversOne(v / 2, a - 1);
    }
  }

  /** `v & ((1 << n) - 1)` is `v` modulo `2^n`. */
  lemma {:induction false} LowBits(v: nat, n: nat)
    ensures And(v, Pow2(n) - 1) == v % Pow2(n)
    decreases n
  {
    if n > 0 && v > 0 {
      var half := Pow2(n - 1);
      var mask := 2 * half - 1;
      assert Pow2(n) == 2 * half;
      DivUnique(mask, 2, half - 1, 1);
      LowBits(v / 2, n - 1);
      ModSplit(v, half);
      var low := v % 2 + 2 * ((v / 2) % half);
      assert And(v, mask) == low;
      assert v % Pow2(n) == low;
    } else if n == 0 {
      assert Pow2(n) == 1;
    } else {
      DivUnique(0, Pow2(n), 0, 0);
    }
  }

  /** `v & ~((1 << k) - 1)` on an `n`-bit value rounds `v` down to a
      multiple of `2^k`. */
  lemma {:induction false} HighBits(v: nat, n: nat, k: nat)
    requires k <= n && v < Pow2(n)
    ensures Pow2(k) <= Pow2(n)
    ensures And(v, Pow2(n) - Pow2(k)) == v - v % Pow2(k)
    decreases k
  {
    if k == 0 {
      Pow2Grows(n);
      LowBits(v, n);
      DivUnique(v, Pow2(n), 0, v);
    } else {
      HighBits(v / 2, n - 1, k - 1);
      HighBitsStep(v, n, k);
    }
  }

  lemma HighBitsStep(v: nat, n: nat, k: nat)
    requires 0 < k <= n && v < Pow2(n) && Pow2(k - 1) <= Pow2(n - 1)
    requires And(v / 2, Pow2(n - 1) - Pow2(k - 1)) == v / 2 - (v / 2) % Pow2(k - 1)
    ensures Pow2(k) <= Pow2(n)
    ensures And(v, Pow2(n) - Pow2(k)) == v - v % Pow2(k)
  {
    var mask := Pow2(n) - Pow2(k);
    var low := Pow2(k - 1);
    assert Pow2(k) == 2 * low;
    assert mask / 2 == Pow2(n - 1) - low && mask % 2 == 0;
    ModSplit(v, low);
    if v > 0 && mask > 0 {
      assert And(v, mask) == 2 * And(v / 2, mask / 2);
      assert v == 2 * (v / 2) + v % 2;
    } else if v > 0 {
      DivUnique(v, Pow2(k), 0, v);
    }
  }

  lemma {:induction false} Pow2Grows(n: nat)
    ensures Pow2(0) <= Pow2(n)
    decreases n
  {
    if n > 0 {
      Pow2Grows(n - 1);
    }
  }

  lemma {:induction false} AndCommutes(a: nat, b: nat)
    ensures And(a, b) == And(b, a)
    decreases a + b
  {
    if a > 0 && b > 0 {
      AndCommutes(a / 2, b / 2);
    }
  }

  lemma ModSplit(v: nat, p: nat)
    requires p > 0
    ensures v % (2 * p) == v % 2 + 2 * ((v / 2) % p)
  {
    var t, s := (v / 2) / p, (v / 2) % p;
    assert v == (2 * p) * t + (2 * s + v % 2);
    DivUnique(v, 2 * p, t, 2 * s + v % 2);
  }

  lemma DivUnique(v: nat, d: nat, q: nat, r: nat)
    requires d > 0 && r < d && v == d * q + r
    ensures v % d == r && v / d == q
  {
    var q0, r0 := v / d, v % d;
    assert v == d * q0 + r0;
    if q0 > q {
      MulGrows(d, q + 1, q0);
    } else if q0 < q {
      MulGrows(d, q0 + 1, q);
    }
  }

  lemma MulGrows(d: nat, a: nat, b: nat)
    requires a <= b
    ensures d * a <= d * b
  {
    assert d * b == d * a + d * (b - a);
  }

  lemma HighPowers()
    ensures Pow2(28) == 0x1000_0000 && Pow2(29) == 0x2000_0000
    ensures Pow2(30) == 0x4000_0000 && Pow2(31) == 0x8000_0000
  {
    assert Pow2(8) == 0x100;
    assert Pow2(16) == 0x1_0000;
    assert Pow2(24) == 0x100_0000;
    assert Pow2(28) == 0x1000_0000;
  }
}

=== FILE: ble_connect.dfy ===
// The address decoding of ble_connect_handler: find `addr=` in the POST
// body, percent-decode what follows into at most 17 characters, insist on
// exactly 17, and read six colon-separated hex bytes from them, most
// significant first, into a little-endian BLE address.
//
// Characters are C `char`s; the body is what httpd_req_recv delivered and
// is treated as the C string it becomes once NUL-terminated.

module BleConnect {
  import opened Bits
  import opened Esp

  /** The handler reads at most `sizeof(content) - 1` bytes. */
  const CONTENT_MAX: nat := 127
  /** The length of `XX:XX:XX:XX:XX:XX`. */
  const ADDR_TEXT_LEN: nat := 17
  const KEY: string := "addr="

  // ---------------------------------------------------------------------
  // C strings

  /** The C string a buffer holds: everything before its first NUL. */
  function CStr(s: string): (r: string)
    ensures r <= s && '\0' !in r
    ensures |r| < |s| ==> s[|r|] == '\0'
  {
    if |s| == 0 || s[0] == '\0' then [] else [s[0]] + CStr(s[1..])
  }

  /** `pat` occurs in `s` at position `j`. */
  predicate At(s: string, pat: string, j: nat)
  {
    j + |pat| <= |s| && s[j..j + |pat|] == pat
  }

  lemma AtShift(s: string, pat: string, j: nat)
    requires |s| > 0
    ensures At(s, pat, j + 1) == At(s[1..], pat, j)
  {
    if j + 1 + |pat| <= |s| {
      assert s[j + 1..j + 1 + |pat|] == s[1..][j..j + |pat|];
    }
  }

  /** strstr: the first position where `pat` occurs in `s`. */
  function Find(s: string, pat: string): (r: Option<nat>)
    ensures r.Some? ==> At(s, pat, r.value)
    ensures r.Some? ==> forall j :: 0 <= j < r.value ==> !At(s, pat, j)
    ensures r.None? ==> forall j :: 0 <= j ==> !At(s, pat, j)
    decreases |s|
  {
    if |s| < |pat| then None
    else if s[..|pat|] == pat then Some(0)
    else
      var rest := Find(s[1..], pat);
      assert !At(s, pat, 0) by { assert s[0..|pat|] == s[..|pat|]; }
      assert forall j: nat :: 0 < j ==> At(s, pat, j) == At(s[1..], pat, j - 1) by {
        forall j: nat | 0 < j ensures At(s, pat, j) == At(s[1..], pat, j - 1) { AtShift(s, pat, j - 1); }
      }
      match rest
      case None => None
      case Some(i) => Some(i + 1)
  }

  // ---------------------------------------------------------------------
  // strtol on two characters, base 16

  predicate IsSpace(c: char)
  {
    c == ' ' || c == '\t' || c == '\n' || c == '\U{B}' || c == '\U{C}' || c == '\r'
  }

  /** The value of a hexadecimal digit of either case. */
  function HexValue(c: char): (r: Option<nat>)
    ensures r.Some? ==> r.value < 16
  {
    if '0' <= c <= '9' then Some(c as int - '0' as int)
    else if 'a' <= c <= 'f' then Some(c as int - 'a' as int + 10)
    else if 'A' <= c <= 'F' then Some(c as int - 'A' as int + 10)
    else None
  }

  /** `(char)strtol({a, b, '\0'}, NULL, 16)`: leading white space is
      skipped, a sign is honoured, the longest run of hex digits is taken
      (none gives 0), and the result is truncated to a byte. */
  function Hex2(a: char, b: char): (r: char)
    ensures r as int < 0x100
  {
    var v: int :=
      if IsSpace(a) then (if HexValue(b).Some? then HexValue(b).value else 0)
      else if a == '+' || a == '-' then
        var d := if HexValue(b).Some? then HexValue(b).value else 0;
        if a == '-' then -d else d
      else if HexValue(a).Some? then
        (if HexValue(b).Some? then 16 * HexValue(a).value + HexValue(b).value else HexValue(a).value)
      else 0;
    (v % 0x100) as char
  }

  // ---------------------------------------------------------------------
  // The percent-decoding loop

  /** The decoding loop of lines 45-60 over the rest of the input, with
      room for `room` more characters: `%` followed by two more characters
      becomes one character, `&` or a space ends the parameter, anything
      else is copied. */
  function Decode(s: string, room: nat): (r: string)
    ensures |r| <= room
    decreases |s|
  {
    if |s| == 0 || room == 0 then []
    else if s[0] == '%' && |s| >= 3 then [Hex2(s[1], s[2])] + Decode(s[3..], room - 1)
    else if s[0] == '&' || s[0] == ' ' then []
    else [s[0]] + Decode(s[1..], room - 1)
  }

  // ---------------------------------------------------------------------
  // sscanf("%02hhx:%02hhx:%02hhx:%02hhx:%02hhx:%02hhx")

  /** The digits of one `%02hhx` conversion after its white space: an
      optional sign and hex digits, at most two characters in all, at least
      one digit; the value is the unsigned byte of the signed number. The
      result is the byte and the number of characters used. */
  function Field(s: string): (r: Option<(u8, nat)>)
    ensures r.Some? ==> 0 < r.value.1 <= 2 && r.value.1 <= |s|
  {
    var signed := |s| > 0 && (s[0] == '+' || s[0] == '-');
    var k := if signed then 1 else 0;
    if k >= |s| || HexValue(s[k]).None? then None
    else
      var one := HexValue(s[k]).value;
      var (mag, used) :=
        if !signed && |s| > 1 && HexValue(s[1]).Some? then (16 * one + HexValue(s[1]).value, 2)
        else (one, k + 1);
      var v := if signed && s[0] == '-' then -mag else mag;
      Some((v % 0x100, used))
  }

  /** `%02hhx` including the white space it skips first. */
  function Conversion(s: string): (r: Option<(u8, nat)>)
    ensures r.Some? ==> 0 < r.value.1 <= |s|
    decreases |s|
  {
    if |s| > 0 && IsSpace(s[0]) then
      match Conversion(s[1..])
      case None => None
      case Some((v, n)) => Some((v, n + 1))
    else Field(s)
  }

  /** The scan from the `i`-th of six conversions on: each conversion but
      the first is preceded by a literal `:` that must match exactly; text
      after the sixth is ignored. The bytes come out in text order. */
  function Scan(s: string, i: nat): (r: Option<seq<u8>>)
    requires i < 6
    ensures r.Some? ==> |r.value| == 6 - i
    decreases 6 - i
  {
    var t := if i == 0 then Some(s) else if |s| > 0 && s[0] == ':' then Some(s[1..]) else None;
    if t.None? then None
    else
      match Conversion(t.value)
      case None => None
      case Some((v, n)) =>
        if i == 5 then Some([v])
        else
          match Scan(t.value[n..], i + 1)
          case None => None
          case Some(rest) => Some([v] + rest)
  }

  function Reverse(b: seq<u8>): (r: seq<u8>)
    ensures |r| == |b| && forall i :: 0 <= i < |b| ==> r[i] == b[|b| - 1 - i]
  {
    if |b| == 0 then [] else Reverse(b[1..]) + [b[0]]
  }

  /** The address as the handler stores it: the first field read goes to
      `addr[5]`, the last to `addr[0]`. */
  function ParseMac(s: string): (r: Option<seq<u8>>)
    ensures r.Some? ==> |r.value| == 6
  {
    match Scan(s, 0)
    case None => None
    case Some(fields) => Some(Reverse(fields))
  }

  // ---------------------------------------------------------------------
  // The handler's decision

  datatype Outcome =
    | ReceiveFailed      // 500: nothing was received
    | MissingAddress     // 400: no `addr=` parameter
    | BadLength          // 400: the decoded text is not 17 characters
    | BadMac             // 400: fewer than six fields scanned
    | Connect(addr: seq<u8>)   // ble_proxy_connect is called with this address

  /** The text after `addr=`, decoded and cut at its first NUL, as strlen
      sees it. */
  function AddressText(content: string): (r: Option<string>)
    ensures r.Some? ==> |r.value| <= ADDR_TEXT_LEN && '\0' !in r.value
  {
    var body := CStr(content);
    match Find(body, KEY)
    case None => None
    case Some(i) => Some(CStr(Decode(body[i + |KEY|..], ADDR_TEXT_LEN)))
  }

  /** ble_connect_handler up to the connect call. `received` is what the
      socket delivered when asked for at most 127 bytes. */
  function Handle(received: string): (r: Outcome)
    requires |received| <= CONTENT_MAX
    ensures r.Connect? ==> |r.addr| == 6
    ensures r.Connect? <==> (
      && received != []
      && AddressText(received).Some?
      && |AddressText(received).value| == ADDR_TEXT_LEN
      && ParseMac(AddressText(received).value).Some?)
    ensures r == MissingAddress <==> received != [] && AddressText(received).None?
  {
    if received == [] then ReceiveFailed
    else
      match AddressText(received)
      case None => MissingAddress
      case Some(text) =>
        if |text| != ADDR_TEXT_LEN then BadLength
        else
          match ParseMac(text)
          case None => BadMac
          case Some(addr) => Connect(addr)
  }

  // ---------------------------------------------------------------------
  // The other direction: how a browser sends an address

  const HEX_UPPER: string := "0123456789ABCDEF"

  /** `XX` for a byte, upper-case hex. */
  function HexByte(b: u8): (r: string)
    ensures |r| == 2
  {
    [HEX_UPPER[b / 16], HEX_UPPER[b % 16]]
  }

  /** The text form `AA:BB:CC:DD:EE:FF` of an address stored
      little-endian, most significant byte first. */
  function FormatMac(addr: seq<u8>): (r: string)
    requires |addr| == 6
    ensures |r| == ADDR_TEXT_LEN
  {
    HexByte(addr[5]) + Groups([addr[4], addr[3], addr[2], addr[1], addr[0]])
  }

  /** The `:XX` groups of the bytes in `f`, in order. */
  function Groups(f: seq<u8>): (r: string)
    ensures |r| == 3 * |f|
  {
    if |f| == 0 then [] else ":" + HexByte(f[0]) + Groups(f[1..])
  }

  /** Characters a form encoder must escape, because the decoder would
      otherwise read them as an escape or a terminator. */
  predicate Reserved(c: char)
  {
    c == '%' || c == '&' || c == ' ' || c == ':'
  }

  /** Form-encode a text: reserved characters become `%XY`. */
  function Encode(t: string): (r: string)
  {
    if |t| == 0 then []
    else
      var head := if Reserved(t[0]) then "%" + HexByte(t[0] as int) else [t[0]];
      head + Encode(t[1..])
  }

  lemma HexUpperValue(b: u8)
    ensures HexValue(HexByte(b)[0]) == Some(b / 16) && HexValue(HexByte(b)[1]) == Some(b % 16)
  {
    var s := HEX_UPPER;
    assert s[0] == '0' && s[1] == '1' && s[2] == '2' && s[3] == '3' && s[4] == '4' && s[5] == '5';
    assert s[6] == '6' && s[7] == '7' && s[8] == '8' && s[9] == '9';
    assert s[10] == 'A' && s[11] == 'B' && s[12] == 'C' && s[13] == 'D' && s[14] == 'E' && s[15] == 'F';
  }

  /** An escape written by HexByte decodes to the byte it encodes. */
  lemma Hex2Escape(c: char)
    requires c as int < 0x100
    ensures Hex2(HexByte(c as int)[0], HexByte(c as int)[1]) == c
  {
    var b: u8 := c as int;
    HexUpperValue(b);
    var h := HexByte(b);
    DigitIsPlain(h[0]);
    var v := 16 * (b / 16) + b % 16;
    assert v == b;
    assert Hex2(h[0], h[1]) == (v % 0x100) as char;
  }

  /** A hex digit is neither white space nor a sign. */
  lemma DigitIsPlain(c: char)
    requires HexValue(c).Some?
    ensures !IsSpace(c) && c != '+' && c != '-'
  {
  }

  /** One escape in front of `tail` decodes to its character. */
  lemma DecodeEscape(c: char, tail: string, room: nat)
    requires c as int < 0x100 && room > 0
    ensures Decode("%" + HexByte(c as int) + tail, room) == [c] + Decode(tail, room - 1)
  {
    var s := "%" + HexByte(c as int) + tail;
    assert s[3..] == tail;
    Hex2Escape(c);
  }

  /** An ordinary character in front of `tail` is copied. */
  lemma DecodePlain(c: char, tail: string, room: nat)
    requires c != '%' && c != '&' && c != ' ' && room > 0
    ensures Decode([c] + tail, room) == [c] + Decode(tail, room - 1)
  {
    assert ([c] + tail)[1..] == tail;
  }

  /** Percent-decoding undoes form-encoding for up to 17 characters, and
      stops at the parameter's end: end of input, `&` or a space. */
  lemma {:induction false} DecodeEncode(t: string, rest: string, room: nat)
    requires forall i :: 0 <= i < |t| ==> 0 < t[i] as int < 0x100
    requires |t| <= room
    requires |t| == room || rest == [] || rest[0] == '&' || rest[0] == ' '
    ensures Decode(Encode(t) + rest, room) == t
    decreases |t|
  {
    if |t| == 0 {
      assert Encode(t) + rest == rest;
    } else {
      var tail := Encode(t[1..]) + rest;
      if Reserved(t[0]) {
        assert Encode(t) + rest == "%" + HexByte(t[0] as int) + tail;
        DecodeEscape(t[0], tail, room);
      } else {
        assert Encode(t) + rest == [t[0]] + tail;
        DecodePlain(t[0], tail, room);
      }
      DecodeEncode(t[1..], rest, room - 1);
      assert t == [t[0]] + t[1..];
    }
  }

  /** A conversion reads an upper-case hex pair back as its byte. */
  lemma ConversionHex(b: u8, tail: string)
    ensures Conversion(HexByte(b) + tail) == Some((b, 2))
  {
    HexUpperValue(b);
    var s := HexByte(b) + tail;
    assert s[0] == HexByte(b)[0] && s[1] == HexByte(b)[1];
    DigitIsPlain(s[0]);
    assert 16 * (b / 16) + b % 16 == b;
  }

  /** One `:XX` group in front of `u`, read as the `i`-th conversion. */
  lemma ScanGroup(b: u8, u: string, i: nat)
    requires 0 < i < 6
    ensures i == 5 ==> Scan(":" + HexByte(b) + u, i) == Some([b])
    ensures i < 5 && Scan(u, i + 1).Some? ==> Scan(":" + HexByte(b) + u, i) == Some([b] + Scan(u, i + 1).value)
  {
    var s := ":" + HexByte(b) + u;
    assert s[1..] == HexByte(b) + u;
    ConversionHex(b, u);
    assert (HexByte(b) + u)[2..] == u;
  }

  lemma {:induction false} ScanGroups(f: seq<u8>, i: nat, tail: string)
    requires 0 < i < 6 && |f| == 6 - i
    ensures Scan(Groups(f) + tail, i) == Some(f)
    decreases 6 - i
  {
    var u := Groups(f[1..]) + tail;
    assert Groups(f) + tail == ":" + HexByte(f[0]) + u;
    if i < 5 {
      ScanGroups(f[1..], i + 1, tail);
      ScanGroup(f[0], u, i);
      assert f == [f[0]] + f[1..];
    } else {
      ScanGroup(f[0], u, i);
      assert f == [f[0]];
    }
  }

  /** The first conversion, which has no `:` in front of it. */
  lemma ScanFirst(b: u8, u: string)
    requires Scan(u, 1).Some?
    ensures Scan(HexByte(b) + u, 0) == Some([b] + Scan(u, 1).value)
  {
    ConversionHex(b, u);
    assert (HexByte(b) + u)[2..] == u;
  }

  /** The handler's scan reads a formatted address back. */
  lemma ParseFormatted(addr: seq<u8>)
    requires |addr| == 6
    ensures ParseMac(FormatMac(addr)) == Some(addr)
  {
    var rest := [addr[4], addr[3], addr[2], addr[1], addr[0]];
    ScanGroups(rest, 1, []);
    assert Groups(rest) + [] == Groups(rest);
    ScanFirst(addr[5], Groups(rest));
    var fields := [addr[5]] + rest;
    assert Scan(FormatMac(addr), 0) == Some(fields);
    ReverseSix(addr, rest);
  }

  lemma ReverseSix(addr: seq<u8>, rest: seq<u8>)
    requires |addr| == 6 && rest == [addr[4], addr[3], addr[2], addr[1], addr[0]]
    ensures Reverse([addr[5]] + rest) == addr
  {
    var fields := [addr[5]] + rest;
    var r := Reverse(fields);
    assert forall i :: 0 <= i < 6 ==> fields[5 - i] == addr[i];
    assert r == addr;
  }

  /** Every character of a formatted address is an upper-case hex digit or
      a colon. */
  predicate HexText(t: string)
  {
    forall i :: 0 <= i < |t| ==> t[i] == ':' || t[i] in HEX_UPPER
  }

  lemma {:induction false} GroupsHex(f: seq<u8>)
    ensures HexText(Groups(f))
  {
    if |f| > 0 {
      GroupsHex(f[1..]);
      assert HexText(HexByte(f[0]));
    }
  }

  lemma FormattedHex(addr: seq<u8>)
    requires |addr| == 6
    ensures HexText(FormatMac(addr))
  {
    GroupsHex([addr[4], addr[3], addr[2], addr[1], addr[0]]);
    assert HexText(HexByte(addr[5]));
  }

  /** A C string with no NUL in its first part keeps that part whole. */
  lemma {:induction false} CStrAppend(a: string, b: string)
    requires '\0' !in a
    ensures CStr(a + b) == a + CStr(b)
  {
    if |a| > 0 {
      assert (a + b)[0] == a[0] && (a + b)[1..] == a[1..] + b;
      CStrAppend(a[1..], b);
      assert a == [a[0]] + a[1..];
    } else {
      assert a + b == b;
    }
  }

  /** A body holding the address as a browser form-encodes it, as the
      first parameter, yields the address text itself. */
  lemma AddressTextEncoded(addr: seq<u8>, rest: string)
    requires |addr| == 6
    requires rest == [] || rest[0] == '&'
    ensures AddressText(KEY + Encode(FormatMac(addr)) + rest) == Some(FormatMac(addr))
  {
    var text := FormatMac(addr);
    FormattedHex(addr);
    assert forall i :: 0 <= i < |HEX_UPPER| ==> 0 < HEX_UPPER[i] as int < 0x100;
    assert forall i :: 0 <= i < |text| ==> 0 < text[i] as int < 0x100;
    var enc := Encode(text);
    NoNulEncoded(text);
    assert '\0' !in KEY;
    assert KEY + enc + rest == KEY + (enc + rest);
    CStrAppend(KEY, enc + rest);
    CStrAppend(enc, rest);
    var body := CStr(KEY + enc + rest);
    assert body == KEY + (enc + CStr(rest));
    assert At(body, KEY, 0) by { assert body[0..|KEY|] == KEY; }
    assert body[|KEY|..] == enc + CStr(rest);
    DecodeEncode(text, CStr(rest), ADDR_TEXT_LEN);
    CStrAppend(text, []);
    assert text + [] == text;
  }

  /** ... and so makes the handler connect to exactly that address. */
  lemma HandleEncoded(addr: seq<u8>, rest: string)
    requires |addr| == 6
    requires rest == [] || rest[0] == '&'
    requires |KEY + Encode(FormatMac(addr)) + rest| <= CONTENT_MAX
    ensures Handle(KEY + Encode(FormatMac(addr)) + rest) == Connect(addr)
  {
    AddressTextEncoded(addr, rest);
    ParseFormatted(addr);
  }

  /** Encoding never produces a NUL from text without one. */
  lemma {:induction false} NoNulEncoded(t: string)
    requires forall i :: 0 <= i < |t| ==> 0 < t[i] as int < 0x100
    ensures '\0' !in Encode(t)
  {
    if |t| > 0 {
      NoNulEncoded(t[1..]);
      if Reserved(t[0]) {
        HexUpperValue(t[0] as int);
        var h := HexByte(t[0] as int);
        assert h[0] in HEX_UPPER && h[1] in HEX_UPPER;
      }
    }
  }
}

=== FILE: ble_proxy.dfy ===
// The scanned-device table of the BLE proxy and its scan flag: the
// lookup by address, the table update on each discovery report, the copy
// handed to the web layer, clearing, and starting and stopping a scan.
//
// The NimBLE stack is not part of this model: the advertisement parser's
// result, the report's fields, the clock and the return codes of
// ble_gap_disc and ble_gap_disc_cancel arrive as parameters.

module BleProxy {
  import opened Bits
  import opened Esp

  /** BLE_MAX_DEVICES of ble_proxy.h. */
  const MAX_DEVICES: nat := 20
  const ADDR_LEN: nat := 6
  /** The size of the `name` array; a stored name keeps one byte for NUL. */
  const NAME_SIZE: nat := 32
  /** NimBLE's BLE_HS_EALREADY, which ble_gap_disc_cancel returns when no
      discovery is running. */
  const EALREADY: int := 2

  /** `ble_device_info_t`. The name is the whole 32-byte array, whose C
      string ends at its first NUL. */
  datatype Device = Device(addr: seq<u8>, rssi: int, name: seq<u8>, hasName: bool, lastSeen: u32)

  predicate WellFormed(d: Device)
  {
    |d.addr| == ADDR_LEN && |d.name| == NAME_SIZE && -128 <= d.rssi < 128
  }

  /** The module's statics: the table, its count and the two flags. */
  datatype Proxy = Proxy(slots: seq<Device>, count: nat, scanning: bool, initialized: bool)

  predicate Good(p: Proxy)
  {
    && |p.slots| == MAX_DEVICES && p.count <= MAX_DEVICES
    && forall i :: 0 <= i < |p.slots| ==> WellFormed(p.slots[i])
  }

  /** No address occurs twice among the live entries. */
  predicate Distinct(p: Proxy)
    requires Good(p)
  {
    forall i, j :: 0 <= i < j < p.count ==> p.slots[i].addr != p.slots[j].addr
  }

  /** Some live entry has address `a`. */
  predicate Known(p: Proxy, a: seq<u8>)
    requires Good(p)
  {
    exists i :: 0 <= i < p.count && p.slots[i].addr == a
  }

  /** An all-zero entry, as memset leaves it. */
  function Zero(): (r: Device)
    ensures WellFormed(r) && !r.hasName
  {
    Device(seq(ADDR_LEN, _ => 0), 0, seq(NAME_SIZE, _ => 0), false, 0)
  }

  /** The zero-initialised statics at boot. */
  function Boot(initialized: bool): (r: Proxy)
    ensures Good(r) && Distinct(r) && r.count == 0 && !r.scanning
  {
    Proxy(seq(MAX_DEVICES, _ => Zero()), 0, false, initialized)
  }

  // ---------------------------------------------------------------------
  // find_device_by_addr

  /** The first live entry with address `a`, or -1. */
  function FindFrom(p: Proxy, a: seq<u8>, i: nat): (r: int)
    requires Good(p) && i <= p.count
    ensures r == -1 || i <= r < p.count
    ensures r >= 0 ==> p.slots[r].addr == a && forall j :: i <= j < r ==> p.slots[j].addr != a
    ensures r == -1 ==> forall j :: i <= j < p.count ==> p.slots[j].addr != a
    decreases p.count - i
  {
    if i == p.count then -1
    else if p.slots[i].addr == a then i
    else FindFrom(p, a, i + 1)
  }

  function Find(p: Proxy, a: seq<u8>): (r: int)
    requires Good(p)
    ensures r == -1 <==> !Known(p, a)
    ensures r >= 0 ==> r < p.count && p.slots[r].addr == a
  {
    FindFrom(p, a, 0)
  }

  /** The entry found is the first one with the address. */
  lemma FindFirst(p: Proxy, a: seq<u8>, k: nat)
    requires Good(p) && k < p.count && p.slots[k].addr == a
    requires forall j :: 0 <= j < k ==> p.slots[j].addr != a
    ensures Find(p, a) == k
  {
    var r := Find(p, a);
    assert r != -1 by { assert p.slots[k].addr == a; }
  }

  /** In a table without duplicates the entry found is the only one. */
  lemma FindUnique(p: Proxy, a: seq<u8>, i: nat)
    requires Good(p) && Distinct(p) && i < p.count && p.slots[i].addr == a
    ensures Find(p, a) == i
  {
  }

  // ---------------------------------------------------------------------
  // BLE_GAP_EVENT_DISC

  /** One discovery report: the advertiser's address, its signal strength
      and the name the advertisement parser found (`None` when it found
      none). `now` is the clock in whole seconds. */
  datatype Report = Report(addr: seq<u8>, rssi: int, name: Option<seq<u8>>, now: u32)

  predicate ValidReport(r: Report)
  {
    |r.addr| == ADDR_LEN && -128 <= r.rssi < 128 && (r.name.Some? ==> |r.name.value| < 0x100)
  }

  /** The name array after storing `n`: at most 31 bytes copied, a NUL
      after them, the rest of the old array left as it was. */
  function StoreName(prev: seq<u8>, n: seq<u8>): (r: seq<u8>)
    requires |prev| == NAME_SIZE
    ensures |r| == NAME_SIZE
    ensures var k := if |n| > NAME_SIZE - 1 then NAME_SIZE - 1 else |n|;
      && r[..k] == n[..k] && r[k] == 0 && r[k + 1..] == prev[k + 1..]
  {
    var k := if |n| > NAME_SIZE - 1 then NAME_SIZE - 1 else |n|;
    var r := n[..k] + [0] + prev[k + 1..];
    assert r[..k] == n[..k] && r[k + 1..] == prev[k + 1..];
    r
  }

  /** The update of entry `d` from a report. */
  function Refresh(d: Device, r: Report): (e: Device)
    requires WellFormed(d) && ValidReport(r)
    ensures WellFormed(e) && e.addr == d.addr && e.rssi == r.rssi && e.lastSeen == r.now
    ensures r.name.Some? && |r.name.value| > 0 ==> e.hasName && e.name == StoreName(d.name, r.name.value)
    ensures !(r.name.Some? && |r.name.value| > 0) ==> e.hasName == d.hasName && e.name == d.name
  {
    var d1 := d.(rssi := r.rssi, lastSeen := r.now);
    if r.name.Some? && |r.name.value| > 0 then d1.(name := StoreName(d.name, r.name.value), hasName := true)
    else d1
  }

  /** The BLE_GAP_EVENT_DISC case of ble_gap_event: a known address is
      refreshed in place; an unknown one takes the next free slot while
      there is one, and is dropped when the table is full. */
  function OnDisc(p: Proxy, r: Report): (q: Proxy)
    requires Good(p) && ValidReport(r)
    ensures Good(q) && q.scanning == p.scanning && q.initialized == p.initialized
    ensures Known(p, r.addr) ==> q.count == p.count
    ensures !Known(p, r.addr) && p.count < MAX_DEVICES ==>
      q.count == p.count + 1 && q.slots[p.count].addr == r.addr
    ensures !Known(p, r.addr) && p.count == MAX_DEVICES ==> q == p
    ensures Known(q, r.addr) <==> Known(p, r.addr) || p.count < MAX_DEVICES
  {
    var idx := Find(p, r.addr);
    if idx < 0 && p.count < MAX_DEVICES then
      var slot := p.slots[p.count].(addr := r.addr, hasName := false);
      var q := p.(slots := p.slots[p.count := Refresh(slot, r)], count := p.count + 1);
      assert q.slots[p.count].addr == r.addr;
      q
    else if idx >= 0 then
      var q := p.(slots := p.slots[idx := Refresh(p.slots[idx], r)]);
      assert q.slots[idx].addr == r.addr;
      q
    else p
  }

  /** A report never creates a duplicate: the table's addresses stay
      pairwise distinct. */
  lemma OnDiscDistinct(p: Proxy, r: Report)
    requires Good(p) && ValidReport(r)
    ensures Distinct(p) ==> Distinct(OnDisc(p, r))
  {
    var q := OnDisc(p, r);
    var idx := Find(p, r.addr);
    if Distinct(p) && idx < 0 && p.count < MAX_DEVICES {
      forall i, j | 0 <= i < j < q.count ensures q.slots[i].addr != q.slots[j].addr {
        if j == p.count {
          assert q.slots[i].addr == p.slots[i].addr;
        }
      }
    }
  }

  /** A report changes at most the one entry of its address; every other
      entry, live or not, is as it was. */
  lemma OnDiscFrame(p: Proxy, r: Report, i: nat)
    requires Good(p) && ValidReport(r) && i < MAX_DEVICES && p.slots[i].addr != r.addr
    requires i != p.count || Known(p, r.addr)
    ensures OnDisc(p, r).slots[i] == p.slots[i]
  {
  }

  /** The entry of a reported address carries the report's signal
      strength and time, and its name when the report has one. */
  lemma OnDiscEntry(p: Proxy, r: Report)
    requires Good(p) && ValidReport(r) && (Known(p, r.addr) || p.count < MAX_DEVICES)
    ensures var q := OnDisc(p, r); var i := Find(q, r.addr);
      && i >= 0 && q.slots[i].rssi == r.rssi && q.slots[i].lastSeen == r.now
      && (r.name.Some? && |r.name.value| > 0 ==> q.slots[i].hasName)
      && (!Known(p, r.addr) && (r.name.None? || |r.name.value| == 0) ==> !q.slots[i].hasName)
  {
    var q := OnDisc(p, r);
    var idx := Find(p, r.addr);
    if idx >= 0 {
      assert forall j :: 0 <= j < idx ==> q.slots[j] == p.slots[j];
      FindFirst(q, r.addr, idx);
    } else {
      assert forall j :: 0 <= j < p.count ==> q.slots[j] == p.slots[j];
      FindFirst(q, r.addr, p.count);
    }
  }

  // ---------------------------------------------------------------------
  // Other GAP events

  datatype GapEvent = Disc(report: Report) | DiscComplete | OtherEvent

  /** ble_gap_event: discovery reports update the table, the end of a
      discovery clears the scanning flag, other events change nothing. */
  function OnGapEvent(p: Proxy, e: GapEvent): (q: Proxy)
    requires Good(p) && (e.Disc? ==> ValidReport(e.report))
    ensures Good(q) && (Distinct(p) ==> Distinct(q))
    ensures e.DiscComplete? ==> q == p.(scanning := false)
    ensures e.OtherEvent? ==> q == p
    ensures e.Disc? ==> q.scanning == p.scanning && q.count >= p.count
  {
    match e
    case Disc(r) =>
      OnDiscDistinct(p, r);
      OnDisc(p, r)
    case DiscComplete => p.(scanning := false)
    case OtherEvent => p
  }

  // ---------------------------------------------------------------------
  // ble_proxy_get_devices, ble_proxy_clear_devices

  /** ble_proxy_get_devices: the number of entries reported and the
      entries copied into the caller's array (none when it passed NULL). */
  function GetDevices(p: Proxy, maxDevices: nat, hasBuffer: bool): (r: (nat, seq<Device>))
    requires Good(p) && maxDevices < 0x1_0000
    ensures r.0 <= p.count && r.0 <= maxDevices && (r.0 == p.count || r.0 == maxDevices)
    ensures hasBuffer ==> r.1 == p.slots[..r.0]
    ensures !hasBuffer ==> r.1 == []
  {
    var count := if p.count < maxDevices then p.count else maxDevices;
    if hasBuffer && count > 0 then (count, p.slots[..count]) else (count, [])
  }

  /** ble_proxy_clear_devices: the count drops to zero and every entry is
      zeroed; the flags are untouched. */
  function Clear(p: Proxy): (q: Proxy)
    requires Good(p)
    ensures Good(q) && Distinct(q) && q.count == 0
    ensures q.scanning == p.scanning && q.initialized == p.initialized
    ensures forall i :: 0 <= i < MAX_DEVICES ==> q.slots[i] == Zero()
  {
    p.(count := 0, slots := seq(MAX_DEVICES, _ => Zero()))
  }

  /** After clearing nothing is known, nothing is handed out, and clearing
      again changes nothing. */
  lemma ClearForgets(p: Proxy, a: seq<u8>, maxDevices: nat, hasBuffer: bool)
    requires Good(p) && maxDevices < 0x1_0000
    ensures Find(Clear(p), a) == -1
    ensures GetDevices(Clear(p), maxDevices, hasBuffer) == (0, [])
    ensures Clear(Clear(p)) == Clear(p)
  {
  }

  // ---------------------------------------------------------------------
  // ble_proxy_start_scan, ble_proxy_stop_scan

  /** ble_proxy_start_scan; `rc` is what ble_gap_disc returned. */
  function StartScan(p: Proxy, rc: int): (r: (Proxy, Err))
    ensures r.1 == Ok <==> p.initialized && !p.scanning && rc == 0
    ensures r.1 == Ok ==> r.0 == p.(scanning := true)
    ensures r.1 != Ok ==> r.0 == p && (r.1 == InvalidState || r.1 == Fail)
    ensures r.1 == InvalidState <==> !p.initialized || p.scanning
  {
    if !p.initialized then (p, InvalidState)
    else if p.scanning then (p, InvalidState)
    else if rc != 0 then (p, Fail)
    else (p.(scanning := true), Ok)
  }

  /** ble_proxy_stop_scan; `rc` is what ble_gap_disc_cancel returned, and
      "already stopped" counts as success. */
  function StopScan(p: Proxy, rc: int): (r: (Proxy, Err))
    ensures r.1 == Ok || r.1 == Fail
    ensures r.1 == Fail <==> p.scanning && rc != 0 && rc != EALREADY
    ensures r.1 == Ok ==> r.0 == p.(scanning := false)
    ensures r.1 == Fail ==> r.0 == p
  {
    if !p.scanning then (p, Ok)
    else if rc != 0 && rc != EALREADY then (p, Fail)
    else (p.(scanning := false), Ok)
  }

  /** A scan that started and then stopped leaves the state as it found
      it; stopping twice is the same as stopping once. */
  lemma StartStop(p: Proxy, rc1: int, rc2: int)
    requires StartScan(p, rc1).1 == Ok && (rc2 == 0 || rc2 == EALREADY)
    ensures StopScan(StartScan(p, rc1).0, rc2) == (p, Ok)
    ensures StopScan(StopScan(p, rc2).0, rc1).0 == StopScan(p, rc2).0
  {
  }
}

=== FILE: esp.dfy ===
/**
 * The `esp_err_t` results the firmware returns (only the codes the modelled
 * functions can produce), and an optional value for a C pointer that may be
 * NULL.
 */
module Esp {

  datatype Err =
    | Ok            // ESP_OK
    | Fail          // ESP_FAIL
    | InvalidArg    // ESP_ERR_INVALID_ARG
    | InvalidState  // ESP_ERR_INVALID_STATE
    | InvalidSize   // ESP_ERR_INVALID_SIZE
    | NotSupported  // ESP_ERR_NOT_SUPPORTED
    | Timeout       // ESP_ERR_TIMEOUT

  /** A value that may be absent, as a NULL pointer argument is. */
  datatype Option<T> = None | Some(value: T)
}

=== FILE: nvmc.dfy ===
/**
 * The part of an nRF52840 that the flash engine talks to through the
 * debug port, as the nRF52840 Product Specification describes it (NVMC and
 * UICR chapters): code flash of 1 MiB in 4 KiB pages, the NVMC registers
 * READY, CONFIG, ERASEPAGE and ERASEALL, and the UICR APPROTECT word.
 *
 * Flash is NOR flash: programming a word can only clear bits (the stored
 * word becomes `old & value`), and only erasing sets them again. The NVMC
 * programs only in write-enable mode and erases only in erase-enable mode.
 *
 * The memory-access layer swd_mem_read32/swd_mem_write32 (swd_mem.c) is not
 * part of this model; it is described here by what it does to the chip and
 * by a script of fates, one per access: an access is performed, fails with
 * ESP_FAIL, or (for a write) is acknowledged but never reaches the chip.
 * Once the script runs out every access is performed.
 */
module Nvmc {
  import opened Bits
  import opened Esp

  /** NRF52_FLASH_SIZE: the nRF52840's 1 MiB of code flash. */
  const FLASH_SIZE: nat := 0x10_0000
  /** NRF52_FLASH_PAGE_SIZE, the 4 KiB the upload buffer also uses. */
  const PAGE_SIZE: nat := 0x1000
  const WORDS: nat := 0x4_0000
  const PAGE_WORDS: nat := 0x400

  const NVMC_READY: u32 := 0x4001_E400
  const NVMC_CONFIG: u32 := 0x4001_E504
  const NVMC_ERASEPAGE: u32 := 0x4001_E508
  const NVMC_ERASEALL: u32 := 0x4001_E50C
  const UICR_APPROTECT: u32 := 0x1000_1208

  /** NVMC_CONFIG_REN / WEN / EEN: read-only, write-enable, erase-enable. */
  const REN: nat := 0
  const WEN: nat := 1
  const EEN: nat := 2

  const ERASED: u32 := 0xFFFF_FFFF
  /** Flash as a chip erase leaves it. */
  function Blank(): (r: seq<u32>)
    ensures |r| == WORDS && forall i :: 0 <= i < |r| ==> r[i] == ERASED
  {
    seq(WORDS, _ => ERASED)
  }
  /** The UICR APPROTECT value HwDisabled. */
  const HW_DISABLED: u32 := 0xFFFF_FF5A

  /** The chip: flash words, the APPROTECT word, the CONFIG mode, and how
      many more READY reads will still find the controller busy. */
  datatype Chip = Chip(flash: seq<u32>, uicr: u32, config: nat, busy: nat)

  predicate Valid(c: Chip)
  {
    |c.flash| == WORDS && c.config < 4
  }

  datatype Fate = Done | Failed | Dropped

  /** One access as the host saw it: the address, the word read or written
      and whether the access layer reported success. */
  datatype Access =
    | Read(addr: u32, value: u32, ok: bool)
    | Write(addr: u32, value: u32, ok: bool)

  datatype Mem = Mem(chip: Chip, fates: seq<Fate>, trace: seq<Access>)

  predicate Ready(m: Mem)
  {
    Valid(m.chip)
  }

  /** The word a read of address `a` returns, and the chip afterwards (a
      READY read uses up one busy poll). */
  function Load(c: Chip, a: u32): (r: (Chip, u32))
    requires Valid(c)
    ensures Valid(r.0) && r.0.flash == c.flash && r.0.uicr == c.uicr && r.0.config == c.config
    ensures a != NVMC_READY ==> r.0 == c
    ensures a == NVMC_READY ==> r.1 == (if c.busy == 0 then 1 else 0)
    ensures a == NVMC_READY ==> r.0.busy == (if c.busy == 0 then 0 else c.busy - 1)
    ensures a == NVMC_CONFIG ==> r.1 == c.config
    ensures a == UICR_APPROTECT ==> r.1 == c.uicr
    ensures a < FLASH_SIZE ==> r.1 == c.flash[a / 4]
  {
    if a == NVMC_READY then
      if c.busy == 0 then (c, 1) else (c.(busy := c.busy - 1), 0)
    else if a == NVMC_CONFIG then (c, c.config)
    else if a == UICR_APPROTECT then (c, c.uicr)
    else if a < FLASH_SIZE then (c, c.flash[a / 4])
    else (c, 0)
  }

  /** Erase the page holding word `w`. */
  function ErasePageWords(flash: seq<u32>, page: nat): (r: seq<u32>)
    ensures |r| == |flash|
    ensures forall i :: 0 <= i < |r| ==> r[i] == if i / PAGE_WORDS == page then ERASED else flash[i]
  {
    seq(|flash|, i requires 0 <= i < |flash| => if i / PAGE_WORDS == page then ERASED else flash[i])
  }

  /** Program word `w`: bits can only be cleared. */
  function Program(flash: seq<u32>, w: nat, v: u32): (r: seq<u32>)
    requires w < |flash|
    ensures |r| == |flash| && r[w] == And(flash[w], v)
    ensures forall i :: 0 <= i < |r| && i != w ==> r[i] == flash[i]
  {
    flash[w := And(flash[w], v)]
  }

  /** What a write of `v` to address `a` does to the chip. */
  function Store(c: Chip, a: u32, v: u32): (r: Chip)
    requires Valid(c)
    ensures Valid(r) && r.busy == c.busy
    ensures a == NVMC_CONFIG ==> r == c.(config := v % 4)
    ensures a != NVMC_CONFIG ==> r.config == c.config
    ensures a != NVMC_ERASEALL && a != UICR_APPROTECT ==> r.uicr == c.uicr
    ensures a != NVMC_ERASEPAGE && a != NVMC_ERASEALL && !(a < FLASH_SIZE && a % 4 == 0)
      ==> r.flash == c.flash
    ensures a < FLASH_SIZE && a % 4 == 0 ==>
      r.flash == if c.config == WEN then Program(c.flash, a / 4, v) else c.flash
    ensures a == NVMC_ERASEPAGE ==>
      r.flash == if c.config == EEN && v < FLASH_SIZE then ErasePageWords(c.flash, v / PAGE_SIZE) else c.flash
    ensures a == NVMC_ERASEALL ==>
      r == if c.config == EEN && v == 1 then c.(flash := Blank(), uicr := ERASED) else c
    ensures a == UICR_APPROTECT ==> r == if c.config == WEN then c.(uicr := And(c.uicr, v)) else c
  {
    if a == NVMC_CONFIG then c.(config := v % 4)
    else if a == NVMC_ERASEPAGE then
      if c.config == EEN && v < FLASH_SIZE then c.(flash := ErasePageWords(c.flash, v / PAGE_SIZE))
      else c
    else if a == NVMC_ERASEALL then
      if c.config == EEN && v == 1 then c.(flash := Blank(), uicr := ERASED)
      else c
    else if a == UICR_APPROTECT then
      if c.config == WEN then c.(uicr := And(c.uicr, v)) else c
    else if a < FLASH_SIZE && a % 4 == 0 then
      if c.config == WEN then c.(flash := Program(c.flash, a / 4, v)) else c
    else c
  }

  function NextFate(m: Mem): Fate
  {
    if |m.fates| == 0 then Done else m.fates[0]
  }

  function Advance(m: Mem): seq<Fate>
  {
    if |m.fates| == 0 then [] else m.fates[1..]
  }

  /** swd_mem_read32. */
  function MemRead(m: Mem, a: u32): (r: (Mem, Err, u32))
    requires Ready(m)
    ensures Ready(r.0) && r.0.fates == Advance(m)
    ensures r.1 == Ok || r.1 == Fail
    ensures r.1 == Ok <==> NextFate(m) != Failed
    ensures r.0.trace == m.trace + [Read(a, r.2, r.1 == Ok)]
    ensures r.1 == Ok ==> (r.0.chip, r.2) == Load(m.chip, a)
    ensures r.1 != Ok ==> r.0.chip == m.chip
  {
    if NextFate(m) == Failed then
      (Mem(m.chip, Advance(m), m.trace + [Read(a, 0, false)]), Fail, 0)
    else
      var (c, v) := Load(m.chip, a);
      (Mem(c, Advance(m), m.trace + [Read(a, v, true)]), Ok, v)
  }

  /** swd_mem_write32. */
  function MemWrite(m: Mem, a: u32, v: u32): (r: (Mem, Err))
    requires Ready(m)
    ensures Ready(r.0) && r.0.fates == Advance(m)
    ensures r.1 == Ok || r.1 == Fail
    ensures r.1 == Ok <==> NextFate(m) != Failed
    ensures r.0.trace == m.trace + [Write(a, v, r.1 == Ok)]
    ensures r.0.chip == if NextFate(m) == Done then Store(m.chip, a, v) else m.chip
  {
    match NextFate(m)
    case Failed => (Mem(m.chip, Advance(m), m.trace + [Write(a, v, false)]), Fail)
    case Dropped => (Mem(m.chip, Advance(m), m.trace + [Write(a, v, true)]), Ok)
    case Done => (Mem(Store(m.chip, a, v), Advance(m), m.trace + [Write(a, v, true)]), Ok)
  }

  // ---------------------------------------------------------------------
  // Bytes of a word, little-endian as the ESP32 stores a uint32_t

  /** Byte `k` of `w`, counting from the least significant. */
  function ByteOf(w: nat, k: nat): (r: u8)
    decreases k
  {
    if k == 0 then w % 256 else ByteOf(w / 256, k - 1)
  }

  /** The four bytes of a word in memory order. */
  function Bytes(w: u32): (r: seq<u8>)
    ensures |r| == 4 && forall k :: 0 <= k < 4 ==> r[k] == ByteOf(w, k)
  {
    [ByteOf(w, 0), ByteOf(w, 1), ByteOf(w, 2), ByteOf(w, 3)]
  }

  /** The word four bytes in memory order make. */
  function Pack(b: seq<u8>): (r: u32)
    requires |b| == 4
  {
    var b0: int, b1: int, b2: int, b3: int := b[0], b[1], b[2], b[3];
    b0 + 256 * (b1 + 256 * (b2 + 256 * b3))
  }

  lemma PackBytes(b: seq<u8>)
    requires |b| == 4
    ensures Bytes(Pack(b)) == b
  {
    var w := Pack(b);
    var b1: int, b2: int, b3: int := b[1], b[2], b[3];
    var q1 := b1 + 256 * (b2 + 256 * b3);
    var q2 := b2 + 256 * b3;
    assert w % 256 == b[0] && w / 256 == q1;
    assert q1 % 256 == b[1] && q1 / 256 == q2;
    assert q2 % 256 == b[2] && q2 / 256 == b[3];
    assert ByteOf(w, 1) == ByteOf(q1, 0);
    assert ByteOf(w, 2) == ByteOf(q2, 0);
    assert ByteOf(w, 3) == ByteOf(b[3], 0);
  }

  lemma BytesPack(w: u32)
    ensures Pack(Bytes(w)) == w
  {
    var q1 := w / 256;
    var q2 := q1 / 256;
    var q3 := q2 / 256;
    assert ByteOf(w, 1) == q1 % 256;
    assert ByteOf(w, 2) == q2 % 256;
    assert ByteOf(w, 3) == q3 % 256;
    assert q3 < 256;
  }

  /** Byte `a` of flash. */
  function FlashByte(c: Chip, a: nat): u8
    requires Valid(c) && a < FLASH_SIZE
  {
    Bytes(c.flash[a / 4])[a % 4]
  }

  // ---------------------------------------------------------------------
  // The masks the driver writes with `&`

  /** `addr & ~(NRF52_FLASH_PAGE_SIZE - 1)` rounds down to a page boundary. */
  lemma PageMask(addr: u32)
    ensures And(addr, 0xFFFF_F000) == addr - addr % PAGE_SIZE
  {
    Pow2Word();
    assert Pow2(12) == 0x1000;
    HighBits(addr, 32, 12);
  }

  /** `addr & ~0x3` rounds down to a word boundary and `addr & 0x3` is the
      byte offset within the word. */
  lemma WordMask(addr: u32)
    ensures And(addr, 0xFFFF_FFFC) == addr - addr % 4
    ensures And(addr, 3) == addr % 4
  {
    Pow2Word();
    assert Pow2(2) == 4;
    HighBits(addr, 32, 2);
    LowBits(addr, 2);
  }

  /** `v & 0x1` and `v & 0x3` keep the low one and two bits. */
  lemma LowMasks(v: nat)
    ensures And(v, 1) == v % 2 && And(v, 3) == v % 4
  {
    assert Pow2(2) == 4;
    LowBits(v, 1);
    LowBits(v, 2);
  }

  /** Programming a word over erased flash stores the word unchanged. */
  lemma ProgramErased(v: u32)
    ensures And(ERASED, v) == v
  {
    Pow2Word();
    LowBits(v, 32);
    AndCommutes(v, ERASED);
  }
}

=== FILE: swd_engine.dfy ===
/**
 * The transaction layer of swd_core.c: DP and AP register accesses with
 * their bounded retry loops, the sticky-error clear, debug power-up,
 * connect, disconnect, the liveness check and the reset pin.
 *
 * The target is described by the replies it gives, one per raw transfer,
 * in order (`Swd.replies`); once the replies run out the line floats high
 * and every acknowledgement reads 0b111. What the host does is recorded as
 * a log of events, one per raw transfer and one per line sequence, delay
 * or reset pulse. TransferIsRaw ties one step of this description to the
 * bit-level TransferRaw of SwdTransfer.
 *
 * The DP register addresses are those of section B2.2 of ADIv5.2; the
 * header that names them, swd_core.h, is not part of this model.
 */
module SwdEngine {
  import opened Bits
  import opened Esp
  import opened SwdLink
  import opened SwdTransfer

  const DP_IDCODE: u8 := 0x00
  const DP_ABORT: u8 := 0x00
  const DP_CTRL_STAT: u8 := 0x04
  const DP_SELECT: u8 := 0x08
  const DP_RDBUFF: u8 := 0x0C

  /** Attempts every retry loop makes before reporting ESP_FAIL. */
  const RETRIES: nat := 10
  /** ORUNERRCLR | WDERRCLR | STKERRCLR | STKCMPCLR: the ABORT write that
      clears every sticky error flag. */
  const ABORT_CLEAR: u32 := 0x1E
  /** CSYSPWRUPREQ | CDBGPWRUPREQ. */
  const POWER_REQUEST: u32 := 0x5000_0000
  /** CSYSPWRUPACK | CDBGPWRUPACK. */
  const POWER_ACK: u32 := 0xA000_0000
  /** CTRL/STAT reads swd_power_up makes before giving up. */
  const POWER_POLLS: nat := 100

  /** What the host does on the wire or to its own timing. */
  datatype Event =
    | Xfer(addr: u8, ap: bool, read: bool, data: u32, ack: nat)
      // one swd_transfer_raw; `data` is the word written, or the word the
      // host holds afterwards for a read, and `ack` the result reported
    | Delay             // vTaskDelay between attempts
    | LineResetSent
    | JtagToSwdSent
    | DormantWakeupSent
    | ResetPulse        // nRST low, then high again

  /** swd_config_t: the pins and the half-period delay. A negative reset
      pin means that no reset line is wired. */
  datatype Config = Config(swclk: int, swdio: int, reset: int, delayCycles: int)

  /** The driver's static state together with the target's remaining
      replies and the host's log. */
  datatype Swd = Swd(initialized: bool, connected: bool, config: Config,
                     replies: seq<Reply>, log: seq<Event>)

  /** The result of a register access: the new state, the error code, the
      caller's word afterwards, the acknowledgement each attempt of the
      access's own loop got, and the state each of those attempts started
      from (clears issued on the way are not listed). */
  datatype Outcome = Outcome(swd: Swd, err: Err, data: u32, acks: seq<nat>, tries: seq<Swd>)

  /** The state before swd_init: the static configuration is all zero. */
  function Boot(replies: seq<Reply>): (r: Swd)
    ensures !r.initialized && !r.connected && r.log == [] && r.replies == replies
  {
    Swd(false, false, Config(0, 0, 0, 0), replies, [])
  }

  predicate Suffix<T(==)>(a: seq<T>, b: seq<T>)
  {
    |a| <= |b| && a == b[|b| - |a|..]
  }

  /** `t` is a later state of the same session as `s`: flags and
      configuration are those of `s`, the log has only grown, and the
      target's replies have only been consumed, front first. */
  predicate Follows(s: Swd, t: Swd)
  {
    t.initialized == s.initialized && t.connected == s.connected
    && t.config == s.config
    && s.log <= t.log
    && Suffix(t.replies, s.replies)
  }

  lemma FollowsTrans(s: Swd, t: Swd, u: Swd)
    requires Follows(s, t) && Follows(t, u)
    ensures Follows(s, u)
  {
    assert u.replies == s.replies[|s.replies| - |u.replies|..];
  }

  function Last<T>(s: seq<T>): T
    requires |s| > 0
  {
    s[|s| - 1]
  }

  /** One raw transfer against the scripted target. */
  function Raw(s: Swd, addr: u8, ap: bool, read: bool, data: u32): (r: (Swd, nat, u32))
    ensures |s.replies| == 0 ==> r.1 == ACK_NONE && r.2 == data && r.0.replies == []
    ensures |s.replies| > 0 ==>
      (r.1, r.2) == Answer(s.replies[0], read, data) && r.0.replies == s.replies[1..]
    ensures r.0 == s.(replies := r.0.replies, log := s.log + [Xfer(addr, ap, read, r.2, r.1)])
    ensures Follows(s, r.0)
  {
    var e := Xfer(addr, ap, read, data, ACK_NONE);
    if |s.replies| == 0 then
      Logged(s, e);
      (s.(log := s.log + [e]), ACK_NONE, data)
    else
      var (ack, out) := Answer(s.replies[0], read, data);
      var t := s.(replies := s.replies[1..], log := s.log + [Xfer(addr, ap, read, out, ack)]);
      Consumed(s, t);
      (t, ack, out)
  }

  lemma Logged(s: Swd, e: Event)
    ensures Follows(s, s.(log := s.log + [e]))
  {
  }

  lemma Consumed(s: Swd, t: Swd)
    requires |s.replies| > 0 && t.replies == s.replies[1..]
    requires t.initialized == s.initialized && t.connected == s.connected && t.config == s.config
    requires s.log <= t.log
    ensures Follows(s, t)
  {
  }

  /** The scripted transfer is the bit-level one: on a link whose target
      stream holds the levels of the scripted replies (or nothing, once they
      are used up) swd_transfer_raw reports what Raw reports and leaves the
      levels of the remaining replies. */
  lemma TransferIsRaw(s: Swd, l: Link, addr: u8, ap: bool, read: bool, data: u32, rest: seq<bool>)
    requires Idle(l)
    requires |s.replies| == 0 ==> l.target == [] && rest == []
    requires |s.replies| > 0 ==>
      WellFormed(s.replies[0]) && l.target == ReplyBits(s.replies[0], read) + rest
    ensures var t := TransferRaw(l, addr, ap, read, data);
      var r := Raw(s, addr, ap, read, data);
      t.ack == r.1 && t.data == r.2 && t.link.target == rest
  {
    if |s.replies| == 0 {
      TransferFloating(l, addr, ap, read, data);
    } else {
      TransferAnswers(l, addr, ap, read, data, s.replies[0], rest);
    }
  }

  /** The write of the clear pattern to ABORT. */
  predicate ClearWrite(e: Event)
  {
    e.Xfer? && e.addr == DP_ABORT && !e.ap && !e.read && e.data == ABORT_CLEAR
  }

  /** `t` is `s` after swd_clear_errors: nothing happens before swd_init;
      afterwards the host writes the clear pattern to ABORT first and logs
      nothing but such writes and the delays of their own retry loop. */
  predicate Cleared(s: Swd, t: Swd)
  {
    Follows(s, t)
    && (!s.initialized ==> t == s)
    && (s.initialized ==> |t.log| > |s.log| && ClearWrite(t.log[|s.log|]))
    && (forall j {:trigger Clearing(t.log[j])} :: |s.log| <= j < |t.log| ==> Clearing(t.log[j]))
  }

  /** An event of swd_clear_errors: a clear write or a delay of its loop. */
  predicate Clearing(e: Event)
  {
    ClearWrite(e) || e == Delay
  }

  /** What happens between an attempt that ended in state `s` with
      acknowledgement `ack` and the next attempt, which starts from `t`: a
      delay of one tick after WAIT, the sticky-error clear after FAULT, and
      nothing at all after any other acknowledgement. */
  predicate Retry(s: Swd, ack: nat, t: Swd)
  {
    if ack == ACK_WAIT then t == s.(log := s.log + [Delay])
    else if ack == ACK_FAULT then Cleared(s, t)
    else t == s
  }

  /** An event a retry loop for the access (`addr`, `ap`, `read`, `data`)
      may log: one of its own transfers (a write always sends `data`), a
      delay, or a clear write. */
  predicate Within(e: Event, addr: u8, ap: bool, read: bool, data: u32)
  {
    e == Delay || ClearWrite(e)
    || (e.Xfer? && e.addr == addr && e.ap == ap && e.read == read && (!read ==> e.data == data))
  }

  /** What every register access promises about its own retry loop of `k`
      attempts: the loop settles as `Settled` says, attempt by attempt it
      goes as `Traced` says, and it logs only its own events. */
  predicate Retried(s: Swd, r: Outcome, addr: u8, ap: bool, read: bool, data: u32, k: nat)
  {
    Settled(s, r, addr, ap, read, data, k)
    && Traced(s, r, addr, ap, read, data)
    && Confined(s.log, r.swd.log, addr, ap, read, data)
  }

  /** The loop fails or succeeds; it succeeds exactly when its last attempt
      was acknowledged OK and no attempt before it was; a failure used up
      all `k` attempts; a success logs the OK transfer last; and the
      caller's word changes only on a successful read. */
  predicate Settled(s: Swd, r: Outcome, addr: u8, ap: bool, read: bool, data: u32, k: nat)
  {
    Follows(s, r.swd)
    && (r.err == Ok || r.err == Fail)
    && |r.acks| <= k && (k > 0 ==> |r.acks| > 0)
    && (r.err == Ok <==> |r.acks| > 0 && Last(r.acks) == ACK_OK)
    && (forall i :: 0 <= i < |r.acks| - 1 ==> r.acks[i] != ACK_OK)
    && (r.err == Fail ==> |r.acks| == k)
    && (r.err == Ok ==> |r.swd.log| > 0 && Last(r.swd.log) == Xfer(addr, ap, read, r.data, ACK_OK))
    && (r.err != Ok || !read ==> r.data == data)
  }

  /** Attempt by attempt: the first starts from `s` and is the first thing
      logged; attempt `i` is the raw transfer from `r.tries[i]`, which
      consumes the target's next reply (or finds none) and reports
      `r.acks[i]`; between two attempts, and after the last one of a
      failure, comes the `Retry` for that acknowledgement; a success ends
      with the state and the word of its OK transfer. */
  predicate Traced(s: Swd, r: Outcome, addr: u8, ap: bool, read: bool, data: u32)
  {
    |r.tries| == |r.acks|
    && (|r.acks| == 0 ==> r.swd == s)
    && (|r.acks| > 0 ==>
          && r.tries[0] == s
          && |r.swd.log| > |s.log|
          && r.swd.log[|s.log|] == Xfer(addr, ap, read, Raw(s, addr, ap, read, data).2, r.acks[0]))
    && Steps(r.acks, r.tries, addr, ap, read, data)
    && (|r.acks| > 0 ==> Ended(Last(r.tries), Last(r.acks), r, addr, ap, read, data))
  }

  /** How a loop whose last attempt started from `u` and got `ack` ends:
      a success keeps the state and word of its OK transfer, a failure
      takes the `Retry` step of that last acknowledgement. */
  predicate Ended(u: Swd, ack: nat, r: Outcome, addr: u8, ap: bool, read: bool, data: u32)
  {
    var x := Raw(u, addr, ap, read, data);
    (r.err == Ok ==> r.swd == x.0 && r.data == x.2)
    && (r.err != Ok ==> Retry(x.0, ack, r.swd))
  }

  /** Attempt `i` started from `tries[i]` and got `acks[i]`, and each
      attempt but the last was followed by its `Retry` step. */
  predicate Steps(acks: seq<nat>, tries: seq<Swd>, addr: u8, ap: bool, read: bool, data: u32)
    requires |tries| == |acks|
  {
    && (forall i {:trigger Raw(tries[i], addr, ap, read, data)} ::
          0 <= i < |acks| ==> Raw(tries[i], addr, ap, read, data).1 == acks[i])
    && (forall i {:trigger Raw(tries[i], addr, ap, read, data)} :: 0 <= i < |acks| - 1 ==>
          Retry(Raw(tries[i], addr, ap, read, data).0, acks[i], tries[i + 1]))
  }

  /** Every event logged after the first `|before|` is one a retry loop for
      the access may log. */
  predicate Confined(before: seq<Event>, after: seq<Event>, addr: u8, ap: bool, read: bool, data: u32)
  {
    forall j {:trigger Within(after[j], addr, ap, read, data)} ::
      |before| <= j < |after| ==> Within(after[j], addr, ap, read, data)
  }

  /** The loop body shared by swd_dp_read, swd_dp_write, swd_ap_read and
      swd_ap_write, with `k` attempts left: OK returns at once, WAIT waits a
      tick, FAULT (a refused access or a read whose parity was wrong) clears
      the sticky errors, and any other acknowledgement just tries again. */
  function Attempts(s: Swd, addr: u8, ap: bool, read: bool, data: u32, k: nat): (r: Outcome)
    decreases |s.replies|, k
    ensures Retried(s, r, addr, ap, read, data, k)
  {
    if k == 0 then Outcome(s, Fail, data, [], [])
    else
      var (s1, ack, out) := Raw(s, addr, ap, read, data);
      if ack == ACK_OK then
        OkAtOnce(s, addr, ap, read, data, k);
        Outcome(s1, Ok, out, [ack], [s])
      else
        var s2 := if ack == ACK_WAIT || ack == ACK_FAULT then Recover(s1, ack) else s1;
        var r := Attempts(s2, addr, ap, read, data, k - 1);
        RetryStep(s, s2, r, addr, ap, read, data, k);
        Outcome(r.swd, r.err, r.data, [ack] + r.acks, [s] + r.tries)
  }

  /** What a failed attempt does before the next one: wait a tick after
      WAIT, clear the sticky errors after FAULT. */
  function Recover(s: Swd, ack: nat): (r: Swd)
    requires ack == ACK_WAIT || ack == ACK_FAULT
    decreases |s.replies|, RETRIES + 3
    ensures Retry(s, ack, r)
  {
    if ack == ACK_WAIT then s.(log := s.log + [Delay])
    else ClearErrors(s).swd
  }

  /** A first attempt acknowledged OK is a loop of one attempt. */
  lemma OkAtOnce(s: Swd, addr: u8, ap: bool, read: bool, data: u32, k: nat)
    requires k > 0 && Raw(s, addr, ap, read, data).1 == ACK_OK
    ensures var x := Raw(s, addr, ap, read, data);
      Retried(s, Outcome(x.0, Ok, x.2, [ACK_OK], [s]), addr, ap, read, data, k)
  {
    var x := Raw(s, addr, ap, read, data);
    var r := Outcome(x.0, Ok, x.2, [ACK_OK], [s]);
    FirstWithin(s, addr, ap, read, data);
    assert Settled(s, r, addr, ap, read, data, k);
    assert Steps(r.acks, r.tries, addr, ap, read, data);
    assert Traced(s, r, addr, ap, read, data);
  }

  /** The transfer of an attempt is an event of its loop. */
  lemma FirstWithin(s: Swd, addr: u8, ap: bool, read: bool, data: u32)
    ensures Confined(s.log, Raw(s, addr, ap, read, data).0.log, addr, ap, read, data)
  {
    var x := Raw(s, addr, ap, read, data);
    forall j | |s.log| <= j < |x.0.log|
      ensures Within(x.0.log[j], addr, ap, read, data)
    {
      assert j == |s.log|;
    }
  }

  /** A failed first attempt, its retry step and a loop of `k - 1` more
      attempts from there make a loop of `k` attempts. */
  lemma RetryStep(s: Swd, t: Swd, r: Outcome, addr: u8, ap: bool, read: bool, data: u32, k: nat)
    requires k > 0
    requires var x := Raw(s, addr, ap, read, data); x.1 != ACK_OK && Retry(x.0, x.1, t)
    requires Retried(t, r, addr, ap, read, data, k - 1)
    ensures var ack := Raw(s, addr, ap, read, data).1;
      Retried(s, Outcome(r.swd, r.err, r.data, [ack] + r.acks, [s] + r.tries), addr, ap, read, data, k)
  {
    var x := Raw(s, addr, ap, read, data);
    RetryFollows(x.0, x.1, t);
    FollowsTrans(s, x.0, t);
    FollowsTrans(s, t, r.swd);
    var q := Outcome(r.swd, r.err, r.data, [x.1] + r.acks, [s] + r.tries);
    RetrySettled(s, t, r, q, addr, ap, read, data, k, x.1);
    RetryTraced(s, t, r, q, addr, ap, read, data);
    RetryWithin(s, x.0, t, r.swd, addr, ap, read, data);
  }

  lemma RetryFollows(s: Swd, ack: nat, t: Swd)
    requires Retry(s, ack, t)
    ensures Follows(s, t)
  {
  }

  lemma RetrySettled(s: Swd, t: Swd, r: Outcome, q: Outcome, addr: u8, ap: bool, read: bool, data: u32, k: nat, ack: nat)
    requires k > 0 && Follows(s, r.swd) && ack != ACK_OK
    requires q == Outcome(r.swd, r.err, r.data, [ack] + r.acks, [s] + r.tries)
    requires Settled(t, r, addr, ap, read, data, k - 1)
    ensures Settled(s, q, addr, ap, read, data, k)
  {
    assert forall i :: 1 <= i < |q.acks| ==> q.acks[i] == r.acks[i - 1];
    if |r.acks| > 0 {
      assert Last(q.acks) == Last(r.acks);
    }
  }

  lemma RetryTraced(s: Swd, t: Swd, r: Outcome, q: Outcome, addr: u8, ap: bool, read: bool, data: u32)
    requires var x := Raw(s, addr, ap, read, data);
      x.1 != ACK_OK && Retry(x.0, x.1, t)
      && q == Outcome(r.swd, r.err, r.data, [x.1] + r.acks, [s] + r.tries)
    requires Follows(t, r.swd) && (|r.acks| == 0 ==> r.err != Ok)
    requires Traced(t, r, addr, ap, read, data)
    ensures Traced(s, q, addr, ap, read, data)
  {
    TracedHead(s, t, r, q, addr, ap, read, data);
    StepsCons(s, t, r.acks, r.tries, addr, ap, read, data);
    EndedCons(s, t, r, q, addr, ap, read, data);
  }

  /** The first attempt of the longer loop is the first thing it logs. */
  lemma TracedHead(s: Swd, t: Swd, r: Outcome, q: Outcome, addr: u8, ap: bool, read: bool, data: u32)
    requires var x := Raw(s, addr, ap, read, data);
      Retry(x.0, x.1, t) && q == Outcome(r.swd, r.err, r.data, [x.1] + r.acks, [s] + r.tries)
    requires Follows(t, r.swd) && |r.tries| == |r.acks|
    ensures |q.tries| == |q.acks| && q.tries[0] == s && |q.swd.log| > |s.log|
    ensures q.swd.log[|s.log|] == Xfer(addr, ap, read, Raw(s, addr, ap, read, data).2, q.acks[0])
  {
    var x := Raw(s, addr, ap, read, data);
    RetryFollows(x.0, x.1, t);
    PrefixAt(x.0.log, t.log, r.swd.log, |s.log|);
  }

  /** The longer loop ends as the shorter one does, or, when the shorter
      one made no attempt, as the first attempt and its retry step do. */
  lemma EndedCons(s: Swd, t: Swd, r: Outcome, q: Outcome, addr: u8, ap: bool, read: bool, data: u32)
    requires var x := Raw(s, addr, ap, read, data);
      x.1 != ACK_OK && Retry(x.0, x.1, t)
      && q == Outcome(r.swd, r.err, r.data, [x.1] + r.acks, [s] + r.tries)
    requires |r.tries| == |r.acks| && (|r.acks| == 0 ==> r.err != Ok && r.swd == t)
    requires |r.acks| > 0 ==> Ended(Last(r.tries), Last(r.acks), r, addr, ap, read, data)
    ensures Ended(Last(q.tries), Last(q.acks), q, addr, ap, read, data)
  {
    if |r.acks| > 0 {
      assert Last(q.tries) == Last(r.tries) && Last(q.acks) == Last(r.acks);
    }
  }

  lemma PrefixAt<T>(a: seq<T>, b: seq<T>, c: seq<T>, j: nat)
    requires a <= b <= c && j < |a|
    ensures j < |c| && c[j] == a[j]
  {
    assert b[j] == a[j];
  }

  lemma StepsCons(s: Swd, t: Swd, acks: seq<nat>, tries: seq<Swd>, addr: u8, ap: bool, read: bool, data: u32)
    requires |tries| == |acks| && (|acks| > 0 ==> tries[0] == t)
    requires var x := Raw(s, addr, ap, read, data); Retry(x.0, x.1, t)
    requires Steps(acks, tries, addr, ap, read, data)
    ensures Steps([Raw(s, addr, ap, read, data).1] + acks, [s] + tries, addr, ap, read, data)
  {
    AcksCons(s, acks, tries, addr, ap, read, data);
    RetriesCons(s, t, acks, tries, addr, ap, read, data);
  }

  lemma AcksCons(s: Swd, acks: seq<nat>, tries: seq<Swd>, addr: u8, ap: bool, read: bool, data: u32)
    requires |tries| == |acks|
    requires forall i :: 0 <= i < |acks| ==> Raw(tries[i], addr, ap, read, data).1 == acks[i]
    ensures var acks', tries' := [Raw(s, addr, ap, read, data).1] + acks, [s] + tries;
      forall i :: 0 <= i < |acks'| ==> Raw(tries'[i], addr, ap, read, data).1 == acks'[i]
  {
    var acks', tries' := [Raw(s, addr, ap, read, data).1] + acks, [s] + tries;
    forall i | 0 <= i < |acks'|
      ensures Raw(tries'[i], addr, ap, read, data).1 == acks'[i]
    {
      if i > 0 {
        assert tries'[i] == tries[i - 1] && acks'[i] == acks[i - 1];
      }
    }
  }

  lemma RetriesCons(s: Swd, t: Swd, acks: seq<nat>, tries: seq<Swd>, addr: u8, ap: bool, read: bool, data: u32)
    requires |tries| == |acks| && (|acks| > 0 ==> tries[0] == t)
    requires var x := Raw(s, addr, ap, read, data); Retry(x.0, x.1, t)
    requires forall i :: 0 <= i < |acks| - 1 ==>
      Retry(Raw(tries[i], addr, ap, read, data).0, acks[i], tries[i + 1])
    ensures var acks', tries' := [Raw(s, addr, ap, read, data).1] + acks, [s] + tries;
      forall i :: 0 <= i < |acks'| - 1 ==> Retry(Raw(tries'[i], addr, ap, read, data).0, acks'[i], tries'[i + 1])
  {
    var acks', tries' := [Raw(s, addr, ap, read, data).1] + acks, [s] + tries;
    forall i | 0 <= i < |acks'| - 1
      ensures Retry(Raw(tries'[i], addr, ap, read, data).0, acks'[i], tries'[i + 1])
    {
      if i > 0 {
        assert tries'[i] == tries[i - 1] && acks'[i] == acks[i - 1] && tries'[i + 1] == tries[i];
      }
    }
  }

  /** The events of one attempt, of its retry step and of the attempts
      after it all belong to the loop. */
  lemma RetryWithin(s: Swd, s1: Swd, t: Swd, u: Swd, addr: u8, ap: bool, read: bool, data: u32)
    requires var x := Raw(s, addr, ap, read, data); s1 == x.0 && Retry(s1, x.1, t)
    requires Follows(t, u)
    requires Confined(t.log, u.log, addr, ap, read, data)
    ensures Confined(s.log, u.log, addr, ap, read, data)
  {
    var x := Raw(s, addr, ap, read, data);
    FirstWithin(s, addr, ap, read, data);
    forall j | |s.log| <= j < |u.log|
      ensures Within(u.log[j], addr, ap, read, data)
    {
      if j < |s1.log| {
        assert u.log[j] == t.log[j] == s1.log[j];
      } else if j < |t.log| {
        assert u.log[j] == t.log[j];
        if x.1 == ACK_FAULT {
          assert Clearing(t.log[j]);
        }
      }
    }
  }

  /** The loop of a clear write logs nothing but clear writes and
      delays, and begins with a clear write. */
  lemma ClearConfined(s: Swd, r: Outcome)
    requires s.initialized && Retried(s, r, DP_ABORT, false, false, ABORT_CLEAR, RETRIES)
    ensures Cleared(s, r.swd)
  {
    forall j | |s.log| <= j < |r.swd.log|
      ensures Clearing(r.swd.log[j])
    {
      assert Within(r.swd.log[j], DP_ABORT, false, false, ABORT_CLEAR);
    }
  }

  /** Against any script, a loop in which no attempt but perhaps the last
      was refused with FAULT reads the target's replies in order: attempt
      `i` gets the acknowledgement decoded from reply `i`, or 0b111 once the
      replies have run out. */
  lemma RepliesInOrder(s: Swd, r: Outcome, addr: u8, ap: bool, read: bool, data: u32, k: nat)
    requires Retried(s, r, addr, ap, read, data, k)
    requires forall i :: 0 <= i < |r.acks| - 1 ==> r.acks[i] != ACK_FAULT
    ensures forall i :: 0 <= i < |r.acks| ==>
      r.acks[i] == if i < |s.replies| then Answer(s.replies[i], read, data).0 else ACK_NONE
  {
    forall i | 0 <= i < |r.acks|
      ensures r.acks[i] == if i < |s.replies| then Answer(s.replies[i], read, data).0 else ACK_NONE
    {
      TriesReplies(s, r, addr, ap, read, data, k, i);
      assert Raw(r.tries[i], addr, ap, read, data).1 == r.acks[i];
    }
  }

  /** Without a clear in between, attempt `i` starts with the first `i`
      replies consumed. */
  lemma {:induction false} TriesReplies(s: Swd, r: Outcome, addr: u8, ap: bool, read: bool, data: u32, k: nat, i: nat)
    requires Retried(s, r, addr, ap, read, data, k) && i < |r.acks|
    requires forall j :: 0 <= j < i ==> r.acks[j] != ACK_FAULT
    ensures r.tries[i].replies == s.replies[if i < |s.replies| then i else |s.replies|..]
    decreases i
  {
    if i > 0 {
      TriesReplies(s, r, addr, ap, read, data, k, i - 1);
      var x := Raw(r.tries[i - 1], addr, ap, read, data);
      assert Retry(x.0, r.acks[i - 1], r.tries[i]);
      if i - 1 < |s.replies| {
        assert x.0.replies == s.replies[i - 1..][1..];
      }
    }
  }

  /** swd_clear_errors: write the clear pattern to ABORT. */
  function ClearErrors(s: Swd): (r: Outcome)
    decreases |s.replies|, RETRIES + 2
    ensures Follows(s, r.swd)
    ensures s.initialized ==> Retried(s, r, DP_ABORT, false, false, ABORT_CLEAR, RETRIES)
    ensures Cleared(s, r.swd)
  {
    var r := DpWrite(s, DP_ABORT, ABORT_CLEAR);
    if s.initialized then ClearConfined(s, r); r else r
  }

  /** Every access refuses to run before swd_init and then touches nothing. */
  predicate Refused(s: Swd, r: Outcome, data: u32)
  {
    r == Outcome(s, InvalidState, data, [], [])
  }

  /** swd_dp_write. */
  function DpWrite(s: Swd, addr: u8, data: u32): (r: Outcome)
    decreases |s.replies|, RETRIES + 1
    ensures !s.initialized ==> Refused(s, r, data)
    ensures s.initialized ==> Retried(s, r, addr, false, false, data, RETRIES)
  {
    if !s.initialized then Outcome(s, InvalidState, data, [], [])
    else Attempts(s, addr, false, false, data, RETRIES)
  }

  /** swd_dp_read. The caller's word is replaced only by a good read. */
  function DpRead(s: Swd, addr: u8, data: u32): (r: Outcome)
    ensures !s.initialized ==> Refused(s, r, data)
    ensures s.initialized ==> Retried(s, r, addr, false, true, data, RETRIES)
  {
    if !s.initialized then Outcome(s, InvalidState, data, [], [])
    else Attempts(s, addr, false, true, data, RETRIES)
  }

  /** swd_ap_write. */
  function ApWrite(s: Swd, addr: u8, data: u32): (r: Outcome)
    ensures !s.initialized ==> Refused(s, r, data)
    ensures s.initialized ==> Retried(s, r, addr, true, false, data, RETRIES)
  {
    if !s.initialized then Outcome(s, InvalidState, data, [], [])
    else Attempts(s, addr, true, false, data, RETRIES)
  }

  /** swd_ap_read. An AP read is posted: the OK transfer returns the result
      of the previous AP access, and the word asked for is then fetched from
      RDBUFF by a DP read with a retry loop of its own. */
  function ApRead(s: Swd, addr: u8, data: u32): (r: Outcome)
    ensures !s.initialized ==> Refused(s, r, data)
    ensures s.initialized ==> Follows(s, r.swd) && (r.err == Ok || r.err == Fail)
    ensures r.err == Ok ==>
      |r.swd.log| > 0 && Last(r.swd.log) == Xfer(DP_RDBUFF, false, true, r.data, ACK_OK)
    ensures s.initialized ==>
      || (r.err == Fail && Retried(s, r, addr, true, true, data, RETRIES))
      || (exists a: Outcome :: a.err == Ok && Retried(s, a, addr, true, true, data, RETRIES)
                      && Retried(a.swd, r, DP_RDBUFF, false, true, a.data, RETRIES))
  {
    if !s.initialized then Outcome(s, InvalidState, data, [], [])
    else
      var a := Attempts(s, addr, true, true, data, RETRIES);
      if a.err == Ok then
        var r := DpRead(a.swd, DP_RDBUFF, a.data);
        FollowsTrans(s, a.swd, r.swd);
        r
      else a
  }

  /** Both power-up acknowledgement bits are set in CTRL/STAT. */
  predicate PoweredUp(status: u32)
  {
    And(status, POWER_ACK) == POWER_ACK
  }

  /** The mask test of swd_power_up checks exactly CSYSPWRUPACK (bit 31)
      and CDBGPWRUPACK (bit 29). */
  lemma PoweredUpBits(status: u32)
    ensures PoweredUp(status) <==> BitAt(status, 31) && BitAt(status, 29)
  {
    HighPowers();
    AndCovers(status, POWER_ACK);
    CoversTwo(status, 31, 29);
  }

  /** The power request is bit 30 (CSYSPWRUPREQ) plus bit 28
      (CDBGPWRUPREQ); the acknowledgement mask is bit 31 plus bit 29. */
  lemma PowerMasks()
    ensures POWER_REQUEST == Pow2(30) + Pow2(28)
    ensures POWER_ACK == Pow2(31) + Pow2(29)
  {
    HighPowers();
  }

  /** A read acknowledged OK. */
  predicate OkRead(e: Event)
  {
    e.Xfer? && e.read && e.ack == ACK_OK
  }

  /** From `from` on, a read acknowledged OK can only be the last event,
      and only when `ok` holds. */
  predicate LastOkRead(log: seq<Event>, from: nat, ok: bool)
  {
    forall j :: from <= j < |log| && OkRead(log[j]) ==> ok && j == |log| - 1
  }

  /** A read loop logs a read acknowledged OK only as the last event of a
      success: the failed attempts, their delays and their clears (which
      only write) come before it. */
  lemma {:induction false} OkOnlyLast(s: Swd, addr: u8, data: u32, k: nat)
    ensures var r := Attempts(s, addr, false, true, data, k);
      LastOkRead(r.swd.log, |s.log|, r.err == Ok)
    decreases |s.replies| + k, 1
  {
    if k > 0 && FirstFails(s, data) {
      OkOnlyLastRetry(s, addr, data, k);
    }
  }

  /** The next read attempt is not acknowledged OK: the line is silent, or
      the target's next reply is not an OK with good parity. */
  predicate FirstFails(s: Swd, data: u32)
  {
    |s.replies| == 0 || Answer(s.replies[0], true, data).0 != ACK_OK
  }

  /** No read acknowledged OK from `from` on. */
  predicate NoOkReads(log: seq<Event>, from: nat)
  {
    forall j :: from <= j < |log| ==> !OkRead(log[j])
  }

  /** The step of OkOnlyLast past a first attempt that was not
      acknowledged OK. */
  lemma {:induction false} OkOnlyLastRetry(s: Swd, addr: u8, data: u32, k: nat)
    requires k > 0 && FirstFails(s, data)
    ensures var r := Attempts(s, addr, false, true, data, k);
      LastOkRead(r.swd.log, |s.log|, r.err == Ok)
    decreases |s.replies| + k, 0
  {
    if |s.replies| > 0 {
      var s2 := FailedAnswered(s, addr, data, k);
      OkOnlyLast(s2, addr, data, k - 1);
    } else {
      OkOnlySilent(s, addr, data, k);
    }
  }

  /** On a silent line no attempt is acknowledged OK. */
  lemma OkOnlySilent(s: Swd, addr: u8, data: u32, k: nat)
    requires s.replies == []
    ensures var r := Attempts(s, addr, false, true, data, k);
      LastOkRead(r.swd.log, |s.log|, r.err == Ok)
  {
    SilentAttempts(s, addr, false, true, data, k);
    SilentNoOk(s, Xfer(addr, false, true, data, ACK_NONE), k, Attempts(s, addr, false, true, data, k));
  }

  /** A failed loop that logged only copies of an event that is not a
      read acknowledged OK logged no such read. */
  lemma SilentNoOk(s: Swd, e: Event, k: nat, r: Outcome)
    requires !OkRead(e) && r.err == Fail && r.swd == s.(log := s.log + Repeat(e, k))
    ensures LastOkRead(r.swd.log, |s.log|, r.err == Ok)
  {
    forall j | |s.log| <= j < |r.swd.log|
      ensures !OkRead(r.swd.log[j])
    {
      assert r.swd.log[j] == Repeat(e, k)[j - |s.log|];
    }
  }

  /** A first attempt that the target's reply does not acknowledge OK,
      with its retry step, leads to the state `s2` the remaining `k - 1`
      attempts start from, having consumed one reply and logged no read
      acknowledged OK. */
  lemma FailedAnswered(s: Swd, addr: u8, data: u32, k: nat) returns (s2: Swd)
    requires k > 0 && |s.replies| > 0 && Answer(s.replies[0], true, data).0 != ACK_OK
    ensures |s2.replies| < |s.replies|
    ensures var r := Attempts(s, addr, false, true, data, k);
      var r2 := Attempts(s2, addr, false, true, data, k - 1);
      LastOkRead(r2.swd.log, |s2.log|, r2.err == Ok) ==> LastOkRead(r.swd.log, |s.log|, r.err == Ok)
  {
    var ack := Answer(s.replies[0], true, data).0;
    var s1 := s.(replies := s.replies[1..], log := s.log + [Xfer(addr, false, true, data, ack)]);
    s2 := if ack == ACK_WAIT || ack == ACK_FAULT then Recover(s1, ack) else s1;
    RetryAfter(s, addr, false, true, data, k, ack);
    RetryFollows(s1, ack, s2);
    NoOkAfter(s, s1, ack, s2);
    var r2 := Attempts(s2, addr, false, true, data, k - 1);
    if LastOkRead(r2.swd.log, |s2.log|, r2.err == Ok) {
      OkShift(s, s2, Attempts(s, addr, false, true, data, k), r2);
    }
  }

  /** A failed attempt and its retry step log no read acknowledged OK. */
  lemma NoOkAfter(s: Swd, s1: Swd, ack: nat, s2: Swd)
    requires ack != ACK_OK && exists e :: s1.log == s.log + [e] && e.Xfer? && e.ack == ack
    requires Retry(s1, ack, s2)
    ensures s.log <= s2.log && NoOkReads(s2.log, |s.log|)
  {
    RetryFollows(s1, ack, s2);
    forall j | |s.log| <= j < |s2.log|
      ensures !OkRead(s2.log[j])
    {
      if j < |s1.log| {
        assert s2.log[j] == s1.log[j];
      } else if ack == ACK_FAULT {
        assert Clearing(s2.log[j]);
      }
    }
  }

  /** The bookkeeping of OkOnlyLast: a loop that ends as the loop from
      `s2` does, where getting from `s` to `s2` logged no read acknowledged
      OK, logs such a read only where the loop from `s2` does. */
  lemma OkShift(s: Swd, s2: Swd, r: Outcome, r2: Outcome)
    requires s.log <= s2.log && NoOkReads(s2.log, |s.log|) && s2.log <= r2.swd.log
    requires r.swd == r2.swd && r.err == r2.err
    requires LastOkRead(r2.swd.log, |s2.log|, r2.err == Ok)
    ensures LastOkRead(r.swd.log, |s.log|, r.err == Ok)
  {
    forall j | |s.log| <= j < |s2.log|
      ensures !OkRead(r.swd.log[j])
    {
      assert r.swd.log[j] == s2.log[j];
    }
  }

  /** A read of CTRL/STAT acknowledged OK: one status poll of
      swd_power_up. */
  predicate StatusRead(e: Event)
  {
    e.Xfer? && e.addr == DP_CTRL_STAT && !e.ap && e.read && e.ack == ACK_OK
  }

  /** A status poll that showed both acknowledgement bits. */
  predicate PowerAcked(e: Event)
  {
    StatusRead(e) && PoweredUp(e.data)
  }

  /** How many status polls `log[from..to]` holds. */
  function Polls(log: seq<Event>, from: nat, to: nat): nat
    requires from <= to <= |log|
    decreases (to as int) - (from as int)
  {
    if from == to then 0 else (if StatusRead(log[from]) then 1 else 0) + Polls(log, from + 1, to)
  }

  lemma {:induction false} PollsSplit(log: seq<Event>, a: nat, b: nat, c: nat)
    requires a <= b <= c <= |log|
    ensures Polls(log, a, c) == Polls(log, a, b) + Polls(log, b, c)
    decreases b - a
  {
    if a < b {
      PollsSplit(log, a + 1, b, c);
    }
  }

  lemma {:induction false} PollsPrefix(l1: seq<Event>, l2: seq<Event>, a: nat, b: nat)
    requires l1 <= l2 && a <= b <= |l1|
    ensures Polls(l1, a, b) == Polls(l2, a, b)
    decreases b - a
  {
    if a < b {
      assert l1[a] == l2[a];
      PollsPrefix(l1, l2, a + 1, b);
    }
  }

  lemma {:induction false} NoPolls(log: seq<Event>, a: nat, b: nat)
    requires a <= b <= |log|
    requires forall j :: a <= j < b ==> !StatusRead(log[j])
    ensures Polls(log, a, b) == 0
    decreases b - a
  {
    if a < b {
      NoPolls(log, a + 1, b);
    }
  }

  /** From `from` on, a status poll that did not show the acknowledgement
      is followed at once by a delay, and one that did is the last event. */
  predicate Polling(log: seq<Event>, from: nat)
  {
    forall j :: from <= j < |log| && StatusRead(log[j]) ==>
      if PoweredUp(log[j].data) then j == |log| - 1 else j + 1 < |log| && log[j + 1] == Delay
  }

  /** No status poll from `from` on showed the acknowledgement. */
  predicate Unacked(log: seq<Event>, from: nat)
  {
    forall j :: from <= j < |log| ==> !PowerAcked(log[j])
  }

  /** The polling loop of swd_power_up with `n` polls left. A timeout
      comes after exactly `n` polls, none of which showed the
      acknowledgement; a success after at most `n`; and every poll that
      did not show it is followed by a one-tick delay. */
  function Poll(s: Swd, n: nat): (r: (Swd, Err))
    requires s.initialized
    decreases n
    ensures Follows(s, r.0)
    ensures r.1 == Ok || r.1 == Fail || r.1 == Timeout
    ensures r.1 == Ok ==> |r.0.log| > 0 && PowerAcked(Last(r.0.log))
    ensures Polling(r.0.log, |s.log|)
    ensures r.1 == Ok ==> 1 <= Polls(r.0.log, |s.log|, |r.0.log|) <= n
    ensures r.1 == Fail ==> Polls(r.0.log, |s.log|, |r.0.log|) < n
    ensures r.1 == Timeout ==> Polls(r.0.log, |s.log|, |r.0.log|) == n && Unacked(r.0.log, |s.log|)
  {
    if n == 0 then (s, Timeout)
    else
      var p := DpRead(s, DP_CTRL_STAT, 0);
      OkOnlyLast(s, DP_CTRL_STAT, 0, RETRIES);
      StatusPolls(|s.log|, p.swd.log, p.err == Ok, p.data);
      if p.err != Ok then (p.swd, p.err)
      else if PoweredUp(p.data) then (p.swd, Ok)
      else
        var s1 := p.swd.(log := p.swd.log + [Delay]);
        var r := Poll(s1, n - 1);
        FollowsTrans(s, p.swd, s1);
        FollowsTrans(s, s1, r.0);
        PolledOnce(s, p.swd, s1, r.0);
        r
  }

  /** One status read of the loop holds one poll when it succeeds and
      none when it fails, and the poll is its last event. */
  lemma StatusPolls(from: nat, log: seq<Event>, ok: bool, data: u32)
    requires from <= |log| && LastOkRead(log, from, ok)
    requires ok ==> from < |log| && Last(log) == Xfer(DP_CTRL_STAT, false, true, data, ACK_OK)
    ensures Polls(log, from, |log|) == if ok then 1 else 0
    ensures Polling(log, from) || ok
    ensures ok ==> StatusRead(Last(log)) && Last(log).data == data
  {
    if ok {
      PollsSplit(log, from, |log| - 1, |log|);
      NoPolls(log, from, |log| - 1);
    } else {
      NoPolls(log, from, |log|);
    }
  }

  /** A poll without the acknowledgement, its delay, and the loop after
      it make one more poll of the loop. */
  lemma PolledOnce(s: Swd, p: Swd, s1: Swd, t: Swd)
    requires s.log <= p.log && |p.log| > |s.log| && s1.log == p.log + [Delay] && s1.log <= t.log
    requires LastOkRead(p.log, |s.log|, true)
    requires StatusRead(Last(p.log)) && !PoweredUp(Last(p.log).data)
    requires Polls(p.log, |s.log|, |p.log|) == 1
    requires Polling(t.log, |s1.log|)
    ensures Polling(t.log, |s.log|)
    ensures Polls(t.log, |s.log|, |t.log|) == 1 + Polls(t.log, |s1.log|, |t.log|)
    ensures Unacked(t.log, |s1.log|) ==> Unacked(t.log, |s.log|)
  {
    forall j | |s.log| <= j < |s1.log|
      ensures t.log[j] == s1.log[j]
      ensures !PowerAcked(t.log[j])
      ensures StatusRead(t.log[j]) ==> j == |p.log| - 1
    {
      if j < |p.log| {
        assert s1.log[j] == p.log[j];
      }
    }
    assert t.log[|p.log|] == Delay;
    PollsPrefix(p.log, t.log, |s.log|, |p.log|);
    PollsSplit(t.log, |s.log|, |p.log|, |s1.log|);
    PollsSplit(t.log, |s.log|, |s1.log|, |t.log|);
  }

  /** The power request written to CTRL/STAT and acknowledged OK. */
  const PowerRequested: Event := Xfer(DP_CTRL_STAT, false, false, POWER_REQUEST, ACK_OK)

  /** From position `from` on, the log holds the accepted power request,
      and after it between `lo` and `hi` status polls, each poll that did
      not show the acknowledgement followed by its delay; after a timeout
      no poll showed it. */
  predicate PolledAfterRequest(log: seq<Event>, from: nat, lo: nat, hi: nat, timedOut: bool)
  {
    exists i :: from <= i < |log| && log[i] == PowerRequested
      && lo <= Polls(log, i + 1, |log|) <= hi && Polling(log, i + 1)
      && (timedOut ==> Unacked(log, i + 1))
  }

  /** swd_power_up: clear errors (ignoring the result), request both power
      domains, then poll CTRL/STAT until both acknowledge, at most a
      hundred times. Polling starts only once the request was accepted. */
  function PowerUp(s: Swd): (r: (Swd, Err))
    requires s.initialized
    ensures Follows(s, r.0)
    ensures r.1 == Ok || r.1 == Fail || r.1 == Timeout
    ensures r.1 == Ok ==> |r.0.log| > 0 && PowerAcked(Last(r.0.log))
    ensures r.1 == Ok ==> PolledAfterRequest(r.0.log, |s.log|, 1, POWER_POLLS, false)
    ensures r.1 == Timeout ==> PolledAfterRequest(r.0.log, |s.log|, POWER_POLLS, POWER_POLLS, true)
  {
    var c := ClearErrors(s);
    var w := DpWrite(c.swd, DP_CTRL_STAT, POWER_REQUEST);
    FollowsTrans(s, c.swd, w.swd);
    if w.err != Ok then (w.swd, w.err)
    else
      var r := Poll(w.swd, POWER_POLLS);
      FollowsTrans(s, w.swd, r.0);
      PolledAfter(s, w.swd, r.0);
      r
  }

  /** The accepted request stays in the log the polls extend, just before
      them. */
  lemma PolledAfter(s: Swd, w: Swd, t: Swd)
    requires s.log <= w.log && w.log <= t.log && |w.log| > |s.log|
    requires Last(w.log) == PowerRequested
    ensures |s.log| <= |w.log| - 1 < |t.log| && t.log[|w.log| - 1] == PowerRequested
  {
    assert t.log[|w.log| - 1] == w.log[|w.log| - 1];
  }

  /** An IDCODE that identifies a target: neither all zeros nor all ones
      (a floating or shorted line). */
  predicate ValidIdcode(id: u32)
  {
    id != 0 && id != 0xFFFF_FFFF
  }

  /** A good IDCODE read. */
  predicate Identified(e: Event)
  {
    e.Xfer? && e.addr == DP_IDCODE && !e.ap && e.read && e.ack == ACK_OK
    && ValidIdcode(e.data)
  }

  predicate Answered(r: Outcome)
  {
    r.err == Ok && ValidIdcode(r.data)
  }

  /** The two IDCODE reads of swd_connect: one after the dormant-state
      wake-up and, only if that does not identify a target, one after a
      line reset and the JTAG-to-SWD select sequence, whose outcome is
      then the result. */
  function Identify(s: Swd): (r: Outcome)
    requires s.initialized
    ensures Follows(s, r.swd)
    ensures Answered(r) ==> |r.swd.log| > 0 && Identified(Last(r.swd.log))
    ensures |r.swd.log| > |s.log| && r.swd.log[|s.log|] == DormantWakeupSent
    ensures var a := DpRead(s.(log := s.log + [DormantWakeupSent]), DP_IDCODE, 0);
      && (Answered(a) ==> r == a)
      && (!Answered(a) ==>
            && a.swd.log + [LineResetSent, JtagToSwdSent] <= r.swd.log
            && r == DpRead(a.swd.(log := a.swd.log + [LineResetSent, JtagToSwdSent]), DP_IDCODE, a.data))
  {
    var s1 := s.(log := s.log + [DormantWakeupSent]);
    var a := DpRead(s1, DP_IDCODE, 0);
    FollowsTrans(s, s1, a.swd);
    if Answered(a) then a
    else
      var s2 := a.swd.(log := a.swd.log + [LineResetSent, JtagToSwdSent]);
      var b := DpRead(s2, DP_IDCODE, a.data);
      FollowsTrans(s, a.swd, s2);
      FollowsTrans(s, s2, b.swd);
      b
  }

  /** swd_connect. The connected flag is set only on success, after a good
      IDCODE read and a completed power-up; a failure leaves the flag as it
      was. */
  function Connect(s: Swd): (r: (Swd, Err))
    ensures !s.initialized ==> r == (s, InvalidState)
    ensures r.1 == Ok || r.1 == Fail || r.1 == Timeout || r.1 == InvalidState
    ensures r.1 == Ok ==> r.0.connected
    ensures r.1 != Ok ==> r.0.connected == s.connected
    ensures r.1 == Ok ==>
      && s.initialized
      && (exists i :: |s.log| <= i < |r.0.log| && Identified(r.0.log[i]))
      && |r.0.log| > 0 && PowerAcked(Last(r.0.log))
    ensures r.0.initialized == s.initialized && r.0.config == s.config
    ensures s.log <= r.0.log
  {
    if !s.initialized then (s, InvalidState)
    else
      var b := Identify(s);
      if !Answered(b) then (b.swd, Fail)
      else
        var i := |b.swd.log| - 1;
        var p := PowerUp(b.swd);
        FollowsTrans(s, b.swd, p.0);
        if p.1 != Ok then p
        else
          assert Identified(p.0.log[i]);
          (p.0.(connected := true), Ok)
  }

  /** swd_disconnect: clear the flag and leave the line in reset. */
  function Disconnect(s: Swd): (r: (Swd, Err))
    ensures !s.initialized <==> r.1 == InvalidState
    ensures !s.initialized ==> r.0 == s
    ensures s.initialized ==>
      && r.1 == Ok && !r.0.connected
      && r.0.log == s.log + [LineResetSent] && r.0.replies == s.replies
  {
    if !s.initialized then (s, InvalidState)
    else (s.(connected := false, log := s.log + [LineResetSent]), Ok)
  }

  /** swd_is_connected: a connection counts only while IDCODE still reads
      as a valid value; a failed or invalid read drops the flag. */
  function IsConnected(s: Swd): (r: (Swd, bool))
    ensures r.1 <==> r.0.connected
    ensures r.1 ==> s.connected && |r.0.log| > 0 && Identified(Last(r.0.log))
    ensures !s.connected ==> r.0 == s
    ensures s.connected ==> (r.1 <==> Answered(DpRead(s, DP_IDCODE, 0)))
    ensures s.connected ==> r.0.log == DpRead(s, DP_IDCODE, 0).swd.log
  {
    if !s.connected then (s, false)
    else
      var p := DpRead(s, DP_IDCODE, 0);
      if Answered(p) then (p.swd, true)
      else (p.swd.(connected := false), false)
  }

  /** swd_reset_target: pulse nRST, when one is wired, and reconnect; the
      result is the reconnect's. */
  function ResetTarget(s: Swd): (r: (Swd, Err))
    ensures r.1 == NotSupported <==> s.config.reset < 0
    ensures s.config.reset < 0 ==> r.0 == s
    ensures r.0.initialized == s.initialized && r.0.config == s.config
    ensures s.config.reset >= 0 ==>
      && s.log + [ResetPulse] <= r.0.log
      && (r.1 == Ok || r.1 == Fail || r.1 == Timeout || r.1 == InvalidState)
      && (!s.initialized ==> r == (s.(log := s.log + [ResetPulse]), InvalidState))
      && (r.1 == Ok ==>
            && r.0.connected
            && (exists i :: |s.log| < i < |r.0.log| && Identified(r.0.log[i]))
            && PowerAcked(Last(r.0.log)))
      && (r.1 != Ok ==> r.0.connected == s.connected)
  {
    if s.config.reset < 0 then (s, NotSupported)
    else
      var s1 := s.(log := s.log + [ResetPulse]);
      Connect(s1)
  }

  /** swd_get_idcode: the IDCODE, or 0 when it cannot be read. */
  function GetIdcode(s: Swd): (r: (Swd, u32))
    ensures r.1 != 0 ==>
      && |r.0.log| > 0
      && Last(r.0.log) == Xfer(DP_IDCODE, false, true, r.1, ACK_OK)
    ensures !s.initialized ==> r == (s, 0)
    ensures var p := DpRead(s, DP_IDCODE, 0);
      && r.0 == p.swd
      && (p.err == Ok ==> r.1 == p.data)
      && (p.err != Ok ==> r.1 == 0)
  {
    var p := DpRead(s, DP_IDCODE, 0);
    (p.swd, p.data)
  }

  /** swd_init: a missing configuration is refused; otherwise the
      configuration is stored and the driver is initialised and not
      connected. */
  function Init(s: Swd, cfg: Option<Config>): (r: (Swd, Err))
    ensures cfg.None? <==> r.1 == InvalidArg
    ensures cfg.None? ==> r.0 == s
    ensures cfg.Some? ==>
      && r.1 == Ok && r.0.initialized && !r.0.connected
      && r.0.config == cfg.value && r.0.log == s.log && r.0.replies == s.replies
  {
    match cfg
    case None => (s, InvalidArg)
    case Some(c) => (s.(initialized := true, connected := false, config := c), Ok)
  }

  // ---------------------------------------------------------------------
  // How the retry loops and connect behave against particular targets

  function Repeat<T>(x: T, k: nat): (r: seq<T>)
    ensures |r| == k && forall i :: 0 <= i < k ==> r[i] == x
  {
    if k == 0 then [] else [x] + Repeat(x, k - 1)
  }

  /** A reply that acknowledges OK and, for a read, carries `v` with the
      right parity. */
  function Good(v: u32): Reply
  {
    Reply(ACK_OK, v, Parity32(v))
  }

  /** One failed attempt, then the remaining `k - 1`. */
  lemma RetryAfter(s: Swd, addr: u8, ap: bool, read: bool, data: u32, k: nat, ack: nat)
    requires k > 0 && |s.replies| > 0
    requires ack == Answer(s.replies[0], read, data).0 && ack != ACK_OK
    ensures var s1 := s.(replies := s.replies[1..], log := s.log + [Xfer(addr, ap, read, data, ack)]);
      var s2 := if ack == ACK_WAIT || ack == ACK_FAULT then Recover(s1, ack) else s1;
      var r := Attempts(s2, addr, ap, read, data, k - 1);
      Attempts(s, addr, ap, read, data, k) == Outcome(r.swd, r.err, r.data, [ack] + r.acks, [s] + r.tries)
  {
  }

  /** A sticky-error clear the target accepts at once. */
  lemma ClearAccepted(s: Swd)
    requires s.initialized && |s.replies| > 0 && s.replies[0].ack == ACK_OK
    ensures Recover(s, ACK_FAULT)
      == s.(replies := s.replies[1..], log := s.log + [Xfer(DP_ABORT, false, false, ABORT_CLEAR, ACK_OK)])
  {
    FirstOk(s, DP_ABORT, false, false, ABORT_CLEAR, RETRIES);
    assert ClearErrors(s) == DpWrite(s, DP_ABORT, ABORT_CLEAR);
  }

  /** The outcome of `k` attempts with no target on the line: all `k`
      attempts read 0b111 and are logged, nothing else is, and the loop
      fails with the caller's word unchanged. */
  predicate AllSilent(s: Swd, addr: u8, ap: bool, read: bool, data: u32, k: nat)
  {
    var r := Attempts(s, addr, ap, read, data, k);
    r.err == Fail && r.acks == Repeat(ACK_NONE, k) && r.data == data
    && r.swd == s.(log := s.log + Repeat(Xfer(addr, ap, read, data, ACK_NONE), k))
  }

  /** With no target on the line every attempt reads 0b111: the loop makes
      all `k` attempts, never waits or clears, and fails. */
  lemma {:induction false} SilentAttempts(s: Swd, addr: u8, ap: bool, read: bool, data: u32, k: nat)
    requires s.replies == []
    ensures AllSilent(s, addr, ap, read, data, k)
    decreases k
  {
    if k > 0 {
      var s1 := s.(log := s.log + [Xfer(addr, ap, read, data, ACK_NONE)]);
      SilentAttempts(s1, addr, ap, read, data, k - 1);
      SilentJoin(s, addr, ap, read, data, k);
    }
  }

  /** The inductive step of `SilentAttempts`. */
  lemma SilentJoin(s: Swd, addr: u8, ap: bool, read: bool, data: u32, k: nat)
    requires s.replies == [] && k > 0
    requires AllSilent(s.(log := s.log + [Xfer(addr, ap, read, data, ACK_NONE)]), addr, ap, read, data, k - 1)
    ensures AllSilent(s, addr, ap, read, data, k)
  {
    var e := Xfer(addr, ap, read, data, ACK_NONE);
    var s1 := s.(log := s.log + [e]);
    SilentStep(s, addr, ap, read, data, k);
    SilentShape(s, e, data, k, Attempts(s, addr, ap, read, data, k), Attempts(s1, addr, ap, read, data, k - 1));
  }

  /** The bookkeeping of `SilentJoin`: one more silent attempt in front
      of `k - 1` gives the outcome of `k`. */
  lemma SilentShape(s: Swd, e: Event, data: u32, k: nat, q: Outcome, r: Outcome)
    requires k > 0
    requires q.swd == r.swd && q.err == r.err && q.data == r.data && q.acks == [ACK_NONE] + r.acks
    requires r.err == Fail && r.acks == Repeat(ACK_NONE, k - 1) && r.data == data
    requires r.swd == s.(log := s.log + [e] + Repeat(e, k - 1))
    ensures q.err == Fail && q.acks == Repeat(ACK_NONE, k) && q.data == data
    ensures q.swd == s.(log := s.log + Repeat(e, k))
  {
    assert s.log + [e] + Repeat(e, k - 1) == s.log + Repeat(e, k);
  }

  /** One attempt against a silent line, then the remaining `k - 1`. */
  lemma SilentStep(s: Swd, addr: u8, ap: bool, read: bool, data: u32, k: nat)
    requires s.replies == [] && k > 0
    ensures var r := Attempts(s.(log := s.log + [Xfer(addr, ap, read, data, ACK_NONE)]), addr, ap, read, data, k - 1);
      Attempts(s, addr, ap, read, data, k).swd == r.swd
      && Attempts(s, addr, ap, read, data, k).err == r.err
      && Attempts(s, addr, ap, read, data, k).data == r.data
      && Attempts(s, addr, ap, read, data, k).acks == [ACK_NONE] + r.acks
  {
  }

  /** The log of `k` attempts that each got WAIT. */
  function Waited(e: Event, k: nat): (r: seq<Event>)
    ensures |r| == 2 * k
  {
    if k == 0 then [] else [e, Delay] + Waited(e, k - 1)
  }

  /** One attempt that got WAIT, its delay, then the remaining `k - 1`. */
  lemma WaitStep(s: Swd, addr: u8, ap: bool, read: bool, data: u32, k: nat)
    requires k > 0 && |s.replies| > 0 && s.replies[0].ack == ACK_WAIT
    ensures var s2 := s.(replies := s.replies[1..],
                         log := s.log + [Xfer(addr, ap, read, data, ACK_WAIT), Delay]);
      var r := Attempts(s2, addr, ap, read, data, k - 1);
      Attempts(s, addr, ap, read, data, k) == Outcome(r.swd, r.err, r.data, [ACK_WAIT] + r.acks, [s] + r.tries)
  {
    RetryAfter(s, addr, ap, read, data, k, ACK_WAIT);
    var s1 := s.(replies := s.replies[1..], log := s.log + [Xfer(addr, ap, read, data, ACK_WAIT)]);
    assert s1.log + [Delay] == s.log + [Xfer(addr, ap, read, data, ACK_WAIT), Delay];
  }

  lemma WaitedStep(l: seq<Event>, e: Event, k: nat)
    requires k > 0
    ensures l + [e, Delay] + Waited(e, k - 1) == l + Waited(e, k)
  {
  }

  /** The outcome of `k` attempts that all got WAIT. */
  predicate AllWaited(s: Swd, addr: u8, ap: bool, read: bool, data: u32, k: nat)
    requires k <= |s.replies|
  {
    var r := Attempts(s, addr, ap, read, data, k);
    r.err == Fail && r.acks == Repeat(ACK_WAIT, k) && r.data == data
    && r.swd == s.(replies := s.replies[k..],
                   log := s.log + Waited(Xfer(addr, ap, read, data, ACK_WAIT), k))
  }

  /** A target that answers WAIT `k` times in a row: every attempt is
      followed by a delay, each consumes one reply, and the loop fails. */
  lemma {:induction false} WaitingAttempts(s: Swd, addr: u8, ap: bool, read: bool, data: u32, k: nat)
    requires k <= |s.replies|
    requires forall i :: 0 <= i < k ==> s.replies[i].ack == ACK_WAIT
    ensures AllWaited(s, addr, ap, read, data, k)
    decreases k
  {
    if k > 0 {
      var s2 := s.(replies := s.replies[1..],
                   log := s.log + [Xfer(addr, ap, read, data, ACK_WAIT), Delay]);
      WaitingAttempts(s2, addr, ap, read, data, k - 1);
      WaitingJoin(s, addr, ap, read, data, k);
    } else {
      assert s.replies[0..] == s.replies;
    }
  }

  /** The inductive step of `WaitingAttempts`. */
  lemma WaitingJoin(s: Swd, addr: u8, ap: bool, read: bool, data: u32, k: nat)
    requires 0 < k <= |s.replies| && s.replies[0].ack == ACK_WAIT
    requires AllWaited(s.(replies := s.replies[1..],
                          log := s.log + [Xfer(addr, ap, read, data, ACK_WAIT), Delay]),
                       addr, ap, read, data, k - 1)
    ensures AllWaited(s, addr, ap, read, data, k)
  {
    var e := Xfer(addr, ap, read, data, ACK_WAIT);
    var s2 := s.(replies := s.replies[1..], log := s.log + [e, Delay]);
    WaitStep(s, addr, ap, read, data, k);
    var r2 := Attempts(s2, addr, ap, read, data, k - 1);
    WaitedStep(s.log, e, k);
    assert s2.replies[k - 1..] == s.replies[k..];
    assert [ACK_WAIT] + r2.acks == Repeat(ACK_WAIT, k);
    assert r2.swd == s.(replies := s.replies[k..], log := s.log + Waited(e, k));
  }

  /** swd_dp_read against a target that keeps answering WAIT gives up
      with ESP_FAIL after exactly ten attempts and ten delays. */
  lemma DpReadGivesUp(s: Swd, addr: u8, data: u32)
    requires s.initialized && RETRIES <= |s.replies|
    requires forall i :: 0 <= i < RETRIES ==> s.replies[i].ack == ACK_WAIT
    ensures var r := DpRead(s, addr, data);
      r.err == Fail && |r.swd.replies| == |s.replies| - RETRIES
      && |r.swd.log| == |s.log| + 2 * RETRIES
  {
    WaitingAttempts(s, addr, false, true, data, RETRIES);
  }

  /** An attempt acknowledged OK (with good parity, for a read) ends the
      loop at once. */
  lemma FirstOk(s: Swd, addr: u8, ap: bool, read: bool, data: u32, k: nat)
    requires k > 0 && |s.replies| > 0
    requires s.replies[0].ack == ACK_OK
    requires read ==> s.replies[0].parity == Parity32(s.replies[0].data)
    ensures var v := if read then s.replies[0].data else data;
      Attempts(s, addr, ap, read, data, k)
        == Outcome(s.(replies := s.replies[1..], log := s.log + [Xfer(addr, ap, read, v, ACK_OK)]),
                   Ok, v, [ACK_OK], [s])
  {
  }

  /** A DP write the target accepts at once. */
  lemma DpWriteAccepted(s: Swd, addr: u8, data: u32)
    requires s.initialized && |s.replies| > 0 && s.replies[0].ack == ACK_OK
    ensures DpWrite(s, addr, data) == Outcome(s.(replies := s.replies[1..],
      log := s.log + [Xfer(addr, false, false, data, ACK_OK)]), Ok, data, [ACK_OK], [s])
  {
    FirstOk(s, addr, false, false, data, RETRIES);
  }

  /** A DP read the target answers at once with a good word. */
  lemma DpReadAnswered(s: Swd, addr: u8, data: u32)
    requires s.initialized && |s.replies| > 0 && s.replies[0] == Good(s.replies[0].data)
    ensures var v := s.replies[0].data;
      DpRead(s, addr, data) == Outcome(s.(replies := s.replies[1..],
        log := s.log + [Xfer(addr, false, true, v, ACK_OK)]), Ok, v, [ACK_OK], [s])
  {
    FirstOk(s, addr, false, true, data, RETRIES);
  }

  /** A read whose parity bit is wrong counts as FAULT: the sticky errors
      are cleared through ABORT and the read is tried again. */
  lemma ParityErrorRetried(s: Swd, addr: u8, v: u32, data: u32, rest: seq<Reply>)
    requires s.initialized
    requires s.replies == [Reply(ACK_OK, v, !Parity32(v)), Good(0), Good(v)] + rest
    ensures var r := DpRead(s, addr, data);
      r.err == Ok && r.data == v && r.acks == [ACK_FAULT, ACK_OK] && r.swd.replies == rest
      && r.swd.log == s.log + [Xfer(addr, false, true, data, ACK_FAULT),
                               Xfer(DP_ABORT, false, false, ABORT_CLEAR, ACK_OK),
                               Xfer(addr, false, true, v, ACK_OK)]
  {
    var s1 := s.(replies := s.replies[1..], log := s.log + [Xfer(addr, false, true, data, ACK_FAULT)]);
    var s2 := s1.(replies := s1.replies[1..], log := s1.log + [Xfer(DP_ABORT, false, false, ABORT_CLEAR, ACK_OK)]);
    FaultThenClear(s, addr, v, data);
    FirstOk(s2, addr, false, true, data, RETRIES - 1);
    assert s2.replies[1..] == rest;
  }

  /** The first step of ParityErrorRetried: the bad read and its clear. */
  lemma FaultThenClear(s: Swd, addr: u8, v: u32, data: u32)
    requires s.initialized && |s.replies| > 1
    requires s.replies[0] == Reply(ACK_OK, v, !Parity32(v)) && s.replies[1].ack == ACK_OK
    ensures var s1 := s.(replies := s.replies[1..], log := s.log + [Xfer(addr, false, true, data, ACK_FAULT)]);
      var s2 := s1.(replies := s1.replies[1..], log := s1.log + [Xfer(DP_ABORT, false, false, ABORT_CLEAR, ACK_OK)]);
      var r := Attempts(s2, addr, false, true, data, RETRIES - 1);
      DpRead(s, addr, data) == Outcome(r.swd, r.err, r.data, [ACK_FAULT] + r.acks, [s] + r.tries)
  {
    RetryAfter(s, addr, false, true, data, RETRIES, ACK_FAULT);
    var s1 := s.(replies := s.replies[1..], log := s.log + [Xfer(addr, false, true, data, ACK_FAULT)]);
    ClearAccepted(s1);
  }

  /** An AP read returns the word the follow-up RDBUFF read delivers, not
      the stale word of the posted AP transfer itself. */
  lemma ApReadIsPosted(s: Swd, addr: u8, stale: u32, v: u32, data: u32, rest: seq<Reply>)
    requires s.initialized
    requires s.replies == [Good(stale), Good(v)] + rest
    ensures var r := ApRead(s, addr, data);
      r.err == Ok && r.data == v && r.swd.replies == rest
      && r.swd.log == s.log + [Xfer(addr, true, true, stale, ACK_OK),
                               Xfer(DP_RDBUFF, false, true, v, ACK_OK)]
  {
    FirstOk(s, addr, true, true, data, RETRIES);
    var s1 := s.(replies := s.replies[1..], log := s.log + [Xfer(addr, true, true, stale, ACK_OK)]);
    FirstOk(s1, DP_RDBUFF, false, true, stale, RETRIES);
    assert s1.replies[1..] == rest;
  }

  /** `s` after the host logged `events` and the target's replies came
      down to `rest`. */
  function After(s: Swd, events: seq<Event>, rest: seq<Reply>): (r: Swd)
    ensures r.initialized == s.initialized && r.connected == s.connected
    ensures r.replies == rest && r.log == s.log + events
  {
    s.(replies := rest, log := s.log + events)
  }

  lemma AfterAfter(s: Swd, a: seq<Event>, b: seq<Event>, r1: seq<Reply>, r2: seq<Reply>)
    ensures After(After(s, a, r1), b, r2) == After(s, a + b, r2)
  {
    assert s.log + a + b == s.log + (a + b);
  }

  /** The transfers of a power-up that succeeds at the first poll. */
  function PowerLog(status: u32): seq<Event>
  {
    [Xfer(DP_ABORT, false, false, ABORT_CLEAR, ACK_OK),
     Xfer(DP_CTRL_STAT, false, false, POWER_REQUEST, ACK_OK),
     Xfer(DP_CTRL_STAT, false, true, status, ACK_OK)]
  }

  /** What the first, successful IDCODE read of swd_connect logs. */
  function IdentifyLog(id: u32): seq<Event>
  {
    [DormantWakeupSent, Xfer(DP_IDCODE, false, true, id, ACK_OK)]
  }

  /** The first IDCODE read, after the dormant wake-up, identifies the
      target. */
  lemma IdentifiedAtOnce(s: Swd, id: u32)
    requires s.initialized && ValidIdcode(id)
    requires |s.replies| > 0 && s.replies[0] == Good(id)
    ensures Identify(s)
      == Outcome(After(s, IdentifyLog(id), s.replies[1..]), Ok, id, [ACK_OK], [s.(log := s.log + [DormantWakeupSent])])
  {
    var s1 := s.(log := s.log + [DormantWakeupSent]);
    FirstOk(s1, DP_IDCODE, false, true, 0, RETRIES);
    assert s1.log + [Xfer(DP_IDCODE, false, true, id, ACK_OK)] == s.log + IdentifyLog(id);
  }

  /** The status poll finds both domains acknowledged at the first read. */
  lemma PollAtOnce(s: Swd, n: nat)
    requires s.initialized && n > 0 && |s.replies| > 0
    requires s.replies[0] == Good(s.replies[0].data) && PoweredUp(s.replies[0].data)
    ensures Poll(s, n) == (s.(replies := s.replies[1..],
      log := s.log + [Xfer(DP_CTRL_STAT, false, true, s.replies[0].data, ACK_OK)]), Ok)
  {
    DpReadAnswered(s, DP_CTRL_STAT, 0);
  }

  /** Power-up against a target that accepts the clear and the request and
      acknowledges both domains on the first poll. */
  lemma PoweredAtOnce(s: Swd, status: u32, rest: seq<Reply>)
    requires s.initialized && PoweredUp(status)
    requires s.replies == [Good(0), Good(0), Good(status)] + rest
    ensures PowerUp(s) == (After(s, PowerLog(status), rest), Ok)
  {
    DpWriteAccepted(s, DP_ABORT, ABORT_CLEAR);
    var s1 := s.(replies := s.replies[1..], log := s.log + [Xfer(DP_ABORT, false, false, ABORT_CLEAR, ACK_OK)]);
    DpWriteAccepted(s1, DP_CTRL_STAT, POWER_REQUEST);
    var s2 := s1.(replies := s1.replies[1..], log := s1.log + [Xfer(DP_CTRL_STAT, false, false, POWER_REQUEST, ACK_OK)]);
    assert s2.replies[0] == Good(status) && s2.replies[1..] == rest;
    PollAtOnce(s2, POWER_POLLS);
    Appended(s.log, Xfer(DP_ABORT, false, false, ABORT_CLEAR, ACK_OK),
             Xfer(DP_CTRL_STAT, false, false, POWER_REQUEST, ACK_OK),
             Xfer(DP_CTRL_STAT, false, true, status, ACK_OK));
  }

  lemma Appended<T>(l: seq<T>, a: T, b: T, c: T)
    ensures l + [a] + [b] + [c] == l + [a, b, c]
  {
  }

  /** A target that answers at once: one IDCODE read after the dormant
      wake-up, the ABORT clear, the power request and one CTRL/STAT read
      showing both acknowledgements, then the flag is set. */
  lemma ConnectAtOnce(s: Swd, id: u32, status: u32, rest: seq<Reply>)
    requires s.initialized && ValidIdcode(id) && PoweredUp(status)
    requires s.replies == [Good(id), Good(0), Good(0), Good(status)] + rest
    ensures Connect(s) == (After(s, IdentifyLog(id) + PowerLog(status), rest).(connected := true), Ok)
  {
    IdentifiedAtOnce(s, id);
    var s1 := After(s, IdentifyLog(id), s.replies[1..]);
    assert s1.replies == [Good(0), Good(0), Good(status)] + rest;
    PoweredAtOnce(s1, status, rest);
    AfterAfter(s, IdentifyLog(id), PowerLog(status), s.replies[1..], rest);
    ConnectThrough(s, s1);
  }

  /** swd_connect after a first IDCODE read that identified the target. */
  lemma ConnectThrough(s: Swd, s1: Swd)
    requires s.initialized
    requires Answered(Identify(s)) && Identify(s).swd == s1
    requires PowerUp(s1).1 == Ok
    ensures Connect(s) == (PowerUp(s1).0.(connected := true), Ok)
  {
  }

  /** A target that answers at once after the reset pulse is connected
      again after exactly the transfers of ConnectAtOnce. */
  lemma ResetAtOnce(s: Swd, id: u32, status: u32, rest: seq<Reply>)
    requires s.initialized && s.config.reset >= 0 && ValidIdcode(id) && PoweredUp(status)
    requires s.replies == [Good(id), Good(0), Good(0), Good(status)] + rest
    ensures ResetTarget(s) == (After(s.(log := s.log + [ResetPulse]), IdentifyLog(id) + PowerLog(status), rest).(connected := true), Ok)
  {
    ConnectAtOnce(s.(log := s.log + [ResetPulse]), id, status, rest);
  }

  /** With no target on the line the reset pulse is followed by both
      wake-up routes of swd_connect, and the reset fails without touching
      the connected flag. */
  lemma ResetSilent(s: Swd)
    requires s.initialized && s.config.reset >= 0 && s.replies == []
    ensures var x := Xfer(DP_IDCODE, false, true, 0, ACK_NONE);
      ResetTarget(s) == (s.(log := s.log + [ResetPulse] + [DormantWakeupSent] + Repeat(x, RETRIES)
                                          + [LineResetSent, JtagToSwdSent] + Repeat(x, RETRIES)), Fail)
  {
    var s1 := s.(log := s.log + [ResetPulse]);
    ConnectSilent(s1);
    assert ResetTarget(s) == Connect(s1);
  }

  /** With no target on the line swd_connect tries both wake-up routes,
      ten IDCODE attempts each, and fails without touching the flag. */
  lemma ConnectSilent(s: Swd)
    requires s.initialized && s.replies == []
    ensures var x := Xfer(DP_IDCODE, false, true, 0, ACK_NONE);
      Connect(s) == (s.(log := s.log + [DormantWakeupSent] + Repeat(x, RETRIES)
                                      + [LineResetSent, JtagToSwdSent] + Repeat(x, RETRIES)), Fail)
  {
    var s1 := s.(log := s.log + [DormantWakeupSent]);
    SilentAttempts(s1, DP_IDCODE, false, true, 0, RETRIES);
    var a := DpRead(s1, DP_IDCODE, 0);
    var s2 := a.swd.(log := a.swd.log + [LineResetSent, JtagToSwdSent]);
    SilentAttempts(s2, DP_IDCODE, false, true, 0, RETRIES);
  }
}

=== FILE: swd_flash.dfy ===
/**
 * The nRF52840 flash engine (swd_flash.c): ready polling, NVMC mode
 * switching with read-back, page erase, word write, the buffered writer,
 * mass erase, full-chip erase, APPROTECT removal and the firmware update
 * sequence, run against the chip of module Nvmc.
 *
 * The driver's millisecond timeouts become poll budgets: the wait loop
 * sleeps one FreeRTOS tick between READY polls, so `wait_nvmc_ready(ms)`
 * polls at most `pdMS_TO_TICKS(ms)` times, which at the ESP-IDF default
 * tick rate of 100 Hz is `ms / 10`.
 */
module SwdFlash {
  import opened Bits
  import opened Esp
  import opened Nvmc

  const POLLS_100MS: nat := 10
  const POLLS_200MS: nat := 20
  const POLLS_500MS: nat := 50
  const POLLS_1000MS: nat := 100

  function Last<T>(s: seq<T>): T
    requires |s| > 0
  {
    s[|s| - 1]
  }

  /** A READY poll that found the controller still busy. */
  predicate BusyPoll(e: Access)
  {
    e.Read? && e.addr == NVMC_READY && e.ok && And(e.value, 1) != 1
  }

  /** A READY poll that found bit 0 set. */
  predicate ReadyPoll(e: Access)
  {
    e.Read? && e.addr == NVMC_READY && e.ok && And(e.value, 1) == 1
  }

  /** The chip as far as polling can change it: everything but the busy
      countdown. */
  predicate SameContents(a: Chip, b: Chip)
  {
    a.flash == b.flash && a.uicr == b.uicr && a.config == b.config
  }

  /** From position `from` on, the trace writes only CONFIG and
      ERASEPAGE: it programs no word of flash or UICR and triggers no chip
      erase. */
  predicate OnlyErases(t: seq<Access>, from: nat)
  {
    forall j :: from <= j < |t| && t[j].Write? ==> t[j].addr == NVMC_CONFIG || t[j].addr == NVMC_ERASEPAGE
  }

  lemma OnlyErasesTrans(t1: seq<Access>, t2: seq<Access>, from: nat)
    requires t1 <= t2 && from <= |t1|
    requires OnlyErases(t1, from) && OnlyErases(t2, |t1|)
    ensures OnlyErases(t2, from)
  {
    forall j | from <= j < |t1|
      ensures t2[j] == t1[j]
    {
    }
  }

  // ---------------------------------------------------------------------
  // wait_nvmc_ready and set_nvmc_config

  /** wait_nvmc_ready: poll READY until bit 0 is set, a read fails, or the
      budget of `polls` polls is spent. */
  function WaitReady(m: Mem, polls: nat): (r: (Mem, Err))
    requires Ready(m)
    ensures Ready(r.0) && SameContents(m.chip, r.0.chip)
    ensures r.1 == Ok || r.1 == Fail || r.1 == Timeout
    ensures m.trace <= r.0.trace && |r.0.trace| <= |m.trace| + polls
    ensures forall i :: |m.trace| <= i < |r.0.trace| - 1 ==> BusyPoll(r.0.trace[i])
    ensures r.1 == Ok ==> |r.0.trace| > |m.trace| && ReadyPoll(Last(r.0.trace))
    ensures r.1 == Fail ==> |r.0.trace| > |m.trace| && Last(r.0.trace) == Read(NVMC_READY, 0, false)
    ensures r.1 == Timeout ==>
      && |r.0.trace| == |m.trace| + polls
      && (polls > 0 ==> BusyPoll(Last(r.0.trace)))
    ensures OnlyErases(r.0.trace, |m.trace|)
    decreases polls
  {
    if polls == 0 then (m, Timeout)
    else
      var (m1, e, ready) := MemRead(m, NVMC_READY);
      if e != Ok then (m1, Fail)
      else if And(ready, 1) == 1 then (m1, Ok)
      else WaitReady(m1, polls - 1)
  }

  /** Over a link that performs every access, the wait succeeds exactly when
      the controller turns ready within the budget, and each poll uses up
      one busy period. */
  lemma {:induction false} WaitReliable(m: Mem, polls: nat)
    requires Ready(m) && m.fates == []
    ensures var r := WaitReady(m, polls);
      && (r.1 == Ok <==> m.chip.busy < polls)
      && r.1 != Fail
      && r.0.fates == []
      && r.0.chip == m.chip.(busy := if r.1 == Ok then 0 else m.chip.busy - polls)
    decreases polls
  {
    if polls > 0 {
      var (m1, e, ready) := MemRead(m, NVMC_READY);
      LowMasks(ready);
      if m.chip.busy > 0 {
        WaitReliable(m1, polls - 1);
      }
    }
  }

  /** The accesses of one `set_nvmc_config(mode)`: the CONFIG write, then,
      if the write was accepted, the read-back, which succeeds exactly when
      its low two bits are `mode`. */
  predicate Switch(t: seq<Access>, mode: u32, ok: bool)
  {
    || (t == [Write(NVMC_CONFIG, mode, false)] && !ok)
    || (&& |t| == 2
        && t[0] == Write(NVMC_CONFIG, mode, true)
        && t[1].Read? && t[1].addr == NVMC_CONFIG
        && (ok <==> t[1].ok && And(t[1].value, 3) == mode))
  }

  /** set_nvmc_config: write CONFIG, read it back and compare its low two
      bits with the requested mode. */
  function SetConfig(m: Mem, mode: u32): (r: (Mem, Err))
    requires Ready(m) && mode < 4
    ensures Ready(r.0) && r.0.chip.flash == m.chip.flash && r.0.chip.uicr == m.chip.uicr
    ensures r.0.chip.busy == m.chip.busy
    ensures r.1 == Ok || r.1 == Fail
    ensures m.trace <= r.0.trace && Switch(r.0.trace[|m.trace|..], mode, r.1 == Ok)
    ensures r.1 == Ok ==> r.0.chip.config == mode
    ensures OnlyErases(r.0.trace, |m.trace|)
  {
    var (m1, e1) := MemWrite(m, NVMC_CONFIG, mode);
    if e1 != Ok then (m1, e1)
    else
      var (m2, e2, config) := MemRead(m1, NVMC_CONFIG);
      LowMasks(config);
      if e2 != Ok then (m2, e2)
      else if And(config, 3) != mode then (m2, Fail)
      else (m2, Ok)
  }

  /** Over a reliable link the switch succeeds and changes only the mode. */
  lemma SetConfigReliable(m: Mem, mode: u32)
    requires Ready(m) && mode < 4 && m.fates == []
    ensures var r := SetConfig(m, mode);
      r.1 == Ok && r.0.chip == m.chip.(config := mode) && r.0.fates == []
  {
    var (m1, e1) := MemWrite(m, NVMC_CONFIG, mode);
    var (m2, e2, config) := MemRead(m1, NVMC_CONFIG);
    LowMasks(config);
  }

  /** A switch whose CONFIG write lands but whose read-back fails reports
      ESP_FAIL although the controller is now in the requested mode. */
  lemma SwitchHalfDone(m: Mem, mode: u32)
    requires Ready(m) && mode < 4 && m.fates == [Done, Failed]
    ensures var r := SetConfig(m, mode);
      r.1 == Fail && r.0.chip.config == mode
  {
  }

  /** The prologue of every NVMC operation: `wait_nvmc_ready` then
      `set_nvmc_config(mode)`, each returning at once on failure. */
  function Enable(m: Mem, mode: u32, polls: nat): (r: (Mem, Err))
    requires Ready(m) && mode < 4
    ensures Ready(r.0) && r.0.chip.flash == m.chip.flash && r.0.chip.uicr == m.chip.uicr
    ensures r.1 == Ok || r.1 == Fail || r.1 == Timeout
    ensures r.1 == Ok ==> r.0.chip.config == mode
    ensures m.trace <= r.0.trace && OnlyErases(r.0.trace, |m.trace|)
    ensures polls > 0 ==> |r.0.trace| > |m.trace|
  {
    var (m1, e1) := WaitReady(m, polls);
    if e1 != Ok then (m1, e1)
    else
      var r := SetConfig(m1, mode);
      OnlyErasesTrans(m1.trace, r.0.trace, |m.trace|);
      r
  }

  lemma EnableReliable(m: Mem, mode: u32, polls: nat)
    requires Ready(m) && mode < 4 && m.fates == [] && m.chip.busy < polls
    ensures var r := Enable(m, mode, polls);
      r.1 == Ok && r.0.chip == m.chip.(config := mode, busy := 0) && r.0.fates == []
  {
    WaitReliable(m, polls);
    SetConfigReliable(WaitReady(m, polls).0, mode);
  }

  /** The accesses of the cleanup `set_nvmc_config(NVMC_CONFIG_REN)`,
      whatever its outcome. */
  predicate Restoring(t: seq<Access>)
  {
    Switch(t, REN, true) || Switch(t, REN, false)
  }

  /** The cleanup label: return to read-only mode and return `err`, whatever
      the switch itself reports. */
  function Restore(m: Mem, err: Err): (r: (Mem, Err))
    requires Ready(m)
    ensures r.1 == err
    ensures Ready(r.0) && r.0.chip.flash == m.chip.flash && r.0.chip.uicr == m.chip.uicr
    ensures r.0.chip.busy == m.chip.busy
    ensures m.trace <= r.0.trace && Restoring(r.0.trace[|m.trace|..])
    ensures OnlyErases(r.0.trace, |m.trace|)
  {
    (SetConfig(m, REN).0, err)
  }

  lemma RestoreReliable(m: Mem, err: Err)
    requires Ready(m) && m.fates == []
    ensures var r := Restore(m, err);
      r.0.chip == m.chip.(config := REN) && r.0.fates == []
  {
    SetConfigReliable(m, REN);
  }

  // ---------------------------------------------------------------------
  // swd_flash_erase_page

  /** `addr & ~(NRF52_FLASH_PAGE_SIZE - 1)`. */
  function PageBase(addr: u32): (r: u32)
    ensures r == addr - addr % PAGE_SIZE
    ensures r <= addr && r % PAGE_SIZE == 0 && r / PAGE_SIZE == addr / PAGE_SIZE
  {
    PageMask(addr);
    And(addr, 0xFFFF_F000)
  }

  /** The erase between enabling and cleanup: trigger ERASEPAGE, wait for
      it, and sample the first word of the page. */
  function EraseStep(m: Mem, page: u32): (r: (Mem, Err))
    requires Ready(m) && page < FLASH_SIZE && page % PAGE_SIZE == 0
    ensures Ready(r.0) && r.0.chip.uicr == m.chip.uicr && r.0.chip.config == m.chip.config
    ensures r.1 == Ok || r.1 == Fail || r.1 == Timeout
    ensures forall i :: 0 <= i < WORDS && i / PAGE_WORDS != page / PAGE_SIZE ==>
      r.0.chip.flash[i] == m.chip.flash[i]
    ensures m.trace <= r.0.trace
    ensures r.1 == Ok <==> |r.0.trace| > |m.trace| && Last(r.0.trace) == Read(page, ERASED, true)
    ensures r.1 == Ok ==> r.0.chip.flash[page / 4] == ERASED
    ensures OnlyErases(r.0.trace, |m.trace|)
  {
    var (m1, e1) := MemWrite(m, NVMC_ERASEPAGE, page);
    if e1 != Ok then (m1, e1)
    else
      var r := Sample(m1, page);
      OnlyErasesTrans(m1.trace, r.0.trace, |m.trace|);
      r
  }

  /** The second half of the erase: wait for the controller, then read the
      first word of the page and accept it only if it reads erased. */
  function Sample(m: Mem, page: u32): (r: (Mem, Err))
    requires Ready(m) && page < FLASH_SIZE && page % PAGE_SIZE == 0
    ensures Ready(r.0) && r.0.chip.uicr == m.chip.uicr && r.0.chip.config == m.chip.config
    ensures r.1 == Ok || r.1 == Fail || r.1 == Timeout
    ensures forall i :: 0 <= i < WORDS && i / PAGE_WORDS != page / PAGE_SIZE ==>
      r.0.chip.flash[i] == m.chip.flash[i]
    ensures m.trace <= r.0.trace && OnlyErases(r.0.trace, |m.trace|)
    ensures r.1 == Ok <==> |r.0.trace| > |m.trace| && Last(r.0.trace) == Read(page, ERASED, true)
    ensures r.1 == Ok ==> r.0.chip.flash[page / 4] == ERASED
  {
    var (m2, e2) := WaitReady(m, POLLS_200MS);
    if e2 != Ok then (m2, e2)
    else
      var (m3, e3, sample) := MemRead(m2, page);
      if e3 != Ok then (m3, e3)
      else if sample != ERASED then (m3, Fail)
      else (m3, Ok)
  }

  /** swd_flash_erase_page. */
  function ErasePage(m: Mem, addr: u32): (r: (Mem, Err))
    requires Ready(m)
    ensures Ready(r.0) && r.0.chip.uicr == m.chip.uicr
    ensures r.1 == Ok || r.1 == Fail || r.1 == Timeout || r.1 == InvalidArg
    ensures r.1 == InvalidArg <==> addr >= FLASH_SIZE
    ensures addr >= FLASH_SIZE ==> r.0 == m
    ensures forall i :: 0 <= i < WORDS && i / PAGE_WORDS != addr / PAGE_SIZE ==>
      r.0.chip.flash[i] == m.chip.flash[i]
    ensures r.1 == Ok ==> r.0.chip.flash[PageBase(addr) / 4] == ERASED
    ensures addr < FLASH_SIZE ==>
      var (m1, e1) := Enable(m, EEN, POLLS_100MS);
      && (e1 != Ok ==> r == (m1, e1))
      && (e1 == Ok ==>
            var (m2, e2) := EraseStep(m1, PageBase(addr));
            && r.1 == e2
            && m2.trace <= r.0.trace
            && Restoring(r.0.trace[|m2.trace|..]))
    ensures m.trace <= r.0.trace && OnlyErases(r.0.trace, |m.trace|)
    ensures addr < FLASH_SIZE ==> |r.0.trace| > |m.trace|
  {
    if addr >= FLASH_SIZE then (m, InvalidArg)
    else
      var page := PageBase(addr);
      var (m1, e1) := Enable(m, EEN, POLLS_100MS);
      if e1 != Ok then (m1, e1)
      else
        var (m2, e2) := EraseStep(m1, page);
        var r := Restore(m2, e2);
        OnlyErasesTrans(m1.trace, m2.trace, |m.trace|);
        OnlyErasesTrans(m2.trace, r.0.trace, |m.trace|);
        r
  }

  /** Over a reliable link with a controller that turns ready in time, the
      page holding `addr` is erased, nothing else changes, and the
      controller is back in read-only mode. */
  lemma ErasePageReliable(m: Mem, addr: u32)
    requires Ready(m) && m.fates == [] && m.chip.busy < POLLS_100MS && addr < FLASH_SIZE
    ensures var r := ErasePage(m, addr);
      && r.1 == Ok
      && r.0.chip == m.chip.(flash := ErasePageWords(m.chip.flash, addr / PAGE_SIZE), config := REN, busy := 0)
      && r.0.fates == []
  {
    var page := PageBase(addr);
    EnableReliable(m, EEN, POLLS_100MS);
    var (m1, e1) := Enable(m, EEN, POLLS_100MS);
    EraseStepReliable(m1, page);
    var (m2, e2) := EraseStep(m1, page);
    RestoreReliable(m2, e2);
  }

  /** The erase step over a reliable link with erasing enabled. */
  lemma EraseStepReliable(m: Mem, page: u32)
    requires Ready(m) && m.fates == [] && m.chip.busy == 0 && m.chip.config == EEN
    requires page < FLASH_SIZE && page % PAGE_SIZE == 0
    ensures var r := EraseStep(m, page);
      && r.1 == Ok
      && r.0.chip == m.chip.(flash := ErasePageWords(m.chip.flash, page / PAGE_SIZE), busy := 0)
      && r.0.fates == []
  {
    var (m2, e2) := MemWrite(m, NVMC_ERASEPAGE, page);
    WaitReliable(m2, POLLS_200MS);
    var (m3, e3) := WaitReady(m2, POLLS_200MS);
    var (m4, e4, sample) := MemRead(m3, page);
  }

  /** The hazard of lines 69-70: when the EEN read-back fails after the
      write landed, the page erase returns ESP_FAIL with the controller left
      in erase-enable mode. */
  lemma EraseLeavesEraseMode(m: Mem, addr: u32)
    requires Ready(m) && m.fates == [Done, Done, Failed] && m.chip.busy == 0 && addr < FLASH_SIZE
    ensures var r := ErasePage(m, addr);
      r.1 == Fail && r.0.chip.config == EEN
  {
    var (m1, e1, ready) := MemRead(m, NVMC_READY);
    LowMasks(ready);
  }

  // ---------------------------------------------------------------------
  // swd_flash_write_word

  /** The write between enabling and cleanup: store the word, wait for the
      controller, and read the word back. */
  function ProgramStep(m: Mem, addr: u32, data: u32): (r: (Mem, Err))
    requires Ready(m)
    ensures Ready(r.0)
    ensures r.1 == Ok || r.1 == Fail || r.1 == Timeout
    ensures addr < FLASH_SIZE ==> r.0.chip.uicr == m.chip.uicr && r.0.chip.config == m.chip.config
    ensures addr < FLASH_SIZE && addr % 4 == 0 ==>
      forall i :: 0 <= i < WORDS && i != addr / 4 ==> r.0.chip.flash[i] == m.chip.flash[i]
    ensures m.trace <= r.0.trace
    ensures r.1 == Ok ==> |r.0.trace| > |m.trace| && Last(r.0.trace) == Read(addr, data, true)
    ensures addr < FLASH_SIZE ==>
      (r.1 == Ok <==> |r.0.trace| > |m.trace| && Last(r.0.trace) == Read(addr, data, true))
    ensures r.1 == Ok && addr < FLASH_SIZE ==> r.0.chip.flash[addr / 4] == data
  {
    var (m1, e1) := MemWrite(m, addr, data);
    if e1 != Ok then (m1, e1)
    else
      var (m2, e2) := WaitReady(m1, POLLS_100MS);
      if e2 != Ok then (m2, e2)
      else
        var (m3, e3, readback) := MemRead(m2, addr);
        if e3 != Ok then (m3, e3)
        else if readback != data then (m3, Fail)
        else (m3, Ok)
  }

  /** swd_flash_write_word. */
  function WriteWord(m: Mem, addr: u32, data: u32): (r: (Mem, Err))
    requires Ready(m)
    ensures Ready(r.0) && m.trace <= r.0.trace
    ensures r.1 == Ok || r.1 == Fail || r.1 == Timeout || r.1 == InvalidArg
    ensures r.1 == InvalidArg <==> addr % 4 != 0
    ensures addr % 4 != 0 ==> r.0 == m
    ensures addr < FLASH_SIZE ==> r.0.chip.uicr == m.chip.uicr
    ensures addr < FLASH_SIZE ==>
      forall i :: 0 <= i < WORDS && i != addr / 4 ==> r.0.chip.flash[i] == m.chip.flash[i]
    ensures r.1 == Ok && addr < FLASH_SIZE ==> r.0.chip.flash == m.chip.flash[addr / 4 := data]
    ensures addr % 4 == 0 ==>
      var (m1, e1) := Enable(m, WEN, POLLS_100MS);
      && (e1 != Ok ==> r == (m1, e1))
      && (e1 == Ok ==>
            var (m2, e2) := ProgramStep(m1, addr, data);
            && r.1 == e2
            && m2.trace <= r.0.trace
            && Restoring(r.0.trace[|m2.trace|..]))
  {
    WordMask(addr);
    if And(addr, 3) != 0 then (m, InvalidArg)
    else WriteAligned(m, addr, data)
  }

  /** The aligned path of swd_flash_write_word: enable writing, program the
      word and read it back, then return to read-only mode. */
  function WriteAligned(m: Mem, addr: u32, data: u32): (r: (Mem, Err))
    requires Ready(m) && addr % 4 == 0
    ensures Ready(r.0) && m.trace <= r.0.trace
    ensures r.1 == Ok || r.1 == Fail || r.1 == Timeout
    ensures addr < FLASH_SIZE ==> r.0.chip.uicr == m.chip.uicr
    ensures addr < FLASH_SIZE ==>
      forall i :: 0 <= i < WORDS && i != addr / 4 ==> r.0.chip.flash[i] == m.chip.flash[i]
    ensures r.1 == Ok && addr < FLASH_SIZE ==> r.0.chip.flash[addr / 4] == data
    ensures var (m1, e1) := Enable(m, WEN, POLLS_100MS);
      && (e1 != Ok ==> r == (m1, e1))
      && (e1 == Ok ==>
            var (m2, e2) := ProgramStep(m1, addr, data);
            && r.1 == e2
            && m2.trace <= r.0.trace
            && Restoring(r.0.trace[|m2.trace|..]))
  {
    var (m1, e1) := Enable(m, WEN, POLLS_100MS);
    if e1 != Ok then (m1, e1)
    else
      var (m2, e2) := ProgramStep(m1, addr, data);
      Restore(m2, e2)
  }

  /** Over a reliable link with a controller that turns ready in time, the
      word is programmed NOR-fashion (bits can only be cleared), and the
      write reports success exactly when every bit set in `data` was still
      set in the old word. */
  lemma WriteWordReliable(m: Mem, addr: u32, data: u32)
    requires Ready(m) && m.fates == [] && m.chip.busy < POLLS_100MS
    requires addr < FLASH_SIZE && addr % 4 == 0
    ensures var r := WriteWord(m, addr, data);
      && (r.1 == Ok <==> Covers(m.chip.flash[addr / 4], data))
      && (r.1 == Ok || r.1 == Fail)
      && r.0.chip == m.chip.(flash := Program(m.chip.flash, addr / 4, data), config := REN, busy := 0)
      && r.0.fates == []
  {
    WordMask(addr);
    EnableReliable(m, WEN, POLLS_100MS);
    var (m1, e1) := Enable(m, WEN, POLLS_100MS);
    var (m2, e2) := MemWrite(m1, addr, data);
    WaitReliable(m2, POLLS_100MS);
    var (m3, e3) := WaitReady(m2, POLLS_100MS);
    var (m4, e4, readback) := MemRead(m3, addr);
    RestoreReliable(m4, e4);
    AndCovers(m.chip.flash[addr / 4], data);
  }

  /** The hazard of lines 108-109: when the WEN read-back fails after the
      write landed, the word write returns ESP_FAIL with the controller left
      in write-enable mode. */
  lemma WriteLeavesWriteMode(m: Mem, addr: u32, data: u32)
    requires Ready(m) && m.fates == [Done, Done, Failed] && m.chip.busy == 0 && addr % 4 == 0
    ensures var r := WriteWord(m, addr, data);
      r.1 == Fail && r.0.chip.config == WEN
  {
    WordMask(addr);
    var (m1, e1, ready) := MemRead(m, NVMC_READY);
    LowMasks(ready);
  }

  // ---------------------------------------------------------------------
  // swd_flash_write_buffer

  /** The messages the engine passes to its progress callback. */
  datatype Stage = StartingMassErase | Erasing | MassEraseComplete | Writing | Complete

  function Message(s: Stage): string
  {
    match s
    case StartingMassErase => "Starting mass erase"
    case Erasing => "Erasing"
    case MassEraseComplete => "Mass erase complete"
    case Writing => "Writing"
    case Complete => "Complete"
  }

  /** One call of the `flash_progress_cb` callback; its message is
      `Message(stage)`. */
  datatype Progress = Progress(done: nat, total: nat, stage: Stage)

  /** `addr + size > NRF52_FLASH_SIZE` evaluated in 32-bit unsigned
      arithmetic, as the driver does. */
  predicate Oversized(addr: u32, size: u32)
  {
    (addr + size) % WORD_LIMIT > FLASH_SIZE
  }

  /** The range check as written lets through a range that runs past the
      top of the 32-bit address space, and the byte at offset 16 of that
      range (the seventeenth) is then written at flash address 0. */
  lemma RangeCheckWraps()
    ensures !Oversized(0xFFFF_FFF0, 0x20)
    ensures PastFlash(0xFFFF_FFF0, 0x20)
    ensures (0xFFFF_FFF0 + 16) % WORD_LIMIT == 0
  {
  }

  /** The range check the driver evidently intends: the range must end
      within flash. */
  predicate PastFlash(addr: u32, size: u32)
  {
    addr + size > FLASH_SIZE
  }

  /** A range the corrected check accepts lies wholly in flash, so no byte
      of it wraps around; without wrap-around the check as written agrees
      with it. */
  lemma RangeCheckFixed(addr: u32, size: u32)
    ensures !PastFlash(addr, size) ==> forall k :: addr <= k < addr + size ==> k < FLASH_SIZE && k % WORD_LIMIT == k
    ensures addr + size < WORD_LIMIT ==> (Oversized(addr, size) <==> PastFlash(addr, size))
  {
  }

  /** The byte at flash address `k` once `d` has been written at `a`: the
      data inside the span, 0xFF in the part of the last word the span does
      not reach (when that word starts inside the span), and the old byte
      everywhere else. */
  function Image(c0: Chip, a: nat, d: seq<u8>, k: nat): (r: u8)
    requires Valid(c0) && k < FLASH_SIZE
    ensures a <= k < a + |d| ==> r == d[k - a]
    ensures !(a <= k < a + |d|) && r != FlashByte(c0, k) ==> r == 0xFF && k / 4 == (a + |d|) / 4
  {
    var e := a + |d|;
    if a <= k < e then d[k - a]
    else if e % 4 != 0 && e <= k && k / 4 == e / 4 && a <= e - e % 4 then 0xFF
    else FlashByte(c0, k)
  }

  /** A word with bytes `off .. off + |b|` replaced by `b`, as the driver's
      stores through a byte pointer into the word do. */
  function Splice(w: u32, off: nat, b: seq<u8>): (r: u32)
    requires off + |b| <= 4
    ensures Bytes(r) == Bytes(w)[..off] + b + Bytes(w)[off + |b|..]
  {
    var s := Bytes(w)[..off] + b + Bytes(w)[off + |b|..];
    PackBytes(s);
    Pack(s)
  }

  lemma ErasedBytes()
    ensures Bytes(ERASED) == [0xFF, 0xFF, 0xFF, 0xFF]
  {
    assert ByteOf(ERASED, 1) == ByteOf(0xFF_FFFF, 0);
    assert ByteOf(ERASED, 2) == ByteOf(0xFFFF, 0);
    assert ByteOf(ERASED, 3) == ByteOf(0xFF, 0);
  }

  /** Below `pos` the flash holds the image of the write, from `pos` on it
      still holds the old contents. */
  predicate WrittenUpTo(c0: Chip, c: Chip, a: nat, d: seq<u8>, pos: nat)
    requires Valid(c0) && Valid(c)
  {
    forall k :: 0 <= k < FLASH_SIZE ==>
      FlashByte(c, k) == if k < pos then Image(c0, a, d, k) else FlashByte(c0, k)
  }

  lemma WordUpdate(c: Chip, c': Chip, w: nat, word: u32, k: nat)
    requires Valid(c) && Valid(c') && w < WORDS && c'.flash == c.flash[w := word] && k < FLASH_SIZE
    ensures FlashByte(c', k) == if k / 4 == w then Bytes(word)[k % 4] else FlashByte(c, k)
  {
  }

  lemma WriteStarts(c0: Chip, a: nat, d: seq<u8>)
    requires Valid(c0)
    ensures WrittenUpTo(c0, c0, a, d, a)
  {
  }

  /** The unaligned head: the word holding `a` is read, its bytes from
      offset `a % 4` on are replaced by the first `n` data bytes, and it is
      written back. */
  lemma HeadStep(c0: Chip, c: Chip, a: nat, d: seq<u8>, n: nat)
    requires Valid(c0) && Valid(c) && a + |d| <= FLASH_SIZE && a % 4 != 0
    requires n == if 4 - a % 4 > |d| then |d| else 4 - a % 4
    requires c.flash == c0.flash[a / 4 := Splice(c0.flash[a / 4], a % 4, d[..n])]
    ensures WrittenUpTo(c0, c, a, d, a + n)
  {
    var word := Splice(c0.flash[a / 4], a % 4, d[..n]);
    forall k | 0 <= k < FLASH_SIZE
      ensures FlashByte(c, k) == if k < a + n then Image(c0, a, d, k) else FlashByte(c0, k)
    {
      WordUpdate(c0, c, a / 4, word, k);
    }
  }

  /** A whole aligned word of data. */
  lemma MiddleStep(c0: Chip, c: Chip, c': Chip, a: nat, d: seq<u8>, pos: nat)
    requires Valid(c0) && Valid(c) && Valid(c') && a + |d| <= FLASH_SIZE
    requires pos % 4 == 0 && a <= pos && pos + 4 <= a + |d|
    requires WrittenUpTo(c0, c, a, d, pos)
    requires c'.flash == c.flash[pos / 4 := Pack(d[pos - a..pos - a + 4])]
    ensures WrittenUpTo(c0, c', a, d, pos + 4)
  {
    var b := d[pos - a..pos - a + 4];
    PackBytes(b);
    forall k | 0 <= k < FLASH_SIZE
      ensures FlashByte(c', k) == if k < pos + 4 then Image(c0, a, d, k) else FlashByte(c0, k)
    {
      WordUpdate(c, c', pos / 4, Pack(b), k);
    }
  }

  /** The last, partial word: the remaining data bytes padded with 0xFF. */
  lemma TailStep(c0: Chip, c: Chip, c': Chip, a: nat, d: seq<u8>, pos: nat)
    requires Valid(c0) && Valid(c) && Valid(c') && a + |d| <= FLASH_SIZE
    requires pos % 4 == 0 && a <= pos && pos < a + |d| < pos + 4
    requires WrittenUpTo(c0, c, a, d, pos)
    requires c'.flash == c.flash[pos / 4 := Splice(ERASED, 0, d[pos - a..])]
    ensures WrittenUpTo(c0, c', a, d, pos + 4)
  {
    var word := Splice(ERASED, 0, d[pos - a..]);
    ErasedBytes();
    forall k | 0 <= k < FLASH_SIZE
      ensures FlashByte(c', k) == if k < pos + 4 then Image(c0, a, d, k) else FlashByte(c0, k)
    {
      WordUpdate(c, c', pos / 4, word, k);
    }
  }

  /** Past the last word written the image is the old contents. */
  lemma WriteEnds(c0: Chip, c: Chip, a: nat, d: seq<u8>, pos: nat)
    requires Valid(c0) && Valid(c) && a + |d| <= pos
    requires var e := a + |d|; e % 4 != 0 ==> e - e % 4 < a || pos == e - e % 4 + 4
    requires WrittenUpTo(c0, c, a, d, pos)
    ensures forall k :: 0 <= k < FLASH_SIZE ==> FlashByte(c, k) == Image(c0, a, d, k)
  {
  }

  /** `WriteWord` at a word-aligned address, as the write-buffer steps use
      it: which errors it can report and, on success inside flash, the one
      word it changes. */
  method PutWord(m: Mem, addr: u32, data: u32) returns (m': Mem, err: Err)
    requires Ready(m) && addr % 4 == 0
    ensures Ready(m') && m.trace <= m'.trace
    ensures err == Ok || err == Fail || err == Timeout
    ensures err == Ok && addr < FLASH_SIZE ==> m'.chip.flash == m.chip.flash[addr / 4 := data]
  {
    var r := WriteWord(m, addr, data);
    m', err := r.0, r.1;
  }

  /** `MemRead` of a flash word, seen from the write path. */
  method GetWord(m: Mem, addr: u32) returns (m': Mem, err: Err, word: u32)
    requires Ready(m)
    ensures Ready(m') && m.trace <= m'.trace
    ensures err == Ok || err == Fail
    ensures err == Ok && addr < FLASH_SIZE ==> m'.chip == m.chip && word == m.chip.flash[addr / 4]
  {
    var r := MemRead(m, addr);
    m', err, word := r.0, r.1, r.2;
  }

  /** The word address holding `addr` and the offset in it, computed with
      the driver's masks. */
  method Align(addr: u32) returns (aligned: u32, offset: nat)
    ensures aligned == addr - addr % 4 && offset == addr % 4
  {
    WordMask(addr);
    aligned, offset := And(addr, 0xFFFF_FFFC), And(addr, 3);
  }

  /** The head of swd_flash_write_buffer (lines 154-180): read the word
      holding the unaligned start `addr`, replace its bytes from `addr % 4`
      on by as many data bytes as fit, and write it back. */
  method WriteHead(m: Mem, addr: u32, d: seq<u8>) returns (m': Mem, err: Err, n: nat)
    requires Ready(m) && addr % 4 != 0 && 0 < |d|
    ensures Ready(m') && m.trace <= m'.trace
    ensures err == Ok || err == Fail || err == Timeout
    ensures n == if 4 - addr % 4 > |d| then |d| else 4 - addr % 4
    ensures err == Ok && addr + |d| <= FLASH_SIZE ==> WrittenUpTo(m.chip, m'.chip, addr, d, addr + n)
  {
    var aligned, offset := Align(addr);
    var m1, e1, word := GetWord(m, aligned);
    n := if 4 - offset > |d| then |d| else 4 - offset;
    if e1 != Ok {
      return m1, e1, n;
    }
    m', err := PutWord(m1, aligned, Splice(word, offset, d[..n]));
    if err == Ok && addr + |d| <= FLASH_SIZE {
      DivUnique(aligned, 4, addr / 4, 0);
      HeadStep(m.chip, m'.chip, addr, d, n);
    }
  }

  /** One pass of the write-buffer loop: the four data bytes at the aligned
      position `pos` packed little-endian and written as one word. */
  method WordStep(m: Mem, ghost c0: Chip, addr: u32, d: seq<u8>, pos: nat) returns (m': Mem, err: Err)
    requires Ready(m) && Valid(c0) && addr <= pos && pos + 4 <= addr + |d| && pos % 4 == 0
    requires addr + |d| <= FLASH_SIZE ==> WrittenUpTo(c0, m.chip, addr, d, pos)
    ensures Ready(m') && m.trace <= m'.trace
    ensures err == Ok || err == Fail || err == Timeout
    ensures err == Ok && addr + |d| <= FLASH_SIZE ==> WrittenUpTo(c0, m'.chip, addr, d, pos + 4)
  {
    var written := pos - addr;
    m', err := PutWord(m, Wrap(pos), Pack(d[written..written + 4]));
    if err == Ok && addr + |d| <= FLASH_SIZE {
      MiddleStep(c0, m.chip, m'.chip, addr, d, pos);
    }
  }

  /** The loop of swd_flash_write_buffer (lines 183-198): whole words from
      the aligned position `start` while at least four bytes are left, with
      a progress report whenever the count written is a multiple of 256. */
  method WriteWords(m: Mem, ghost c0: Chip, addr: u32, d: seq<u8>, start: nat)
    returns (m': Mem, err: Err, pos: nat, progress: seq<Progress>)
    requires Ready(m) && Valid(c0) && addr <= start <= addr + |d|
    requires start < addr + |d| ==> start % 4 == 0
    requires addr + |d| <= FLASH_SIZE ==>
      && WrittenUpTo(c0, m.chip, addr, d, start)
      && (start % 4 == 0 || start - start % 4 < addr)
    ensures Ready(m') && m.trace <= m'.trace
    ensures err == Ok || err == Fail || err == Timeout
    ensures forall i :: 0 <= i < |progress| ==> progress[i].total == |d| && progress[i].done <= |d|
    ensures err == Ok ==> start <= pos <= addr + |d| < pos + 4
    ensures err == Ok && pos < addr + |d| ==> pos % 4 == 0
    ensures err == Ok && addr + |d| <= FLASH_SIZE ==>
      && WrittenUpTo(c0, m'.chip, addr, d, pos)
      && (pos % 4 == 0 || pos - pos % 4 < addr)
  {
    ghost var fits := addr + |d| <= FLASH_SIZE;
    m', pos, progress := m, start, [];
    while addr + |d| - pos >= 4
      invariant Ready(m') && m.trace <= m'.trace
      invariant start <= pos <= addr + |d|
      invariant pos < addr + |d| ==> pos % 4 == 0
      invariant forall i :: 0 <= i < |progress| ==> progress[i].total == |d| && progress[i].done <= |d|
      invariant fits ==> WrittenUpTo(c0, m'.chip, addr, d, pos) && (pos % 4 == 0 || pos - pos % 4 < addr)
      decreases addr + |d| - pos
    {
      var m1, e1 := WordStep(m', c0, addr, d, pos);
      if e1 != Ok {
        return m1, e1, pos, progress;
      }
      m', pos := m1, pos + 4;
      var written := pos - addr;
      if And(written, 0xFF) == 0 {
        progress := progress + [Progress(written, |d|, Writing)];
      }
    }
    err := Ok;
  }

  /** The tail of swd_flash_write_buffer (lines 201-213): the last one to
      three bytes in a word of 0xFF. */
  method WriteTail(m: Mem, ghost c0: Chip, addr: u32, d: seq<u8>, pos: nat) returns (m': Mem, err: Err)
    requires Ready(m) && Valid(c0) && addr <= pos < addr + |d| < pos + 4 && pos % 4 == 0
    requires addr + |d| <= FLASH_SIZE ==> WrittenUpTo(c0, m.chip, addr, d, pos)
    ensures Ready(m') && m.trace <= m'.trace
    ensures err == Ok || err == Fail || err == Timeout
    ensures err == Ok && addr + |d| <= FLASH_SIZE ==> WrittenUpTo(c0, m'.chip, addr, d, pos + 4)
  {
    m', err := PutWord(m, Wrap(pos), Splice(ERASED, 0, d[pos - addr..]));
    if err == Ok && addr + |d| <= FLASH_SIZE {
      TailStep(c0, m.chip, m'.chip, addr, d, pos);
    }
  }

  /** What follows the loop: the tail word if bytes are left, after which
      the whole span holds the image of the data. */
  method WriteRest(m: Mem, ghost c0: Chip, addr: u32, d: seq<u8>, pos: nat) returns (m': Mem, err: Err)
    requires Ready(m) && Valid(c0) && addr <= pos <= addr + |d| < pos + 4
    requires pos < addr + |d| ==> pos % 4 == 0
    requires addr + |d| <= FLASH_SIZE ==>
      && WrittenUpTo(c0, m.chip, addr, d, pos)
      && (pos % 4 == 0 || pos - pos % 4 < addr)
    ensures Ready(m') && m.trace <= m'.trace
    ensures err == Ok || err == Fail || err == Timeout
    ensures err == Ok && addr + |d| <= FLASH_SIZE ==>
      forall k :: 0 <= k < FLASH_SIZE ==> FlashByte(m'.chip, k) == Image(c0, addr, d, k)
  {
    m', err := m, Ok;
    if pos < addr + |d| {
      m', err := WriteTail(m, c0, addr, d, pos);
      if err == Ok && addr + |d| <= FLASH_SIZE {
        WriteEnds(c0, m'.chip, addr, d, pos + 4);
      }
    } else if addr + |d| <= FLASH_SIZE {
      WriteEnds(c0, m'.chip, addr, d, pos);
    }
  }

  /** swd_flash_write_buffer: an unaligned head spliced into the word read
      from flash, whole words, then a tail padded with 0xFF, each through
      `WriteWord`, stopping at the first failure. Every progress report
      carries the full size as its total; a successful run ends with
      (size, size, "Complete"). */
  method WriteBuffer(m: Mem, addr: u32, data: Option<seq<u8>>, size: u32)
    returns (m': Mem, err: Err, progress: seq<Progress>)
    requires Ready(m)
    requires data.Some? ==> |data.value| == size
    ensures Ready(m') && m.trace <= m'.trace
    ensures err == Ok || err == Fail || err == Timeout || err == InvalidArg || err == InvalidSize
    ensures err == InvalidArg <==> data.None? || size == 0
    ensures err == InvalidSize <==> data.Some? && size > 0 && Oversized(addr, size)
    ensures err == InvalidArg || err == InvalidSize ==> m' == m && progress == []
    ensures forall i :: 0 <= i < |progress| ==> progress[i].total == size && progress[i].done <= size
    ensures err == Ok ==> |progress| > 0 && Last(progress) == Progress(size, size, Complete)
    ensures err == Ok ==> addr + size <= FLASH_SIZE || WORD_LIMIT <= addr + size
    ensures err == Ok && addr + size <= FLASH_SIZE ==>
      forall k :: 0 <= k < FLASH_SIZE ==> FlashByte(m'.chip, k) == Image(m.chip, addr, data.value, k)
  {
    if data.None? || size == 0 {
      return m, InvalidArg, [];
    }
    if Oversized(addr, size) {
      return m, InvalidSize, [];
    }
    m', err, progress := WriteSpan(m, addr, data.value);
  }

  /** The body of swd_flash_write_buffer once the arguments have passed its
      checks. */
  method WriteSpan(m: Mem, addr: u32, d: seq<u8>) returns (m': Mem, err: Err, progress: seq<Progress>)
    requires Ready(m) && 0 < |d| < WORD_LIMIT
    ensures Ready(m') && m.trace <= m'.trace
    ensures err == Ok || err == Fail || err == Timeout
    ensures forall i :: 0 <= i < |progress| ==> progress[i].total == |d| && progress[i].done <= |d|
    ensures err == Ok ==> |progress| > 0 && Last(progress) == Progress(|d|, |d|, Complete)
    ensures err == Ok && addr + |d| <= FLASH_SIZE ==>
      forall k :: 0 <= k < FLASH_SIZE ==> FlashByte(m'.chip, k) == Image(m.chip, addr, d, k)
  {
    // `addr` advances in 32-bit arithmetic in the driver; `pos` is the
    // same address before reduction modulo 2^32.
    var pos: nat := addr;
    WriteStarts(m.chip, addr, d);
    WordMask(addr);
    m' := m;
    if And(addr, 3) != 0 {
      var n;
      m', err, n := WriteHead(m, addr, d);
      if err != Ok {
        return m', err, [];
      }
      HeadAligns(addr, n, |d|);
      pos := addr + n;
    }
    m', err, pos, progress := WriteWords(m', m.chip, addr, d, pos);
    if err != Ok {
      return;
    }
    m', err := WriteRest(m', m.chip, addr, d, pos);
    if err != Ok {
      return;
    }
    progress := progress + [Progress(|d|, |d|, Complete)];
  }

  /** After the head the position is word-aligned, unless the data ended
      inside the head word. */
  lemma HeadAligns(a: nat, n: nat, left: nat)
    requires a % 4 != 0 && n == if 4 - a % 4 > left then left else 4 - a % 4
    ensures left - n > 0 ==> (a + n) % 4 == 0
    ensures (a + n) % 4 == 0 || (left - n == 0 && (a + n) - (a + n) % 4 < a)
  {
  }

  /** An address reduced to 32 bits; reduction keeps word alignment. */
  function Wrap(a: nat): (r: u32)
    ensures r % 4 == a % 4
    ensures a < WORD_LIMIT ==> r == a
  {
    DivUnique(a, WORD_LIMIT, a / WORD_LIMIT, a % WORD_LIMIT);
    a % WORD_LIMIT
  }

  // ---------------------------------------------------------------------
  // swd_flash_mass_erase

  /** Whole-chip erase as the NVMC performs it: code flash and UICR. */
  function Wiped(c: Chip): Chip
  {
    c.(flash := Blank(), uicr := ERASED)
  }

  /** The stored contents are either as before or as a chip erase leaves
      them. */
  predicate KeptOrWiped(c0: Chip, c: Chip)
  {
    || (c.flash == c0.flash && c.uicr == c0.uicr)
    || (c.flash == Blank() && c.uicr == ERASED)
  }

  lemma KeptOrWipedStill(c0: Chip, c1: Chip, c2: Chip)
    requires KeptOrWiped(c0, c1) && c2.flash == c1.flash && c2.uicr == c1.uicr
    ensures KeptOrWiped(c0, c2)
  {
  }

  lemma KeptThenWiped(c0: Chip, c1: Chip, c2: Chip)
    requires c1.flash == c0.flash && c1.uicr == c0.uicr && KeptOrWiped(c1, c2)
    ensures KeptOrWiped(c0, c2)
  {
  }

  /** Writing 1 to ERASEALL either wipes the chip or leaves its contents
      alone. */
  lemma TriggerKeepsOrWipes(m: Mem)
    requires Ready(m)
    ensures KeptOrWiped(m.chip, MemWrite(m, NVMC_ERASEALL, 1).0.chip)
  {
  }

  /** The percentages of a progress sequence never go down and never pass
      the total of 100. */
  predicate Percentages(ps: seq<Progress>)
  {
    && (forall i :: 0 <= i < |ps| ==> ps[i].total == 100 && ps[i].done <= 100)
    && (forall i, j :: 0 <= i < j < |ps| ==> ps[i].done <= ps[j].done)
  }

  /** The report of the settle loop after another 50 ms. */
  function Tick(elapsed: nat): Progress
  {
    Progress((elapsed + 50) / 5, 100, Erasing)
  }

  /** The settle loop of swd_flash_mass_erase: every 50 ms report
      `elapsed / 5` percent and poll READY, leaving the loop at the first
      successful poll that finds bit 0 set, or after 500 ms. A failed poll
      is ignored. */
  function Settle(m: Mem, elapsed: nat): (r: (Mem, seq<Progress>))
    requires Ready(m) && elapsed <= 500 && elapsed % 50 == 0
    ensures Ready(r.0) && SameContents(m.chip, r.0.chip)
    ensures m.trace <= r.0.trace && |r.0.trace| - |m.trace| == |r.1| <= (500 - elapsed) / 50
    ensures forall i :: |m.trace| <= i < |r.0.trace| ==> r.0.trace[i].Read? && r.0.trace[i].addr == NVMC_READY
    ensures forall i :: |m.trace| <= i < |r.0.trace| - 1 ==> !ReadyPoll(r.0.trace[i])
    ensures forall i :: 0 <= i < |r.1| ==>
      r.1[i].total == 100 && r.1[i].stage == Erasing && r.1[i].done <= 100 && r.1[i].done > elapsed / 5
    ensures forall i, j :: 0 <= i < j < |r.1| ==> r.1[i].done < r.1[j].done
    decreases 500 - elapsed
  {
    if elapsed >= 500 then (m, [])
    else
      var poll := MemRead(m, NVMC_READY);
      if poll.1 == Ok && And(poll.2, 1) == 1 then (poll.0, [Tick(elapsed)])
      else
        (Settle(poll.0, elapsed + 50).0, [Tick(elapsed)] + Settle(poll.0, elapsed + 50).1)
  }

  /** Over a reliable link with an idle controller the loop polls once and
      reports ten percent. */
  lemma SettleIdle(m: Mem)
    requires Ready(m) && m.fates == [] && m.chip.busy == 0
    ensures var r := Settle(m, 0);
      r.1 == [Progress(10, 100, Erasing)] && r.0.chip == m.chip && r.0.fates == []
  {
    var (m1, e, ready) := MemRead(m, NVMC_READY);
    LowMasks(ready);
  }

  /** A report of no progress may precede any well-formed progress
      sequence. */
  lemma PercentagesFrom(p: Progress, ps: seq<Progress>)
    requires p.done == 0 && p.total == 100 && Percentages(ps)
    ensures Percentages([p] + ps)
  {
    var s := [p] + ps;
    forall i, j | 0 <= i < j < |s| ensures s[i].done <= s[j].done {
      if i > 0 {
        assert s[i] == ps[i - 1] && s[j] == ps[j - 1];
      }
    }
  }

  /** swd_flash_mass_erase after ERASEALL was accepted: let the erase
      settle, wait for the controller, and report completion. */
  function AfterTrigger(m: Mem): (r: (Mem, Err, seq<Progress>))
    requires Ready(m)
    ensures Ready(r.0) && SameContents(m.chip, r.0.chip)
    ensures r.1 == Ok || r.1 == Fail || r.1 == Timeout
  {
    var (m1, ps) := Settle(m, 0);
    var (m2, e2) := WaitReady(m1, POLLS_100MS);
    if e2 != Ok then (m2, e2, ps)
    else (m2, Ok, ps + [Progress(100, 100, MassEraseComplete)])
  }

  lemma AfterTriggerReports(m: Mem)
    requires Ready(m)
    ensures var r := AfterTrigger(m);
      && Percentages(r.2) && (forall i :: 0 <= i < |r.2| ==> r.2[i].done > 0)
      && (r.1 == Ok <==> |r.2| > 0 && Last(r.2) == Progress(100, 100, MassEraseComplete))
  {
    var (m1, ps) := Settle(m, 0);
    assert Percentages(ps);
    var (m2, e2) := WaitReady(m1, POLLS_100MS);
    if e2 == Ok {
      PercentagesThen(ps, Progress(100, 100, MassEraseComplete));
    }
  }

  /** A final report of 100 % may follow any well-formed progress
      sequence. */
  lemma PercentagesThen(ps: seq<Progress>, p: Progress)
    requires Percentages(ps) && p.done == 100 && p.total == 100
    ensures Percentages(ps + [p])
  {
    var s := ps + [p];
    forall i, j | 0 <= i < j < |s| ensures s[i].done <= s[j].done {
      if j < |ps| {
        assert s[i] == ps[i] && s[j] == ps[j];
      } else {
        assert s[i] == ps[i];
      }
    }
  }

  /** swd_flash_mass_erase from the ERASEALL trigger through the cleanup
      label, which returns to read-only mode whatever happened. */
  function TriggerAndSettle(m: Mem): (r: (Mem, Err, seq<Progress>))
    requires Ready(m)
    ensures Ready(r.0) && KeptOrWiped(m.chip, r.0.chip)
    ensures r.1 == Ok || r.1 == Fail || r.1 == Timeout
  {
    var (m1, e1) := MemWrite(m, NVMC_ERASEALL, 1);
    TriggerKeepsOrWipes(m);
    var (m2, e2, ps) := if e1 != Ok then (m1, e1, []) else AfterTrigger(m1);
    KeptOrWipedStill(m.chip, m1.chip, m2.chip);
    var (m3, e3) := Restore(m2, e2);
    KeptOrWipedStill(m.chip, m2.chip, m3.chip);
    (m3, e3, ps)
  }

  /** The reports after the trigger climb to 100 and end with completion
      exactly on success. */
  lemma TriggerAndSettleReports(m: Mem)
    requires Ready(m)
    ensures var r := TriggerAndSettle(m);
      && Percentages(r.2) && (forall i :: 0 <= i < |r.2| ==> r.2[i].done > 0)
      && (r.1 == Ok <==> |r.2| > 0 && Last(r.2) == Progress(100, 100, MassEraseComplete))
  {
    var (m1, e1) := MemWrite(m, NVMC_ERASEALL, 1);
    if e1 == Ok {
      AfterTriggerReports(m1);
    }
  }

  /** After the trigger comes the ERASEALL write, and the run ends with the
      cleanup switch to read-only mode. */
  lemma TriggerAndSettleCleansUp(m: Mem)
    requires Ready(m)
    ensures var r := TriggerAndSettle(m);
      && |r.0.trace| > |m.trace|
      && r.0.trace[|m.trace|] == Write(NVMC_ERASEALL, 1, r.0.trace[|m.trace|].ok)
      && exists j :: |m.trace| < j <= |r.0.trace| && Restoring(r.0.trace[j..])
  {
    var (m1, e1) := MemWrite(m, NVMC_ERASEALL, 1);
    var (m2, e2, ps) := if e1 != Ok then (m1, e1, []) else AfterTrigger(m1);
    var (m3, e3) := Restore(m2, e2);
    assert Restoring(m3.trace[|m2.trace|..]);
  }

  /** swd_flash_mass_erase: report the start, wait, enable erase, then
      trigger, settle, wait again and clean up. */
  function MassErase(m: Mem): (r: (Mem, Err, seq<Progress>))
    requires Ready(m)
    ensures Ready(r.0) && KeptOrWiped(m.chip, r.0.chip)
    ensures r.1 == Ok || r.1 == Fail || r.1 == Timeout
  {
    var start := Progress(0, 100, StartingMassErase);
    var (m1, e1) := Enable(m, EEN, POLLS_100MS);
    if e1 != Ok then (m1, e1, [start])
    else
      var (m2, e2, ps) := TriggerAndSettle(m1);
      KeptThenWiped(m.chip, m1.chip, m2.chip);
      (m2, e2, [start] + ps)
  }

  /** Mass erase reports start at 0 %, never go down, stay within 100 %,
      and end with completion exactly when the erase succeeds. */
  lemma MassEraseReports(m: Mem)
    requires Ready(m)
    ensures var r := MassErase(m);
      && |r.2| > 0 && r.2[0] == Progress(0, 100, StartingMassErase) && Percentages(r.2)
      && (r.1 == Ok <==> Last(r.2) == Progress(100, 100, MassEraseComplete))
  {
    var start := Progress(0, 100, StartingMassErase);
    var (m1, e1) := Enable(m, EEN, POLLS_100MS);
    if e1 == Ok {
      var (m2, e2, ps) := TriggerAndSettle(m1);
      TriggerAndSettleReports(m1);
      PercentagesFrom(start, ps);
      assert Last([start] + ps) == if |ps| == 0 then start else Last(ps);
    }
  }

  /** Mass erase returns at once when the wait or the switch to erase mode
      fails; once erase mode was reached it writes ERASEALL next and always
      ends with the cleanup switch to read-only mode. */
  lemma MassEraseCleansUp(m: Mem)
    requires Ready(m)
    ensures var r := MassErase(m);
      var (m1, e1) := Enable(m, EEN, POLLS_100MS);
      && (e1 != Ok ==> (r.0, r.1) == (m1, e1))
      && (e1 == Ok ==>
            && |r.0.trace| > |m1.trace|
            && r.0.trace[|m1.trace|] == Write(NVMC_ERASEALL, 1, r.0.trace[|m1.trace|].ok)
            && exists j :: |m1.trace| < j <= |r.0.trace| && Restoring(r.0.trace[j..]))
  {
    var (m1, e1) := Enable(m, EEN, POLLS_100MS);
    if e1 == Ok {
      TriggerAndSettleCleansUp(m1);
    }
  }

  /** Over a reliable link mass erase succeeds exactly when the controller
      turns ready within 100 ms: it then wipes code flash and UICR and
      returns to read-only mode, and otherwise it times out before touching
      anything. */
  lemma MassEraseReliable(m: Mem)
    requires Ready(m) && m.fates == []
    ensures var r := MassErase(m);
      && (r.1 == Ok <==> m.chip.busy < POLLS_100MS)
      && (r.1 == Ok ==>
            && r.0.chip == Wiped(m.chip).(config := REN, busy := 0)
            && r.2 == [Progress(0, 100, StartingMassErase), Progress(10, 100, Erasing),
                       Progress(100, 100, MassEraseComplete)])
      && (r.1 != Ok ==> r.1 == Timeout && r.0.chip == m.chip.(busy := m.chip.busy - POLLS_100MS))
  {
    WaitReliable(m, POLLS_100MS);
    if m.chip.busy < POLLS_100MS {
      EnableReliable(m, EEN, POLLS_100MS);
      var (m1, e1) := Enable(m, EEN, POLLS_100MS);
      var (m2, e2) := MemWrite(m1, NVMC_ERASEALL, 1);
      SettleIdle(m2);
      var (m3, ps) := Settle(m2, 0);
      WaitReliable(m3, POLLS_100MS);
      var (m4, e4) := WaitReady(m3, POLLS_100MS);
      RestoreReliable(m4, e4);
    }
  }

  /** When the ERASEALL write is acknowledged but never reaches the chip,
      mass erase still reports success: nothing reads the flash back. */
  lemma MassEraseDropped(m: Mem)
    requires Ready(m) && m.fates == [Done, Done, Done, Dropped] && m.chip.busy == 0
    ensures var r := MassErase(m);
      r.1 == Ok && r.0.chip.flash == m.chip.flash && r.0.chip.uicr == m.chip.uicr
  {
    var (m0, e0, ready) := MemRead(m, NVMC_READY);
    LowMasks(ready);
    var (m1, e1) := Enable(m, EEN, POLLS_100MS);
    var (m2, e2) := MemWrite(m1, NVMC_ERASEALL, 1);
    SettleIdle(m2);
    var (m3, ps) := Settle(m2, 0);
    WaitReliable(m3, POLLS_100MS);
  }

  // ---------------------------------------------------------------------
  // swd_flash_erase_all, and the erase step of swd_flash_disable_approtect

  /** The chip erase both swd_flash_erase_all and the first half of
      swd_flash_disable_approtect perform, with their two poll budgets:
      wait, enable erase, trigger ERASEALL (cleaning up if the write
      fails), wait for the erase, clean up, and report that last wait. */
  function EraseChip(m: Mem, before: nat, after: nat): (r: (Mem, Err))
    requires Ready(m)
    ensures Ready(r.0)
    ensures KeptOrWiped(m.chip, r.0.chip)
    ensures r.1 == Ok || r.1 == Fail || r.1 == Timeout
    ensures ErasedAndRestored(m, before, after, r)
  {
    var (m1, e1) := Enable(m, EEN, before);
    if e1 != Ok then (m1, e1)
    else
      var (m2, e2) := MemWrite(m1, NVMC_ERASEALL, 1);
      TriggerKeepsOrWipes(m1);
      KeptThenWiped(m.chip, m1.chip, m2.chip);
      var (m3, e3) := if e2 != Ok then (m2, e2) else WaitReady(m2, after);
      KeptOrWipedStill(m.chip, m2.chip, m3.chip);
      var (m4, e4) := Restore(m3, e3);
      KeptOrWipedStill(m.chip, m3.chip, m4.chip);
      (m4, e4)
  }

  /** How a chip erase ends: when the wait or the switch to erase mode
      fails it returns at once with that error; once erase mode was
      reached, the ERASEALL write comes next, and whether that write fails
      or the wait for the erase ends (ready, failed or timed out), the
      cleanup switch to read-only mode follows at once and the error of
      the write, or else of the wait, is returned. */
  predicate ErasedAndRestored(m: Mem, before: nat, after: nat, r: (Mem, Err))
    requires Ready(m)
  {
    var (m1, e1) := Enable(m, EEN, before);
    && (e1 != Ok ==> r == (m1, e1))
    && (e1 == Ok ==>
          var (m2, e2) := MemWrite(m1, NVMC_ERASEALL, 1);
          && m2.trace <= r.0.trace
          && (e2 != Ok ==> r.1 == e2 && Restoring(r.0.trace[|m2.trace|..]))
          && (e2 == Ok ==>
                var (m3, e3) := WaitReady(m2, after);
                r.1 == e3 && m3.trace <= r.0.trace && Restoring(r.0.trace[|m3.trace|..])))
  }

  /** Success means the last wait saw the controller ready, and the cleanup
      switch to read-only mode followed it. */
  lemma EraseChipCleansUp(m: Mem, before: nat, after: nat)
    requires Ready(m)
    ensures var r := EraseChip(m, before, after);
      r.1 == Ok ==>
        exists j :: |m.trace| < j <= |r.0.trace| && ReadyPoll(r.0.trace[j - 1]) && Restoring(r.0.trace[j..])
  {
    var (m1, e1) := Enable(m, EEN, before);
    if e1 == Ok {
      var (m2, e2) := MemWrite(m1, NVMC_ERASEALL, 1);
      var (m3, e3) := if e2 != Ok then (m2, e2) else WaitReady(m2, after);
      var (m4, e4) := Restore(m3, e3);
      assert e4 == Ok ==> ReadyPoll(m4.trace[|m3.trace| - 1]) && Restoring(m4.trace[|m3.trace|..]);
    }
  }

  /** Over a reliable link the chip erase succeeds exactly when the
      controller turns ready within the first budget: code flash and UICR
      are then wiped and the controller is back in read-only mode. */
  lemma EraseChipReliable(m: Mem, before: nat, after: nat)
    requires Ready(m) && m.fates == [] && after > 0
    ensures var r := EraseChip(m, before, after);
      && (r.1 == Ok <==> m.chip.busy < before)
      && (r.1 == Ok ==> r.0.chip == Wiped(m.chip).(config := REN, busy := 0))
      && (r.1 != Ok ==> r.1 == Timeout && r.0.chip == m.chip.(busy := m.chip.busy - before))
      && r.0.fates == []
  {
    WaitReliable(m, before);
    if m.chip.busy < before {
      EnableReliable(m, EEN, before);
      var (m1, e1) := Enable(m, EEN, before);
      var (m2, e2) := MemWrite(m1, NVMC_ERASEALL, 1);
      WaitReliable(m2, after);
      var (m3, e3) := WaitReady(m2, after);
      RestoreReliable(m3, e3);
    }
  }

  /** swd_flash_erase_all: the chip erase with 100 ms to get ready and
      500 ms for the erase. */
  function EraseAll(m: Mem): (r: (Mem, Err))
    requires Ready(m)
    ensures Ready(r.0) && KeptOrWiped(m.chip, r.0.chip)
    ensures r.1 == Ok || r.1 == Fail || r.1 == Timeout
    ensures ErasedAndRestored(m, POLLS_100MS, POLLS_500MS, r)
  {
    EraseChip(m, POLLS_100MS, POLLS_500MS)
  }

  /** Over a reliable link with a controller that turns ready within
      100 ms the whole chip, UICR included, is erased. */
  lemma EraseAllReliable(m: Mem)
    requires Ready(m) && m.fates == [] && m.chip.busy < POLLS_100MS
    ensures var r := EraseAll(m);
      r.1 == Ok && r.0.chip == Wiped(m.chip).(config := REN, busy := 0)
  {
    EraseChipReliable(m, POLLS_100MS, POLLS_500MS);
  }

  // ---------------------------------------------------------------------
  // swd_flash_init and swd_flash_disable_approtect

  /** swd_flash_init: `memInit` is what swd_mem_init (swd_mem.c, not part
      of this model) returned; on success one READY read proves the NVMC is
      reachable. */
  function FlashInit(m: Mem, memInit: Err): (r: (Mem, Err))
    requires Ready(m)
    ensures Ready(r.0) && SameContents(m.chip, r.0.chip)
    ensures r.1 == Ok <==> memInit == Ok && NextFate(m) != Failed
    ensures memInit != Ok ==> r == (m, memInit)
    ensures memInit == Ok ==> r.1 == Ok || r.1 == Fail
  {
    if memInit != Ok then (m, memInit)
    else
      var (m1, e1, _) := MemRead(m, NVMC_READY);
      (m1, e1)
  }

  /** The second half of swd_flash_disable_approtect: wait, enable writes,
      program HwDisabled into UICR APPROTECT (cleaning up if the write
      fails), wait, and clean up. The outcome of that last wait is dropped:
      the driver overwrites it with the result of the reconnect. */
  function ProgramApprotect(m: Mem): (r: (Mem, Err))
    requires Ready(m)
    ensures Ready(r.0) && r.0.chip.flash == m.chip.flash
    ensures r.0.chip.uicr == m.chip.uicr || r.0.chip.uicr == And(m.chip.uicr, HW_DISABLED)
    ensures r.1 == Ok || r.1 == Fail || r.1 == Timeout
  {
    var (m1, e1) := Enable(m, WEN, POLLS_500MS);
    if e1 != Ok then (m1, e1)
    else
      var (m2, e2) := MemWrite(m1, UICR_APPROTECT, HW_DISABLED);
      if e2 != Ok then Restore(m2, e2)
      else
        var (m3, e3) := WaitReady(m2, POLLS_500MS);
        Restore(m3, Ok)
  }

  /** Over a reliable link with a controller that turns ready within
      500 ms, HwDisabled is programmed NOR-fashion into APPROTECT. */
  lemma ProgramApprotectReliable(m: Mem)
    requires Ready(m) && m.fates == [] && m.chip.busy < POLLS_500MS
    ensures var r := ProgramApprotect(m);
      && r.1 == Ok
      && r.0.chip == m.chip.(uicr := And(m.chip.uicr, HW_DISABLED), config := REN, busy := 0)
      && r.0.fates == []
  {
    EnableReliable(m, WEN, POLLS_500MS);
    var (m1, e1) := Enable(m, WEN, POLLS_500MS);
    var (m2, e2) := MemWrite(m1, UICR_APPROTECT, HW_DISABLED);
    WaitReliable(m2, POLLS_500MS);
    var (m3, e3) := WaitReady(m2, POLLS_500MS);
    RestoreReliable(m3, Ok);
  }

  /** A failed READY poll after the UICR write goes unreported. */
  lemma ProgramApprotectIgnoresWait(m: Mem)
    requires Ready(m) && m.fates == [Done, Done, Done, Done, Failed] && m.chip.busy == 0
    ensures var r := ProgramApprotect(m);
      r.1 == Ok && |r.0.trace| > |m.trace| + 4 && r.0.trace[|m.trace| + 4] == Read(NVMC_READY, 0, false)
  {
    var (m0, e0, ready) := MemRead(m, NVMC_READY);
    LowMasks(ready);
  }

  /** swd_flash_disable_approtect. `reconnect` and `memInit` are what
      swd_connect and swd_mem_init return after the target reset; the reset
      itself leaves flash and UICR as they are and is not modelled. */
  function DisableApprotect(m: Mem, reconnect: Err, memInit: Err): (r: (Mem, Err))
    requires Ready(m)
    ensures Ready(r.0)
    ensures r.1 == Ok || r.1 == Fail || r.1 == Timeout || r.1 == reconnect || r.1 == memInit
    ensures r.1 == Ok ==> r.0.chip.uicr == HW_DISABLED
    ensures r.0.chip.flash == m.chip.flash || r.0.chip.flash == Blank()
  {
    var (m1, e1, current) := MemRead(m, UICR_APPROTECT);
    if e1 != Ok then (m1, e1)
    else if current == HW_DISABLED then (m1, Ok)
    else Unprotect(m1, reconnect, memInit)
  }

  /** The protected branch: mass erase, program HwDisabled, then check. */
  function Unprotect(m: Mem, reconnect: Err, memInit: Err): (r: (Mem, Err))
    requires Ready(m)
    ensures Ready(r.0)
    ensures r.1 == Ok || r.1 == Fail || r.1 == Timeout || r.1 == reconnect || r.1 == memInit
    ensures r.1 == Ok ==> r.0.chip.uicr == HW_DISABLED
    ensures r.0.chip.flash == m.chip.flash || r.0.chip.flash == Blank()
  {
    var (m2, e2) := EraseChip(m, POLLS_1000MS, POLLS_1000MS);
    if e2 != Ok then (m2, e2)
    else
      var (m3, e3) := ProgramApprotect(m2);
      if e3 != Ok then (m3, e3)
      else Recheck(m3, reconnect, memInit)
  }

  /** After programming: the reconnect, the re-initialisation of the
      memory layer, and the read-back of UICR.APPROTECT, in that order. */
  function Recheck(m: Mem, reconnect: Err, memInit: Err): (r: (Mem, Err))
    requires Ready(m)
    ensures Ready(r.0) && r.0.chip.flash == m.chip.flash && r.0.chip.uicr == m.chip.uicr
    ensures r.0.chip.config == m.chip.config
    ensures r.1 == Ok || r.1 == Fail || r.1 == reconnect || r.1 == memInit
    ensures r.1 == Ok ==> m.chip.uicr == HW_DISABLED
    ensures reconnect != Ok ==> r == (m, reconnect)
  {
    if reconnect != Ok then (m, reconnect)
    else
      var (m4, e4) := FlashInit(m, memInit);
      if e4 != Ok then (m4, e4)
      else
        var (m5, e5, v) := MemRead(m4, UICR_APPROTECT);
        if e5 == Ok && v == HW_DISABLED then (m5, Ok) else (m5, Fail)
  }

  /** Over a reliable link with an idle controller the check reports the
      reconnect first, then the re-initialisation, and leaves the chip as
      it found it. */
  lemma RecheckReliable(m: Mem, reconnect: Err, memInit: Err)
    requires Ready(m) && m.fates == [] && m.chip.busy == 0 && m.chip.uicr == HW_DISABLED
    ensures var r := Recheck(m, reconnect, memInit);
      && r.0.chip == m.chip
      && r.1 == (if reconnect != Ok then reconnect else if memInit != Ok then memInit else Ok)
  {
  }

  /** A chip already in HwDisabled is left alone: one read, no erase. */
  lemma DisableApprotectAlreadyOff(m: Mem, reconnect: Err, memInit: Err)
    requires Ready(m) && NextFate(m) != Failed && m.chip.uicr == HW_DISABLED
    ensures var r := DisableApprotect(m, reconnect, memInit);
      r.1 == Ok && r.0.chip == m.chip && |r.0.trace| == |m.trace| + 1
  {
  }

  /** Over a reliable link with a controller that turns ready within a
      second, a protected chip is mass-erased and HwDisabled programmed;
      the result then reports the reconnect, then the re-initialisation,
      and only then the read-back. */
  lemma DisableApprotectReliable(m: Mem, reconnect: Err, memInit: Err)
    requires Ready(m) && m.fates == [] && m.chip.busy < POLLS_1000MS && m.chip.uicr != HW_DISABLED
    ensures var r := DisableApprotect(m, reconnect, memInit);
      && r.0.chip == m.chip.(flash := Blank(), uicr := HW_DISABLED, config := REN, busy := 0)
      && r.1 == (if reconnect != Ok then reconnect else if memInit != Ok then memInit else Ok)
  {
    var (m1, e1, current) := MemRead(m, UICR_APPROTECT);
    EraseChipReliable(m1, POLLS_1000MS, POLLS_1000MS);
    var (m2, e2) := EraseChip(m1, POLLS_1000MS, POLLS_1000MS);
    ProgramApprotectReliable(m2);
    ProgramErased(HW_DISABLED);
    var (m3, e3) := ProgramApprotect(m2);
    RecheckReliable(m3, reconnect, memInit);
  }

  // ---------------------------------------------------------------------
  // swd_flash_update_firmware

  /** A firmware update request (`firmware_update_t`); its progress
      callback is the progress sequence the operations return. */
  datatype Update = Update(start: u32, data: Option<seq<u8>>, size: u32, verify: bool)

  /** Word `k / 4` of flash lies in page `k / PAGE_SIZE`, and page `p`
      starts at word `p * PAGE_WORDS`. */
  lemma PageOfByte(k: nat, p: nat)
    ensures (k / 4) / PAGE_WORDS == k / PAGE_SIZE
    ensures (p * PAGE_SIZE) / 4 == p * PAGE_WORDS && (p * PAGE_SIZE) / PAGE_SIZE == p
    ensures (p * PAGE_SIZE) % PAGE_SIZE == 0
  {
    var w := k / 4;
    DivUnique(k, PAGE_SIZE, w / PAGE_WORDS, k % 4 + 4 * (w % PAGE_WORDS));
    DivUnique(p * PAGE_SIZE, 4, p * PAGE_WORDS, 0);
    DivUnique(p * PAGE_SIZE, PAGE_SIZE, p, 0);
  }

  /** One page erase of the update loop, seen through its effect on the
      page's words only. */
  method EraseOne(m: Mem, page: nat) returns (m': Mem, err: Err)
    requires Ready(m) && page < 0x10_0000
    ensures Ready(m') && m'.chip.uicr == m.chip.uicr
    ensures err == Ok || err == Fail || err == Timeout || err == InvalidArg
    ensures err == InvalidArg <==> page >= FLASH_SIZE / PAGE_SIZE
    ensures forall i :: 0 <= i < WORDS && i / PAGE_WORDS != page ==> m'.chip.flash[i] == m.chip.flash[i]
    ensures err == Ok ==> m'.chip.flash[page * PAGE_WORDS] == ERASED
    ensures m.trace <= m'.trace && OnlyErases(m'.trace, |m.trace|)
    ensures page < FLASH_SIZE / PAGE_SIZE ==> |m'.trace| > |m.trace|
  {
    var addr: u32 := page * PAGE_SIZE;
    PageOfByte(0, page);
    assert PageBase(addr) / 4 == page * PAGE_WORDS;
    var r := ErasePage(m, addr);
    m', err := r.0, r.1;
  }

  /** A change confined to the words of page `page` leaves the first word
      of every other page alone. */
  lemma OtherPages(c0: Chip, c1: Chip, page: nat)
    requires Valid(c0) && Valid(c1)
    requires forall i :: 0 <= i < WORDS && i / PAGE_WORDS != page ==> c1.flash[i] == c0.flash[i]
    ensures forall q :: 0 <= q < FLASH_SIZE / PAGE_SIZE && q != page ==>
      c1.flash[q * PAGE_WORDS] == c0.flash[q * PAGE_WORDS]
  {
    forall q | 0 <= q < FLASH_SIZE / PAGE_SIZE && q != page
      ensures c1.flash[q * PAGE_WORDS] == c0.flash[q * PAGE_WORDS]
    {
      DivUnique(q * PAGE_WORDS, PAGE_WORDS, q, 0);
    }
  }

  /** Flash words outside pages `first .. page - 1` are as in `c0`. */
  predicate KeptOutside(c0: Chip, c: Chip, first: nat, page: nat)
    requires Valid(c0) && Valid(c)
  {
    forall i :: 0 <= i < WORDS && (i / PAGE_WORDS < first || i / PAGE_WORDS >= page) ==> c.flash[i] == c0.flash[i]
  }

  /** Pages `first .. page - 1` exist and start with an erased word. */
  predicate ErasedFrom(c: Chip, first: nat, page: nat)
    requires Valid(c)
  {
    forall p :: first <= p < page ==> p < FLASH_SIZE / PAGE_SIZE && c.flash[p * PAGE_WORDS] == ERASED
  }

  /** Erasing page `page` extends the frame of the loop by one page ... */
  lemma KeptOneMore(c0: Chip, c: Chip, c1: Chip, first: nat, page: nat, last: nat)
    requires Valid(c0) && Valid(c) && Valid(c1) && first <= page <= last
    requires KeptOutside(c0, c, first, page)
    requires forall i :: 0 <= i < WORDS && i / PAGE_WORDS != page ==> c1.flash[i] == c.flash[i]
    ensures KeptOutside(c0, c1, first, page + 1) && KeptOutside(c0, c1, first, last + 1)
  {
  }

  /** ... and, when it succeeds, the run of erased pages. */
  lemma ErasedOneMore(c: Chip, c1: Chip, first: nat, page: nat)
    requires Valid(c) && Valid(c1) && first <= page < FLASH_SIZE / PAGE_SIZE
    requires ErasedFrom(c, first, page)
    requires forall i :: 0 <= i < WORDS && i / PAGE_WORDS != page ==> c1.flash[i] == c.flash[i]
    requires c1.flash[page * PAGE_WORDS] == ERASED
    ensures ErasedFrom(c1, first, page + 1)
  {
    OtherPages(c, c1, page);
  }

  /** Cancelling a positive factor keeps a strict order. */
  lemma FactorLess(a: nat, b: nat, c: nat)
    requires a * c < b * c
    ensures a < b
  {
    if a >= b {
      MulGrows(c, b, a);
    }
  }

  /** The percentage the erase loop reports after `done` of `count`
      pages, rounded down. */
  function Share(done: nat, count: nat): (r: nat)
    requires done < count
    ensures r < 100 && r * count <= done * 100 < (r + 1) * count
  {
    var r := done * 100 / count;
    assert r * count <= done * 100 < (r + 1) * count by {
      assert done * 100 == count * r + done * 100 % count;
      assert (r + 1) * count == r * count + count;
    }
    assert done * 100 < 100 * count;
    FactorLess(r, 100, count);
    r
  }

  /** The erase loop of swd_flash_update_firmware: pages `first` to
      `last` in ascending order, each followed by a report of the share of
      the `count` pages that is done; the loop stops at the first
      failure. */
  method ErasePages(m: Mem, first: nat, last: nat, count: nat) returns (m': Mem, err: Err, progress: seq<Progress>)
    requires Ready(m) && last < 0x10_0000
    requires first <= last ==> last < first + count
    ensures Ready(m') && m'.chip.uicr == m.chip.uicr
    ensures err == Ok || err == Fail || err == Timeout || err == InvalidArg
    ensures err == InvalidArg ==> last >= FLASH_SIZE / PAGE_SIZE
    ensures KeptOutside(m.chip, m'.chip, first, last + 1)
    ensures err == Ok ==> ErasedFrom(m'.chip, first, last + 1)
    ensures forall i :: 0 <= i < |progress| ==> i < count && progress[i] == Progress(Share(i, count), 100, Erasing)
    ensures m.trace <= m'.trace && OnlyErases(m'.trace, |m.trace|)
    ensures first <= last && first < FLASH_SIZE / PAGE_SIZE ==> |m'.trace| > |m.trace|
  {
    m', err, progress := m, Ok, [];
    var page := first;
    while page <= last
      invariant page == first || first < page <= last + 1
      invariant Ready(m') && m'.chip.uicr == m.chip.uicr && err == Ok
      invariant m.trace <= m'.trace && OnlyErases(m'.trace, |m.trace|)
      invariant page > first ==> |m'.trace| > |m.trace|
      invariant |progress| == page - first
      invariant KeptOutside(m.chip, m'.chip, first, page) && ErasedFrom(m'.chip, first, page)
      invariant forall i :: 0 <= i < |progress| ==> i < count && progress[i] == Progress(Share(i, count), 100, Erasing)
      decreases last + 1 - page
    {
      var e, before := Ok, m';
      m', e := EraseOne(m', page);
      KeptOneMore(m.chip, before.chip, m'.chip, first, page, last);
      OnlyErasesTrans(before.trace, m'.trace, |m.trace|);
      if e != Ok {
        return m', e, progress;
      }
      ErasedOneMore(before.chip, m'.chip, first, page);
      progress := progress + [Progress(Share(page - first, count), 100, Erasing)];
      page := page + 1;
    }
  }

  /** The first and the last page an update of `size` bytes at `start`
      touches, with the end address computed in 32 bits as the driver
      does. */
  function FirstPage(start: u32): nat
  {
    start / PAGE_SIZE
  }

  function LastPage(start: u32, size: u32): nat
    requires size > 0
  {
    ((start + size - 1) % WORD_LIMIT) / PAGE_SIZE
  }

  /** swd_flash_update_firmware. `verified` is what swd_flash_verify
      (swd_flash_verify.c, not part of this model) returns when asked.
      The ghost results name the steps: `erased` is the result of the erase
      loop and `mid` the memory it left, `written` the result of the
      write. An erase failure returns at once, having written nothing but
      the erase controls; otherwise every page starts with an erased word
      before the write begins, and the verify result is returned only
      when verification was asked for, the write succeeded and the verify
      failed. */
  method UpdateFirmware(m: Mem, update: Option<Update>, verified: Err)
    returns (m': Mem, err: Err, progress: seq<Progress>, ghost erased: Err, ghost mid: Mem, ghost written: Err)
    requires Ready(m)
    requires update.Some? && update.value.data.Some? ==> |update.value.data.value| == update.value.size
    ensures Ready(m') && Ready(mid)
    ensures err == Ok || err == Fail || err == Timeout || err == InvalidArg || err == InvalidSize || err == verified
    ensures update.None? || update.value.data.None? || update.value.size == 0 ==>
      err == InvalidArg && m' == m && progress == []
    ensures update.Some? && update.value.data.Some? && update.value.size > 0 ==>
      var u := update.value;
      && m.trace <= mid.trace && OnlyErases(mid.trace, |m.trace|)
      && (erased != Ok ==> err == erased && m' == mid)
      && (erased == Ok ==>
            && ErasedFrom(mid.chip, FirstPage(u.start), LastPage(u.start, u.size) + 1)
            && mid.trace <= m'.trace
            && err == if written == Ok && u.verify && verified != Ok then verified else written)
    ensures err == Ok ==>
      && update.Some? && update.value.data.Some?
      && !Oversized(update.value.start, update.value.size)
      && (update.value.verify ==> verified == Ok)
      && |progress| > 0 && Last(progress) == Progress(update.value.size, update.value.size, Complete)
    ensures err == Ok ==>
      var u := update.value;
      u.start + u.size <= FLASH_SIZE || WORD_LIMIT <= u.start + u.size
    ensures err == Ok && update.value.start + update.value.size <= FLASH_SIZE ==>
      var u := update.value;
      forall k :: u.start <= k < u.start + u.size ==> FlashByte(m'.chip, k) == u.data.value[k - u.start]
    ensures err == Ok && update.value.start + update.value.size <= FLASH_SIZE ==>
      var u := update.value;
      forall k :: 0 <= k < FLASH_SIZE && (k / PAGE_SIZE < u.start / PAGE_SIZE || k / PAGE_SIZE > (u.start + u.size - 1) / PAGE_SIZE)
        ==> FlashByte(m'.chip, k) == FlashByte(m.chip, k)
  {
    mid, erased, written := m, Ok, Ok;
    if update.None? || update.value.data.None? || update.value.size == 0 {
      return m, InvalidArg, [], erased, mid, written;
    }
    var u := update.value;
    var w;
    m', w, progress, erased, mid := EraseAndWrite(m, u.start, u.data.value, u.size);
    err, written := w, w;
    if w == Ok && u.verify && verified != Ok {
      err := verified;
    }
  }

  /** The erase loop and the write of swd_flash_update_firmware, once the
      arguments have passed its check: erase the pages from the first to
      the last in ascending order, stopping at the first failure, then
      write the data. */
  method EraseAndWrite(m: Mem, start: u32, d: seq<u8>, size: u32)
    returns (m': Mem, err: Err, progress: seq<Progress>, ghost erased: Err, ghost mid: Mem)
    requires Ready(m) && |d| == size > 0
    ensures Ready(m') && Ready(mid)
    ensures err == Ok || err == Fail || err == Timeout || err == InvalidArg || err == InvalidSize
    ensures m.trace <= mid.trace && OnlyErases(mid.trace, |m.trace|)
    ensures erased != Ok ==> err == erased && m' == mid
    ensures erased == Ok ==>
      ErasedFrom(mid.chip, FirstPage(start), LastPage(start, size) + 1) && mid.trace <= m'.trace
    ensures err == Ok ==>
      && !Oversized(start, size)
      && |progress| > 0 && Last(progress) == Progress(size, size, Complete)
      && (start + size <= FLASH_SIZE || WORD_LIMIT <= start + size)
    ensures err == Ok && start + size <= FLASH_SIZE ==>
      forall k :: start <= k < start + size ==> FlashByte(m'.chip, k) == d[k - start]
    ensures err == Ok && start + size <= FLASH_SIZE ==>
      forall k :: 0 <= k < FLASH_SIZE && (k / PAGE_SIZE < start / PAGE_SIZE || k / PAGE_SIZE > (start + size - 1) / PAGE_SIZE)
        ==> FlashByte(m'.chip, k) == FlashByte(m.chip, k)
  {
    var startPage := FirstPage(start);
    var endPage := LastPage(start, size);
    var count := (endPage - startPage + 1) % WORD_LIMIT;
    var m1, e1, erasing := ErasePages(m, startPage, endPage, count);
    mid, erased := m1, e1;
    if e1 != Ok {
      return m1, e1, erasing, erased, mid;
    }
    var m2, e2, writing := WriteBuffer(m1, start, Some(d), size);
    progress := erasing + writing;
    m', err := m2, e2;
    if e2 == Ok && start + size <= FLASH_SIZE {
      UpdateKeepsOtherPages(m.chip, m1.chip, m2.chip, start, d, startPage, endPage);
    }
  }

  /** Outside the erased pages an update leaves flash as it was: the image
      of the write differs from the erased chip only inside the data span
      and the padding of its last word, and both lie within those pages. */
  lemma UpdateKeepsOtherPages(c: Chip, c1: Chip, c2: Chip, a: nat, d: seq<u8>, first: nat, last: nat)
    requires Valid(c) && Valid(c1) && Valid(c2) && |d| > 0 && a + |d| <= FLASH_SIZE
    requires first == a / PAGE_SIZE && last == (a + |d| - 1) / PAGE_SIZE
    requires forall i :: 0 <= i < WORDS && (i / PAGE_WORDS < first || i / PAGE_WORDS > last) ==> c1.flash[i] == c.flash[i]
    requires forall k :: 0 <= k < FLASH_SIZE ==> FlashByte(c2, k) == Image(c1, a, d, k)
    ensures forall k :: 0 <= k < FLASH_SIZE && (k / PAGE_SIZE < first || k / PAGE_SIZE > last) ==>
      FlashByte(c2, k) == FlashByte(c, k)
  {
    forall k | 0 <= k < FLASH_SIZE && (k / PAGE_SIZE < first || k / PAGE_SIZE > last)
      ensures FlashByte(c2, k) == FlashByte(c, k)
    {
      PageOfByte(k, 0);
    }
  }
}

=== FILE: swd_link.dfy ===
/**
 * The bit-level Serial Wire Debug link of swd_core.c: clock pulses on
 * SWCLK, the level and direction of SWDIO, turnaround, LSB-first shifting,
 * the parking bit, and the three line sequences (line reset, JTAG-to-SWD,
 * dormant wake-up) of chapters B4 and B5 of ADIv5.2.
 *
 * GPIO registers and the delay loops are not modelled. Instead every clock
 * pulse appends one `Cycle` to the link's wire trace, tagged with who drove
 * SWDIO during it. The target is a stream of levels it puts on the released
 * line, consumed one per sampled pulse; once the stream is exhausted the
 * pull-up the driver enables on SWDIO makes every sample read high.
 */
module SwdLink {
  import opened Bits

  /** One SWCLK pulse as seen on SWDIO. */
  datatype Cycle =
    | Drive(bit: bool)   // the host drives SWDIO to `bit`
    | Turn               // SWDIO released and not sampled
    | Sample(bit: bool)  // SWDIO released; the host sampled `bit` before the pulse

  datatype Link = Link(
    driving: bool,      // drive_phase: which direction the last turnaround chose
    oe: bool,           // SWDIO output enable
    level: bool,        // SWDIO output latch
    wire: seq<Cycle>,   // every clock pulse so far, oldest first
    target: seq<bool>,  // levels the target will present on sampled pulses
    locked: bool)       // inside the driver's critical section

  /** The direction flag never claims a drive the pin is not doing. */
  predicate Coherent(l: Link)
  {
    l.driving ==> l.oe
  }

  /** The state every public operation of an initialised link starts and
      ends in: host driving, output enabled, no critical section held. */
  predicate Idle(l: Link)
  {
    l.driving && l.oe && !l.locked
  }

  /** The pulses of a host driving `bits`, one per pulse. */
  function Drives(bits: seq<bool>): (r: seq<Cycle>)
    ensures |r| == |bits|
  {
    if |bits| == 0 then [] else [Drive(bits[0])] + Drives(bits[1..])
  }

  /** The pulses of a host sampling `bits`, one per pulse. */
  function Samples(bits: seq<bool>): (r: seq<Cycle>)
    ensures |r| == |bits|
  {
    if |bits| == 0 then [] else [Sample(bits[0])] + Samples(bits[1..])
  }

  function Ones(n: nat): (r: seq<bool>)
    ensures |r| == n
  {
    if n == 0 then [] else [true] + Ones(n - 1)
  }

  function Zeros(n: nat): (r: seq<bool>)
    ensures |r| == n
  {
    if n == 0 then [] else [false] + Zeros(n - 1)
  }

  /** The `n` levels the host samples from target stream `t`: the stream's
      next levels, then high once it is exhausted (the pull-up). */
  function Incoming(t: seq<bool>, n: nat): (r: seq<bool>)
    ensures |r| == n
  {
    if n <= |t| then t[..n] else t + Ones(n - |t|)
  }

  /** What is left of target stream `t` after `n` samples. */
  function Rest(t: seq<bool>, n: nat): (r: seq<bool>)
    ensures |r| == if n <= |t| then |t| - n else 0
    ensures |r| <= |t| && (0 < n && 0 < |t| ==> |r| < |t|)
  {
    if n <= |t| then t[n..] else []
  }

  /** clock_pulse: one SWCLK pulse with SWDIO as the pin currently has it. */
  function Pulse(l: Link): (r: Link)
    ensures r == l.(wire := l.wire + [if l.oe then Drive(l.level) else Turn])
  {
    l.(wire := l.wire + [if l.oe then Drive(l.level) else Turn])
  }

  /** swd_turnaround: drive SWDIO high, release it, clock once, and take the
      line back when switching to write. */
  function Turnaround(l: Link, toWrite: bool): (r: Link)
    ensures r.wire == l.wire + [Turn]
    ensures r.driving == toWrite && r.oe == toWrite && r.level
    ensures r.target == l.target && r.locked == l.locked
  {
    var released := l.(level := true, oe := false);
    Pulse(released).(oe := toWrite, driving := toWrite)
  }

  /** The loop of write_bits: set SWDIO to `v & 1`, clock, shift right. */
  function ShiftOut(l: Link, v: nat, n: nat): (r: Link)
    requires l.oe
    ensures r.wire == l.wire + Drives(BitsLsb(v, n))
    ensures r.driving == l.driving && r.oe && r.target == l.target
    ensures r.locked == l.locked
    decreases n
  {
    if n == 0 then l
    else
      var bits := BitsLsb(v, n);
      assert bits[1..] == BitsLsb(v / 2, n - 1);
      var l1 := Pulse(l.(level := v % 2 == 1));
      var r := ShiftOut(l1, v / 2, n - 1);
      assert r.wire == l.wire + ([Drive(v % 2 == 1)] + Drives(BitsLsb(v / 2, n - 1)));
      r
  }

  /** write_bits: turn the line around if the target had it, then shift out
      the `n` low bits of `v`, least significant first. */
  function WriteBits(l: Link, v: nat, n: nat): (r: Link)
    requires Coherent(l)
    ensures r.wire == l.wire + (if l.driving then [] else [Turn]) + Drives(BitsLsb(v, n))
    ensures r.driving && r.oe && r.target == l.target
    ensures r.locked == l.locked
  {
    var l1 := if !l.driving then Turnaround(l, true) else l;
    ShiftOut(l1, v, n)
  }

  /** The loop of read_bits: sample SWDIO, or in `bit` when high, clock,
      double `bit`. */
  function ShiftIn(l: Link, n: nat): (r: (Link, nat))
    requires !l.oe
    ensures r.1 == ValueLsb(Incoming(l.target, n))
    ensures r.0.wire == l.wire + Samples(Incoming(l.target, n))
    ensures r.0.target == Rest(l.target, n)
    ensures r.0 == l.(wire := r.0.wire, target := r.0.target)
    decreases n
  {
    if n == 0 then
      assert Incoming(l.target, n) == [];
      (l, 0)
    else
      var b := if |l.target| > 0 then l.target[0] else true;
      var t' := if |l.target| > 0 then l.target[1..] else [];
      var l1 := l.(wire := l.wire + [Sample(b)], target := t');
      var (l2, rest) := ShiftIn(l1, n - 1);
      IncomingStep(l.target, n);
      SamplesStep(l.wire, b, Incoming(t', n - 1), l2.wire);
      RestStep(l.target, n);
      (l2, BitValue(b) + 2 * rest)
  }

  lemma IncomingStep(t: seq<bool>, n: nat)
    requires n > 0
    ensures Incoming(t, n) == [if |t| > 0 then t[0] else true]
                              + Incoming(if |t| > 0 then t[1..] else [], n - 1)
  {
  }

  lemma SamplesStep(w: seq<Cycle>, b: bool, s: seq<bool>, x: seq<Cycle>)
    requires x == w + [Sample(b)] + Samples(s)
    ensures x == w + Samples([b] + s)
  {
    assert ([b] + s)[1..] == s;
  }

  lemma RestStep(t: seq<bool>, n: nat)
    requires n > 0
    ensures Rest(if |t| > 0 then t[1..] else [], n - 1) == Rest(t, n)
  {
  }

  /** read_bits: turn the line around if the host had it, then sample `n`
      levels into a number, least significant first. */
  function ReadBits(l: Link, n: nat): (r: (Link, nat))
    requires Coherent(l) && (l.oe ==> l.driving)
    ensures r.1 == ValueLsb(Incoming(l.target, n)) && r.1 < Pow2(n)
    ensures r.0.wire == l.wire + (if l.driving then [Turn] else []) + Samples(Incoming(l.target, n))
    ensures r.0.target == Rest(l.target, n)
    ensures !r.0.driving && !r.0.oe && r.0.locked == l.locked
  {
    var l1 := if l.driving then Turnaround(l, false) else l;
    ShiftIn(l1, n)
  }

  /** write_parking: one low bit driven by the host. */
  function WriteParking(l: Link): (r: Link)
    requires Coherent(l)
    ensures r.wire == l.wire + (if l.driving then [] else [Turn]) + [Drive(false)]
    ensures r.driving && r.oe && !r.level && r.target == l.target
    ensures r.locked == l.locked
  {
    var l1 := if !l.driving then Turnaround(l, true) else l;
    Pulse(l1.(level := false))
  }

  /** Drive each of `bits` for one pulse: the shape of the loops in
      jtag_to_swd and dormant_wakeup that test one bit of a constant per
      pulse. */
  function DriveBits(l: Link, bits: seq<bool>): (r: Link)
    requires l.oe
    ensures r == l.(wire := l.wire + Drives(bits), level := r.level)
    ensures |bits| > 0 ==> r.level == bits[|bits| - 1]
    ensures |bits| == 0 ==> r.level == l.level
    decreases |bits|
  {
    if |bits| == 0 then l
    else
      var r := DriveBits(Pulse(l.(level := bits[0])), bits[1..]);
      assert r.wire == l.wire + ([Drive(bits[0])] + Drives(bits[1..]));
      r
  }

  const RESET_HIGH_CLOCKS: nat := 60

  /** The host-driven levels of a line reset with `n` high clocks. */
  function ResetBits(n: nat): seq<bool>
  {
    Ones(n) + [false]
  }

  function LineResetBits(): seq<bool>
  {
    ResetBits(RESET_HIGH_CLOCKS)
  }

  /** A line reset with `n` high clocks: take SWDIO, hold it high, then one
      low clock. */
  function LineResetOf(l: Link, n: nat): (r: Link)
    ensures r == l.(wire := l.wire + Drives(ResetBits(n)), oe := true, level := false)
  {
    var high := DriveBits(l.(oe := true, level := true), Ones(n));
    DrivesAppend(Ones(n), [false]);
    Pulse(high.(level := false))
  }

  /** line_reset: 60 high clocks and one low clock (at least 50 high clocks
      are required by section B4.3.3 of ADIv5.2). */
  function LineReset(l: Link): (r: Link)
    ensures r == l.(wire := l.wire + Drives(LineResetBits()), oe := true, level := false)
  {
    LineResetOf(l, RESET_HIGH_CLOCKS)
  }

  lemma {:induction false} BitsLsbAt(v: nat, n: nat, i: nat)
    requires i < n
    ensures BitsLsb(v, n)[i] == BitAt(v, i)
    decreases i
  {
    if i > 0 {
      BitsLsbAt(v / 2, n - 1, i - 1);
    }
  }

  /** The levels of a loop that tests bit `i` of `v` for `i` = 0 .. n-1. */
  function TestedUp(v: nat, n: nat): (r: seq<bool>)
    ensures r == BitsLsb(v, n)
  {
    var r := seq(n, i requires 0 <= i < n => BitAt(v, i));
    forall i | 0 <= i < n
      ensures r[i] == BitsLsb(v, n)[i]
    {
      BitsLsbAt(v, n, i);
    }
    r
  }

  /** The levels of a loop that tests bit `b` of `v` for `b` = n-1 down to 0. */
  function TestedDown(v: nat, n: nat): (r: seq<bool>)
    ensures r == BitsMsb(v, n)
  {
    var r := seq(n, j requires 0 <= j < n => BitAt(v, n - 1 - j));
    forall j | 0 <= j < n
      ensures r[j] == BitsMsb(v, n)[j]
    {
      BitsLsbAt(v, n, n - 1 - j);
    }
    r
  }

  const JTAG_TO_SWD: nat := 0xE79E

  /** A select sequence: the `n` low bits of `code`, tested one by one from
      bit 0 up, then a line reset. */
  function SelectOf(l: Link, code: nat, n: nat): (r: Link)
    ensures r == l.(wire := l.wire + Drives(BitsLsb(code, n)) + Drives(LineResetBits()),
                    oe := true, level := false)
  {
    LineReset(DriveBits(l.(oe := true), TestedUp(code, n)))
  }

  /** jtag_to_swd: the 16-bit select sequence 0xE79E least significant bit
      first, then a line reset (section B5.2.1 of ADIv5.2). */
  function JtagToSwd(l: Link): (r: Link)
    ensures r == l.(wire := l.wire + Drives(BitsLsb(JTAG_TO_SWD, 16)) + Drives(LineResetBits()),
                    oe := true, level := false)
  {
    SelectOf(l, JTAG_TO_SWD, 16)
  }

  /** The 128-bit selection alert, as four words each sent most significant
      bit first (section B5.3.4 of ADIv5.2). */
  const ALERT: seq<u32> := [0x49CF9046, 0xA9B4A161, 0x97F5BBC7, 0x45703D98]
  const ACTIVATION_SWD: nat := 0x58

  /** Words sent one after another, each most significant bit first. */
  function WordsMsb(ws: seq<u32>): (r: seq<bool>)
    ensures |r| == 32 * |ws|
  {
    if |ws| == 0 then [] else BitsMsb(ws[0], 32) + WordsMsb(ws[1..])
  }

  /** The host-driven levels of a dormant wake-up before its line reset:
      8 high, the alert words, 4 low, the activation code. */
  function WakeBits(alert: seq<u32>, code: nat): seq<bool>
  {
    Ones(8) + WordsMsb(alert) + Zeros(4) + BitsMsb(code, 8)
  }

  /** Drive `bits` and then `more`: the pulses of the two, in order. */
  function DriveThen(l: Link, bits: seq<bool>, more: seq<bool>): (r: Link)
    requires l.oe
    ensures r == l.(wire := l.wire + Drives(bits + more), level := r.level)
  {
    DrivesAppend(bits, more);
    DriveBits(DriveBits(l, bits), more)
  }

  /** The loop of dormant_wakeup over the alert words: for each word, test
      bit 31 down to bit 0. */
  function SendWords(l: Link, ws: seq<u32>): (r: Link)
    requires l.oe
    ensures r == l.(wire := l.wire + Drives(WordsMsb(ws)), level := r.level)
    decreases |ws|
  {
    if |ws| == 0 then l
    else
      var first := TestedDown(ws[0], 32);
      var l1 := DriveBits(l, first);
      var r := SendWords(l1, ws[1..]);
      SendWordsStep(l.wire, first, WordsMsb(ws[1..]), r.wire);
      r
  }

  /** The sequence of dormant_wakeup before its line reset, for any alert
      and activation code. */
  function Wake(l: Link, alert: seq<u32>, code: nat): (r: Link)
    ensures r == l.(wire := l.wire + Drives(WakeBits(alert, code)), oe := true, level := r.level)
  {
    var l1 := DriveBits(l.(oe := true, level := true), Ones(8));
    var l2 := SendWords(l1, alert);
    var l3 := DriveThen(l2.(level := false), Zeros(4), TestedDown(code, 8));
    WakeStep(l.wire, Ones(8), WordsMsb(alert), Zeros(4) + BitsMsb(code, 8), l3.wire);
    assert WakeBits(alert, code) == Ones(8) + WordsMsb(alert) + (Zeros(4) + BitsMsb(code, 8));
    l3
  }

  lemma WakeStep(w: seq<Cycle>, a: seq<bool>, b: seq<bool>, c: seq<bool>, r: seq<Cycle>)
    requires r == w + Drives(a) + Drives(b) + Drives(c)
    ensures r == w + Drives(a + b + c)
  {
    DrivesAppend(a, b);
    DrivesAppend(a + b, c);
    var da, db, dc := Drives(a), Drives(b), Drives(c);
    assert Drives(a + b + c) == da + db + dc;
    assert w + da + db + dc == w + (da + db + dc);
  }

  /** A dormant wake-up with a given alert and activation code, followed by
      a line reset. */
  function WakeOf(l: Link, alert: seq<u32>, code: nat): (r: Link)
    ensures r == l.(wire := l.wire + Drives(WakeBits(alert, code)) + Drives(LineResetBits()),
                    oe := true, level := false)
  {
    LineReset(Wake(l, alert, code))
  }

  /** dormant_wakeup: 8 high clocks, the selection alert, 4 low clocks, the
      SWD activation code 0x58 most significant bit first, then a line
      reset. */
  function DormantWakeup(l: Link): (r: Link)
    ensures r == l.(wire := l.wire + Drives(WakeBits(ALERT, ACTIVATION_SWD)) + Drives(LineResetBits()),
                    oe := true, level := false)
  {
    WakeOf(l, ALERT, ACTIVATION_SWD)
  }

  lemma SendWordsStep(w: seq<Cycle>, a: seq<bool>, b: seq<bool>, r: seq<Cycle>)
    requires r == w + Drives(a) + Drives(b)
    ensures r == w + Drives(a + b)
  {
    DrivesAppend(a, b);
  }

  lemma {:induction false} DrivesAppend(a: seq<bool>, b: seq<bool>)
    ensures Drives(a + b) == Drives(a) + Drives(b)
    decreases |a|
  {
    if |a| == 0 {
      assert a + b == b;
    } else {
      assert (a + b)[1..] == a[1..] + b;
      DrivesAppend(a[1..], b);
    }
  }
}

=== FILE: swd_transfer.dfy ===
/**
 * One raw SWD register access (swd_core.c send_request and
 * swd_transfer_raw): the 8-bit request packet, the 3-bit acknowledgement,
 * and the data phase with its even parity bit, as laid out in section
 * B4.2 of ADIv5.2.
 */
module SwdTransfer {
  import opened Bits
  import opened SwdLink
  import opened Esp

  const ACK_OK: nat := 1
  const ACK_WAIT: nat := 2
  const ACK_FAULT: nat := 4
  /** What a line nobody drives reads as: three high bits. */
  const ACK_NONE: nat := 7

  /** The request byte send_request builds: start bit (bit 0) and park bit
      (bit 7) set, APnDP in bit 1, RnW in bit 2, `(addr & 0x0C) << 1` in
      bits 3-4, and in bit 5 the xor of APnDP, RnW and address bits 2 and 3. */
  function RequestByte(addr: u8, ap: bool, read: bool): (r: nat)
    ensures r < 0x100 && r % 2 == 1 && r / 0x80 == 1 && (r / 0x40) % 2 == 0
  {
    var a2 := (addr / 4) % 2 == 1;
    var a3 := (addr / 8) % 2 == 1;
    var parity := ((ap != read) != a2) != a3;
    0x81 + 2 * BitValue(ap) + 4 * BitValue(read) + ((addr / 4) % 4) * 8 + 32 * BitValue(parity)
  }

  /** The request packet of section B4.2 of ADIv5.2, in wire order: start 1,
      APnDP, RnW, A[2:3], even parity over those four, stop 0, park 1. */
  function RequestBits(addr: u8, ap: bool, read: bool): seq<bool>
  {
    var a2 := (addr / 4) % 2 == 1;
    var a3 := (addr / 8) % 2 == 1;
    Byte(true, ap, read, a2, a3, ((ap != read) != a2) != a3, false, true)
  }

  /** Eight bits in wire order. */
  function Byte(b0: bool, b1: bool, b2: bool, b3: bool, b4: bool, b5: bool, b6: bool, b7: bool): seq<bool>
  {
    [b0] + ([b1] + ([b2] + ([b3] + ([b4] + ([b5] + ([b6] + [b7]))))))
  }

  /** The fields a target reads out of a request packet. */
  datatype Request = Request(ap: bool, read: bool, a23: nat)

  /** The target's side of the request: check the start, stop and park bits
      and the even parity over APnDP, RnW and A[2:3], then decode the
      fields. */
  function DecodeRequest(bits: seq<bool>): (r: Option<Request>)
    requires |bits| == 8
    ensures r.Some? <==> bits[0] && !bits[6] && bits[7]
                         && (((bits[1] != bits[2]) != bits[3]) != bits[4]) == bits[5]
    ensures r.Some? ==> r.value.a23 < 4
  {
    if bits[0] && !bits[6] && bits[7] && (((bits[1] != bits[2]) != bits[3]) != bits[4]) == bits[5] then
      Some(Request(bits[1], bits[2], BitValue(bits[3]) + 2 * BitValue(bits[4])))
    else None
  }

  lemma ValueCons(x: bool, rest: seq<bool>)
    ensures ValueLsb([x] + rest) == BitValue(x) + 2 * ValueLsb(rest)
  {
    assert ([x] + rest)[1..] == rest;
  }

  lemma ValueByte(b0: bool, b1: bool, b2: bool, b3: bool, b4: bool, b5: bool, b6: bool, b7: bool)
    ensures ValueLsb(Byte(b0, b1, b2, b3, b4, b5, b6, b7))
         == BitValue(b0) + 2 * BitValue(b1) + 4 * BitValue(b2) + 8 * BitValue(b3) + 16 * BitValue(b4)
            + 32 * BitValue(b5) + 64 * BitValue(b6) + 128 * BitValue(b7)
  {
    ValueCons(b7, []);
    assert [b7] + [] == [b7];
    ValueCons(b6, [b7]);
    ValueCons(b5, [b6] + [b7]);
    ValueCons(b4, [b5] + ([b6] + [b7]));
    ValueCons(b3, [b4] + ([b5] + ([b6] + [b7])));
    ValueCons(b2, [b3] + ([b4] + ([b5] + ([b6] + [b7]))));
    ValueCons(b1, [b2] + ([b3] + ([b4] + ([b5] + ([b6] + [b7])))));
    ValueCons(b0, [b1] + ([b2] + ([b3] + ([b4] + ([b5] + ([b6] + [b7]))))));
  }

  lemma ConsAt(x: bool, t: seq<bool>, k: nat)
    requires 0 < k <= |t|
    ensures ([x] + t)[0] == x && ([x] + t)[k] == t[k - 1]
  {
  }

  lemma ByteAt(b0: bool, b1: bool, b2: bool, b3: bool, b4: bool, b5: bool, b6: bool, b7: bool)
    ensures var s := Byte(b0, b1, b2, b3, b4, b5, b6, b7);
      |s| == 8 && s[0] == b0 && s[1] == b1 && s[2] == b2 && s[3] == b3
      && s[4] == b4 && s[5] == b5 && s[6] == b6 && s[7] == b7
  {
    var t7 := [b7];
    var t6 := [b6] + t7;
    var t5 := [b5] + t6;
    var t4 := [b4] + t5;
    var t3 := [b3] + t4;
    var t2 := [b2] + t3;
    var t1 := [b1] + t2;
    ConsAt(b6, t7, 1);
    ConsAt(b5, t6, 2); ConsAt(b5, t6, 1);
    ConsAt(b4, t5, 3); ConsAt(b4, t5, 2); ConsAt(b4, t5, 1);
    ConsAt(b3, t4, 4); ConsAt(b3, t4, 3); ConsAt(b3, t4, 2); ConsAt(b3, t4, 1);
    ConsAt(b2, t3, 5); ConsAt(b2, t3, 4); ConsAt(b2, t3, 3); ConsAt(b2, t3, 2); ConsAt(b2, t3, 1);
    ConsAt(b1, t2, 6); ConsAt(b1, t2, 5); ConsAt(b1, t2, 4); ConsAt(b1, t2, 3); ConsAt(b1, t2, 2);
    ConsAt(b1, t2, 1);
    ConsAt(b0, t1, 7); ConsAt(b0, t1, 6); ConsAt(b0, t1, 5); ConsAt(b0, t1, 4); ConsAt(b0, t1, 3);
    ConsAt(b0, t1, 2); ConsAt(b0, t1, 1);
  }

  /** The number send_request computes is the packet read least significant
      bit first. */
  lemma RequestByteValue(addr: u8, ap: bool, read: bool)
    ensures RequestByte(addr, ap, read) == ValueLsb(RequestBits(addr, ap, read))
  {
    var a2 := (addr / 4) % 2 == 1;
    var a3 := (addr / 8) % 2 == 1;
    var p := ((ap != read) != a2) != a3;
    ValueByte(true, ap, read, a2, a3, p, false, true);
    AddressBits(addr);
  }

  lemma AddressBits(addr: u8)
    ensures (addr / 4) % 4 == BitValue((addr / 4) % 2 == 1) + 2 * BitValue((addr / 8) % 2 == 1)
  {
    var q := addr / 4;
    assert addr / 8 == q / 2;
  }

  /** The byte send_request shifts out, least significant bit first, is the
      request packet: start 1, APnDP, RnW, A[2:3], even parity, stop 0,
      park 1. Address bits 0 and 1 do not reach the wire. */
  lemma RequestFraming(addr: u8, ap: bool, read: bool)
    ensures BitsLsb(RequestByte(addr, ap, read), 8) == RequestBits(addr, ap, read)
    ensures var b := BitsLsb(RequestByte(addr, ap, read), 8);
      b[0] && b[1] == ap && b[2] == read && b[3] == ((addr / 4) % 2 == 1)
      && b[4] == ((addr / 8) % 2 == 1) && !b[6] && b[7]
      && (((b[1] != b[2]) != b[3]) != b[4]) == b[5]
  {
    var bits := RequestBits(addr, ap, read);
    RequestByteValue(addr, ap, read);
    BitsOfValue(bits);
    var a2 := (addr / 4) % 2 == 1;
    var a3 := (addr / 8) % 2 == 1;
    ByteAt(true, ap, read, a2, a3, ((ap != read) != a2) != a3, false, true);
  }

  /** A target decodes every request the driver sends into the fields it
      was built from. */
  lemma RequestRoundTrip(addr: u8, ap: bool, read: bool)
    ensures DecodeRequest(BitsLsb(RequestByte(addr, ap, read), 8))
         == Some(Request(ap, read, (addr / 4) % 4))
  {
    RequestFraming(addr, ap, read);
    AddressBits(addr);
    var b := BitsLsb(RequestByte(addr, ap, read), 8);
    assert DecodeRequest(b) == Some(Request(b[1], b[2], BitValue(b[3]) + 2 * BitValue(b[4])));
  }

  // ---------------------------------------------------------------------
  // Phases of swd_transfer_raw

  /** The pulses up to the acknowledgement: request, turnaround, three
      sampled bits. */
  function Head(addr: u8, ap: bool, read: bool, t: seq<bool>): seq<Cycle>
  {
    Drives(RequestBits(addr, ap, read)) + [Turn] + Samples(Incoming(t, 3))
  }

  /** The pulses after an OK read acknowledgement: 32 data bits and a parity
      bit from the target, a turnaround, the parking bit. */
  function ReadTail(t: seq<bool>): seq<Cycle>
  {
    Samples(Incoming(t, 32)) + Samples(Incoming(Rest(t, 32), 1)) + [Turn, Drive(false)]
  }

  /** The pulses after an OK write acknowledgement: a turnaround, the data
      and its parity bit from the host, the parking bit. */
  function WriteTail(data: u32): seq<Cycle>
  {
    [Turn] + Drives(BitsLsb(data, 32)) + [Drive(Parity32(data)), Drive(false)]
  }

  /** The pulses after any other acknowledgement: a turnaround, 32 low dummy
      bits, the parking bit. */
  function DummyTail(): seq<Cycle>
  {
    [Turn] + Drives(Zeros(32)) + [Drive(false)]
  }

  lemma Cat3(w: seq<Cycle>, a: seq<Cycle>, b: seq<Cycle>, c: seq<Cycle>, x: seq<Cycle>)
    requires x == w + a + b + c
    ensures x == w + (a + b + c)
  {
  }

  lemma Cat4(w: seq<Cycle>, a: seq<Cycle>, b: seq<Cycle>, c: seq<Cycle>, d: seq<Cycle>, x: seq<Cycle>)
    requires x == w + a + b + c + d
    ensures x == w + (a + b + c + d)
  {
  }

  /** Enter the critical section, send the request, turn the line around
      and read the three acknowledgement bits. */
  function RequestPhase(l: Link, addr: u8, ap: bool, read: bool): (r: (Link, nat))
    requires Idle(l)
    ensures r.0.wire == l.wire + Head(addr, ap, read, l.target)
    ensures r.1 == ValueLsb(Incoming(l.target, 3)) && r.1 < 8
    ensures r.0.target == Rest(l.target, 3)
    ensures !r.0.driving && !r.0.oe && r.0.locked
  {
    var l0 := l.(locked := true);
    var l1 := WriteBits(l0, RequestByte(addr, ap, read), 8);
    var l2 := if l1.driving then Turnaround(l1, false) else l1;
    var (l3, ack) := ReadBits(l2, 3);
    Pow2Three();
    RequestFraming(addr, ap, read);
    Cat3(l.wire, Drives(RequestBits(addr, ap, read)), [Turn], Samples(Incoming(l.target, 3)), l3.wire);
    (l3, ack)
  }

  lemma Pow2Three()
    ensures Pow2(3) == 8
  {
  }

  lemma ValueOne(s: seq<bool>)
    requires |s| == 1
    ensures ValueLsb(s) == BitValue(s[0])
  {
    assert s[1..] == [];
  }

  /** Sample `n` data bits and one parity bit, turn around, park. */
  function ReadPhaseOf(l: Link, n: nat): (r: (Link, nat, bool))
    requires !l.driving && !l.oe
    ensures r.0.wire == l.wire + (Samples(Incoming(l.target, n))
                                  + Samples(Incoming(Rest(l.target, n), 1)) + [Turn, Drive(false)])
    ensures r.1 == ValueLsb(Incoming(l.target, n))
    ensures r.2 == Incoming(Rest(l.target, n), 1)[0]
    ensures r.0.target == Rest(Rest(l.target, n), 1)
    ensures r.0.driving && r.0.oe && r.0.locked == l.locked
  {
    var (l1, value) := ReadBits(l, n);
    var (l2, parityBit) := ReadBits(l1, 1);
    var l3 := WriteParking(Turnaround(l2, true));
    ValueOne(Incoming(l1.target, 1));
    Cat3(l.wire, Samples(Incoming(l.target, n)), Samples(Incoming(l1.target, 1)), [Turn, Drive(false)], l3.wire);
    (l3, value, parityBit == 1)
  }

  /** Turn around, shift out the `n` low bits of `data` and then the bit
      `parity`, park. */
  function WritePhaseOf(l: Link, data: nat, n: nat, parity: bool): (r: Link)
    requires !l.driving && !l.oe
    ensures r.wire == l.wire + ([Turn] + Drives(BitsLsb(data, n)) + [Drive(parity), Drive(false)])
    ensures r.driving && r.oe && r.target == l.target
    ensures r.locked == l.locked
  {
    var l1 := Turnaround(l, true);
    var l2 := WriteBits(l1, data, n);
    var l3 := WriteBits(l2, BitValue(parity), 1);
    var l4 := WriteParking(l3);
    ParityBit(parity);
    Cat4(l.wire, [Turn], Drives(BitsLsb(data, n)), [Drive(parity)], [Drive(false)], l4.wire);
    assert [Drive(parity)] + [Drive(false)] == [Drive(parity), Drive(false)];
    l4
  }

  function WritePhase(l: Link, data: u32): (r: Link)
    requires !l.driving && !l.oe
    ensures r.wire == l.wire + WriteTail(data)
    ensures r.driving && r.oe && r.target == l.target
    ensures r.locked == l.locked
  {
    WritePhaseOf(l, data, 32, Parity32(data))
  }

  lemma ParityBit(p: bool)
    ensures Drives(BitsLsb(BitValue(p), 1)) == [Drive(p)]
  {
    assert BitsLsb(BitValue(p), 1) == [p];
  }

  /** Turn around, shift out `n` low bits, park. */
  function DummyPhaseOf(l: Link, n: nat): (r: Link)
    requires !l.driving && !l.oe
    ensures r.wire == l.wire + ([Turn] + Drives(Zeros(n)) + [Drive(false)])
    ensures r.driving && r.oe && r.target == l.target
    ensures r.locked == l.locked
  {
    ZeroBits(n);
    var r := WriteParking(WriteBits(Turnaround(l, true), 0, n));
    Cat3(l.wire, [Turn], Drives(Zeros(n)), [Drive(false)], r.wire);
    r
  }

  function DummyPhase(l: Link): (r: Link)
    requires !l.driving && !l.oe
    ensures r.wire == l.wire + DummyTail()
    ensures r.driving && r.oe && r.target == l.target
    ensures r.locked == l.locked
  {
    DummyPhaseOf(l, 32)
  }

  lemma {:induction false} ZeroBits(n: nat)
    ensures BitsLsb(0, n) == Zeros(n)
    decreases n
  {
    if n > 0 {
      ZeroBits(n - 1);
      assert Zeros(n) == [false] + Zeros(n - 1);
    }
  }

  datatype Transfer = Transfer(link: Link, ack: nat, data: u32)

  /** The pulses of one raw transfer against target stream `t`, as section
      B4.2 of ADIv5.2 draws them. */
  function Frame(addr: u8, ap: bool, read: bool, data: u32, t: seq<bool>): seq<Cycle>
  {
    Head(addr, ap, read, t)
      + if ValueLsb(Incoming(t, 3)) != ACK_OK then DummyTail()
        else if read then ReadTail(Rest(t, 3))
        else WriteTail(data)
  }

  /** The word 32 sampled bits read as. */
  function WordOf(bits: seq<bool>): (r: u32)
    requires |bits| == 32
    ensures r == ValueLsb(bits)
  {
    ValueIsWord(bits);
    ValueLsb(bits)
  }

  /** What one raw transfer reports for target stream `t`: the raw
      acknowledgement, except that an OK read whose parity bit disagrees
      with the data becomes a FAULT; the word read on a good OK read,
      `data` otherwise; and what remains of the stream. */
  predicate Reports(t: seq<bool>, read: bool, data: u32, ack: nat, out: u32, rest: seq<bool>)
  {
    var raw := ValueLsb(Incoming(t, 3));
    var after := Rest(t, 3);
    var value := WordOf(Incoming(after, 32));
    var parity := Incoming(Rest(after, 32), 1)[0];
    if raw == ACK_OK && read then
      rest == Rest(Rest(after, 32), 1)
      && ack == (if parity == Parity32(value) then ACK_OK else ACK_FAULT)
      && out == (if parity == Parity32(value) then value else data)
    else
      rest == after && ack == raw && out == data
  }

  lemma Cat2(w: seq<Cycle>, a: seq<Cycle>, b: seq<Cycle>, x: seq<Cycle>)
    requires x == w + a + b
    ensures x == w + (a + b)
  {
  }

  /** The end of a raw transfer after an OK read acknowledgement: the word,
      its parity bit, and the word checked against the bit. */
  function FinishRead(l1: Link, data: u32): (r: Transfer)
    requires !l1.driving && !l1.oe && l1.locked
    ensures Idle(r.link)
    ensures r.link.wire == l1.wire + ReadTail(l1.target)
    ensures r.link.target == Rest(Rest(l1.target, 32), 1)
    ensures var value := WordOf(Incoming(l1.target, 32));
      var good := Incoming(Rest(l1.target, 32), 1)[0] == Parity32(value);
      r.ack == (if good then ACK_OK else ACK_FAULT) && r.data == (if good then value else data)
  {
    var (l2, value, parity) := ReadPhaseOf(l1, 32);
    var word := WordOf(Incoming(l1.target, 32));
    var l3 := l2.(locked := false);
    if parity != Parity32(word) then Transfer(l3, ACK_FAULT, data)
    else Transfer(l3, ACK_OK, word)
  }

  /** The end of a raw transfer after an OK write acknowledgement. */
  function FinishWrite(l1: Link, data: u32): (r: Transfer)
    requires !l1.driving && !l1.oe && l1.locked
    ensures Idle(r.link)
    ensures r.link.wire == l1.wire + WriteTail(data)
    ensures r.link.target == l1.target
    ensures r.ack == ACK_OK && r.data == data
  {
    var l2 := WritePhase(l1, data);
    Transfer(l2.(locked := false), ACK_OK, data)
  }

  /** The end of a raw transfer after any other acknowledgement: 32 dummy
      clocks with the line driven low. */
  function FinishOther(l1: Link, ack: nat, data: u32): (r: Transfer)
    requires !l1.driving && !l1.oe && l1.locked
    ensures Idle(r.link)
    ensures r.link.wire == l1.wire + DummyTail()
    ensures r.link.target == l1.target
    ensures r.ack == ack && r.data == data
  {
    var l2 := DummyPhase(l1);
    Transfer(l2.(locked := false), ack, data)
  }

  /** swd_transfer_raw: one request, its acknowledgement and its data phase,
      inside one critical section that is left again. */
  function TransferRaw(l: Link, addr: u8, ap: bool, read: bool, data: u32): (r: Transfer)
    requires Idle(l)
    ensures Idle(r.link)
    ensures r.link.wire == l.wire + Frame(addr, ap, read, data, l.target)
    ensures Reports(l.target, read, data, r.ack, r.data, r.link.target)
  {
    var (l1, ack) := RequestPhase(l, addr, ap, read);
    if ack == ACK_OK && read then
      var r := FinishRead(l1, data);
      ReadEnds(l, l1, addr, ap, data, r);
      r
    else if ack == ACK_OK then
      var r := FinishWrite(l1, data);
      WriteEnds(l, l1, addr, ap, data, r);
      r
    else
      var r := FinishOther(l1, ack, data);
      OtherEnds(l, l1, addr, ap, read, data, r);
      r
  }

  /** What RequestPhase leaves behind, for the three ways a transfer ends. */
  predicate Requested(l: Link, l1: Link, addr: u8, ap: bool, read: bool)
  {
    l1.wire == l.wire + Head(addr, ap, read, l.target)
    && l1.target == Rest(l.target, 3)
  }

  lemma ReadEnds(l: Link, l1: Link, addr: u8, ap: bool, data: u32, r: Transfer)
    requires Requested(l, l1, addr, ap, true)
    requires ValueLsb(Incoming(l.target, 3)) == ACK_OK
    requires r.link.wire == l1.wire + ReadTail(l1.target)
    requires r.link.target == Rest(Rest(l1.target, 32), 1)
    requires var value := WordOf(Incoming(l1.target, 32));
      var good := Incoming(Rest(l1.target, 32), 1)[0] == Parity32(value);
      r.ack == (if good then ACK_OK else ACK_FAULT) && r.data == (if good then value else data)
    ensures r.link.wire == l.wire + Frame(addr, ap, true, data, l.target)
    ensures Reports(l.target, true, data, r.ack, r.data, r.link.target)
  {
    Cat2(l.wire, Head(addr, ap, true, l.target), ReadTail(l1.target), r.link.wire);
  }

  lemma WriteEnds(l: Link, l1: Link, addr: u8, ap: bool, data: u32, r: Transfer)
    requires Requested(l, l1, addr, ap, false)
    requires ValueLsb(Incoming(l.target, 3)) == ACK_OK
    requires r.link.wire == l1.wire + WriteTail(data)
    requires r.link.target == l1.target && r.ack == ACK_OK && r.data == data
    ensures r.link.wire == l.wire + Frame(addr, ap, false, data, l.target)
    ensures Reports(l.target, false, data, r.ack, r.data, r.link.target)
  {
    Cat2(l.wire, Head(addr, ap, false, l.target), WriteTail(data), r.link.wire);
  }

  lemma OtherEnds(l: Link, l1: Link, addr: u8, ap: bool, read: bool, data: u32, r: Transfer)
    requires Requested(l, l1, addr, ap, read)
    requires ValueLsb(Incoming(l.target, 3)) != ACK_OK
    requires r.link.wire == l1.wire + DummyTail()
    requires r.link.target == l1.target
    requires r.ack == ValueLsb(Incoming(l.target, 3)) && r.data == data
    ensures r.link.wire == l.wire + Frame(addr, ap, read, data, l.target)
    ensures Reports(l.target, read, data, r.ack, r.data, r.link.target)
  {
    Cat2(l.wire, Head(addr, ap, read, l.target), DummyTail(), r.link.wire);
  }

  /** A transfer that got any acknowledgement but the pulled-up 0b111 took
      bits from the target stream: the measure the retry loops decrease. */
  lemma ReportsConsume(t: seq<bool>, read: bool, data: u32, ack: nat, out: u32, rest: seq<bool>)
    requires Reports(t, read, data, ack, out, rest)
    ensures ack < 8 && |rest| <= |t|
    ensures ack != ACK_NONE ==> |rest| < |t|
  {
    AckNoneIsHigh(t);
    Pow2Three();
  }

  /** With the target stream exhausted the acknowledgement reads 0b111. */
  lemma AckNoneIsHigh(t: seq<bool>)
    ensures |t| == 0 ==> ValueLsb(Incoming(t, 3)) == ACK_NONE
  {
    if |t| == 0 {
      assert Incoming(t, 0) == [];
      assert Incoming(t, 1) == [true] + [];
      assert Incoming(t, 2) == [true] + ([true] + []);
      assert Incoming(t, 3) == [true] + ([true] + ([true] + []));
      ValueCons(true, []);
      ValueCons(true, [true] + []);
      ValueCons(true, [true] + ([true] + []));
    }
  }

  /** What a target drives back during one transfer: three acknowledgement
      bits and, after an OK acknowledgement of a read, a data word and its
      parity bit. Any parity bit may be sent, so a corrupted read can be
      described too. */
  datatype Reply = Reply(ack: nat, data: u32, parity: bool)

  predicate WellFormed(rep: Reply)
  {
    rep.ack < 8
  }

  /** The levels the target puts on SWDIO for `rep`. */
  function ReplyBits(rep: Reply, read: bool): (r: seq<bool>)
    ensures |r| == if rep.ack == ACK_OK && read then 36 else 3
  {
    BitsLsb(rep.ack, 3)
      + if rep.ack == ACK_OK && read then BitsLsb(rep.data, 32) + [rep.parity] else []
  }

  /** The acknowledgement and the word the host ends up with when the
      target replies `rep`: a good parity bit delivers the word, a bad one
      turns the OK into a FAULT and leaves the caller's word alone. */
  function Answer(rep: Reply, read: bool, data: u32): (r: (nat, u32))
    ensures r.0 == ACK_OK ==> rep.ack == ACK_OK
    ensures r.0 != rep.ack ==> r.0 == ACK_FAULT && rep.ack == ACK_OK && read
    ensures r.1 != data ==> r.0 == ACK_OK && read && r.1 == rep.data
    ensures rep.ack == ACK_OK && read ==>
      (r.0 == ACK_OK <==> rep.parity == Parity32(rep.data))
  {
    if rep.ack == ACK_OK && read then
      if rep.parity == Parity32(rep.data) then (ACK_OK, rep.data) else (ACK_FAULT, data)
    else (rep.ack, data)
  }

  lemma Split(a: seq<bool>, b: seq<bool>)
    ensures Incoming(a + b, |a|) == a
    ensures Rest(a + b, |a|) == b
  {
    assert (a + b)[..|a|] == a;
    assert (a + b)[|a|..] == b;
  }

  /** The first three levels of a reply are its acknowledgement. */
  lemma ReplyHeader(rep: Reply, read: bool, rest: seq<bool>)
    requires WellFormed(rep)
    ensures var t := ReplyBits(rep, read) + rest;
      ValueLsb(Incoming(t, 3)) == rep.ack
      && Rest(t, 3) == (if rep.ack == ACK_OK && read then BitsLsb(rep.data, 32) + [rep.parity] else []) + rest
  {
    var bits := BitsLsb(rep.ack, 3);
    var more := if rep.ack == ACK_OK && read then BitsLsb(rep.data, 32) + [rep.parity] else [];
    assert ReplyBits(rep, read) + rest == bits + (more + rest);
    Split(bits, more + rest);
    Pow2Three();
    ValueOfBits(rep.ack, 3);
  }

  /** The data phase of a reply delivers its word and parity bit. */
  lemma ReplyWord(d: u32, p: bool, rest: seq<bool>)
    ensures var t := BitsLsb(d, 32) + [p] + rest;
      WordOf(Incoming(t, 32)) == d
      && Incoming(Rest(t, 32), 1)[0] == p
      && Rest(Rest(t, 32), 1) == rest
  {
    var word := BitsLsb(d, 32);
    assert word + [p] + rest == word + ([p] + rest);
    Split(word, [p] + rest);
    Split([p], rest);
    WordRoundTrip(d);
  }

  /** Sampling the levels of a reply recovers the reply: the host reports
      exactly Answer(rep, ...) and the rest of the stream is untouched. */
  lemma ReplyDecodes(rep: Reply, read: bool, data: u32, rest: seq<bool>,
                     ack: nat, out: u32, after: seq<bool>)
    requires WellFormed(rep)
    ensures Reports(ReplyBits(rep, read) + rest, read, data, ack, out, after)
        <==> (ack, out) == Answer(rep, read, data) && after == rest
  {
    ReplyHeader(rep, read, rest);
    ReplyWord(rep.data, rep.parity, rest);
  }

  /** The bridge between the bit level and the reply level: a raw transfer
      against a target that answers `rep` reports Answer(rep, ...) and
      leaves the stream after the reply. */
  lemma TransferAnswers(l: Link, addr: u8, ap: bool, read: bool, data: u32,
                        rep: Reply, rest: seq<bool>)
    requires Idle(l) && WellFormed(rep)
    requires l.target == ReplyBits(rep, read) + rest
    ensures var r := TransferRaw(l, addr, ap, read, data);
      (r.ack, r.data) == Answer(rep, read, data) && r.link.target == rest
  {
    var r := TransferRaw(l, addr, ap, read, data);
    ReplyDecodes(rep, read, data, rest, r.ack, r.data, r.link.target);
  }

  /** A raw transfer against a silent target sees the pulled-up 0b111,
      changes nothing it reports and consumes nothing. */
  lemma TransferFloating(l: Link, addr: u8, ap: bool, read: bool, data: u32)
    requires Idle(l) && l.target == []
    ensures var r := TransferRaw(l, addr, ap, read, data);
      r.ack == ACK_NONE && r.data == data && r.link.target == []
  {
    AckNoneIsHigh(l.target);
  }
}

=== FILE: web_upload.dfy ===
// The upload path of the web interface: the hex-record callback that
// coalesces data records into a 16 KiB staging buffer, flush_buffer that
// erases the pages under the buffer and writes it, and the classification
// of the APPROTECT word that the SWD check handler reports.
//
// The hex parser, the HTTP plumbing and the status text are not part of
// this model; a record arrives already decoded, together with its absolute
// address.

module WebUpload {
  import opened Bits
  import opened Esp
  import opened Nvmc
  import opened SwdFlash

  const PAGE_BUFFER_SIZE: nat := 0x4000

  /** The value the handler reports when it could not read the word. */
  const UNREAD: u32 := 0xFFFF_FFFF
  const APPROTECT_ENABLED: u32 := 0xFFFF_FF00

  // ---------------------------------------------------------------------
  // Upload context

  /** The fields of `upload_context_t` the callback and the flush use:
      the staging buffer, the flash address of its first byte, how many of
      its bytes are meaningful, the running count of flashed bytes, the
      address just past the last data record, and the count the end
      record reported (`None` before the end record). */
  datatype Ctx = Ctx(buffer: seq<u8>, start: u32, len: u32, flashed: u32, current: u32, report: Option<u32>)

  predicate Good(x: Ctx)
  {
    |x.buffer| == PAGE_BUFFER_SIZE && x.len <= PAGE_BUFFER_SIZE
  }

  /** Every buffer byte past the meaningful ones is still erased-flash
      0xFF, so a flush never writes anything but record data and 0xFF. */
  predicate Clean(x: Ctx)
    requires Good(x)
  {
    forall i :: x.len <= i < PAGE_BUFFER_SIZE ==> x.buffer[i] == 0xFF
  }

  /** The staging buffer after `memset(page_buffer, 0xFF, ...)`. */
  function Filled(): (r: seq<u8>)
    ensures |r| == PAGE_BUFFER_SIZE && forall i :: 0 <= i < |r| ==> r[i] == 0xFF
  {
    seq(PAGE_BUFFER_SIZE, _ => 0xFF)
  }

  /** The context upload_post_handler starts from. */
  function Fresh(): (r: Ctx)
    ensures Good(r) && Clean(r) && r.len == 0 && r.flashed == 0 && r.report.None?
  {
    Ctx(Filled(), 0, 0, 0, 0, None)
  }

  /** A decoded hex record as the parser hands it over. Only data, end of
      file and extended linear address records are acted on; every other
      type is `OtherRecord`. */
  datatype Record = Data(bytes: seq<u8>) | EndOfFile | ExtLinearAddress | OtherRecord

  // ---------------------------------------------------------------------
  // flush_buffer

  /** What flush_buffer does to the target, as `m` becomes `m'` with result
      `err`; `erased` is the result of the erase loop and `mid` the memory
      it leaves. An empty buffer leaves the target alone. Otherwise the
      erase loop comes first and writes nothing but the erase controls,
      and it reaches the target whenever the first page lies in flash. An
      erase failure is the result, with nothing written after it. A
      successful erase leaves every page of the range starting with an
      erased word before the write begins, and a successful flush of a
      range inside flash leaves the buffered bytes at their addresses and
      every page outside the range as it was. */
  ghost predicate Flushed(m: Mem, x: Ctx, m': Mem, err: Err, erased: Err, mid: Mem)
    requires Ready(m) && Ready(m') && Good(x)
  {
    && (x.len == 0 ==> m' == m && err == Ok)
    && (x.len > 0 ==>
          && Ready(mid) && m.trace <= mid.trace && OnlyErases(mid.trace, |m.trace|)
          && m.trace <= m'.trace
          && (x.start < FLASH_SIZE && FirstPage(x.start) <= LastPage(x.start, x.len) ==> |m.trace| < |mid.trace|)
          && (erased != Ok ==> err == erased && m' == mid)
          && (erased == Ok ==>
                && ErasedFrom(mid.chip, FirstPage(x.start), LastPage(x.start, x.len) + 1)
                && mid.trace <= m'.trace)
          && (err == Ok && x.start + x.len <= FLASH_SIZE ==> Landed(m, x, m')))
  }

  /** Flash in `m'` holds the buffered bytes at their addresses, and every
      page outside the range is as in `m`. */
  ghost predicate Landed(m: Mem, x: Ctx, m': Mem)
    requires Ready(m) && Ready(m') && Good(x) && x.len > 0 && x.start + x.len <= FLASH_SIZE
  {
    && (forall k :: x.start <= k < x.start + x.len ==> FlashByte(m'.chip, k) == x.buffer[k - x.start])
    && (forall k :: 0 <= k < FLASH_SIZE && (k / PAGE_SIZE < x.start / PAGE_SIZE || k / PAGE_SIZE > (x.start + x.len - 1) / PAGE_SIZE)
          ==> FlashByte(m'.chip, k) == FlashByte(m.chip, k))
  }

  /** The write half of flush_buffer, after the erase loop took `m` to
      `m1` without touching the pages outside the range: write the
      buffered bytes through the buffered writer. */
  method WriteStage(m: Mem, m1: Mem, x: Ctx) returns (m2: Mem, err: Err)
    requires Ready(m) && Ready(m1) && Good(x) && x.len > 0
    requires KeptOutside(m.chip, m1.chip, FirstPage(x.start), LastPage(x.start, x.len) + 1)
    ensures Ready(m2) && m1.trace <= m2.trace
    ensures err == Ok || err == Fail || err == Timeout || err == InvalidArg || err == InvalidSize
    ensures err == Ok ==>
      !Oversized(x.start, x.len) && (x.start + x.len <= FLASH_SIZE || WORD_LIMIT <= x.start + x.len)
    ensures err == Ok && x.start + x.len <= FLASH_SIZE ==> Landed(m, x, m2)
  {
    var data := x.buffer[..x.len];
    var progress;
    m2, err, progress := WriteBuffer(m1, x.start, Some(data), x.len);
    if err == Ok && x.start + x.len <= FLASH_SIZE {
      UpdateKeepsOtherPages(m.chip, m1.chip, m2.chip, x.start, data, FirstPage(x.start), LastPage(x.start, x.len));
    }
  }

  /** flush_buffer: erase every page the buffered bytes touch, write them,
      and on success count them as flashed and empty the buffer. On any
      failure the buffer is left exactly as it was. The ghost results name
      the erase step: `erased` is what the erase loop returned and `mid` the
      memory it left. An erase failure is returned at once, with nothing
      written but the erase controls; the write starts only once every page
      begins with an erased word. */
  method Flush(m: Mem, x: Ctx) returns (m': Mem, x': Ctx, err: Err, ghost erased: Err, ghost mid: Mem)
    requires Ready(m) && Good(x)
    ensures Ready(m') && Good(x') && (Clean(x) ==> Clean(x'))
    ensures Flushed(m, x, m', err, erased, mid)
    ensures err == Ok || err == Fail || err == Timeout || err == InvalidArg || err == InvalidSize
    ensures x.len == 0 ==> x' == x
    ensures err != Ok ==> x' == x
    ensures err == Ok && x.len > 0 ==> x' == x.(buffer := Filled(), len := 0, flashed := (x.flashed + x.len) % WORD_LIMIT)
    ensures err == Ok && x.len > 0 ==>
      !Oversized(x.start, x.len) && (x.start + x.len <= FLASH_SIZE || WORD_LIMIT <= x.start + x.len)
  {
    erased, mid := Ok, m;
    if x.len == 0 {
      return m, x, Ok, erased, mid;
    }
    var startPage := FirstPage(x.start);
    var endPage := LastPage(x.start, x.len);
    var count := if startPage <= endPage then endPage - startPage + 1 else 0;
    var m1, e1, _ := ErasePages(m, startPage, endPage, count);
    erased, mid := e1, m1;
    assert x.start < FLASH_SIZE ==> startPage < FLASH_SIZE / PAGE_SIZE;
    if e1 != Ok {
      assert Flushed(m, x, m1, e1, erased, mid);
      return m1, x, e1, erased, mid;
    }
    var m2, e2 := WriteStage(m, m1, x);
    if e2 != Ok {
      assert Flushed(m, x, m2, e2, erased, mid);
      return m2, x, e2, erased, mid;
    }
    assert Flushed(m, x, m2, Ok, erased, mid);
    m', err := m2, Ok;
    x' := x.(buffer := Filled(), len := 0, flashed := (x.flashed + x.len) % WORD_LIMIT);
  }

  // ---------------------------------------------------------------------
  // hex_flash_callback

  /** `buf` with `bytes` copied in at `off`, as memcpy does. */
  function Copy(buf: seq<u8>, off: nat, bytes: seq<u8>): (r: seq<u8>)
    requires off + |bytes| <= |buf|
    ensures |r| == |buf|
    ensures forall i :: 0 <= i < |r| ==> r[i] == if off <= i < off + |bytes| then bytes[i - off] else buf[i]
  {
    buf[..off] + bytes + buf[off + |bytes|..]
  }

  /** Whether a record of `n` bytes at `offset` within the buffer still
      fits, computed on unbounded integers. */
  predicate Fits(offset: nat, n: nat)
  {
    offset + n <= PAGE_BUFFER_SIZE
  }

  /** The same check with the 32-bit addition of lines 91-92, where
      `offset + n` can wrap past zero. */
  predicate FitsAsWritten(offset: u32, n: u8)
  {
    (offset + n) % WORD_LIMIT <= PAGE_BUFFER_SIZE
  }

  /** With the buffer starting at 0 and a record of 0x80 bytes at
      0xFFFF_FF80, the 32-bit sum wraps to 0: the check lets the record
      through, and with 32-bit pointers the copy lands in the 0x80 bytes
      in front of the buffer. */
  lemma OffsetCheckWraps()
    ensures FitsAsWritten(0xFFFF_FF80, 0x80)
    ensures !Fits(0xFFFF_FF80, 0x80)
    ensures (0xFFFF_FF80 + 0x80) % WORD_LIMIT == 0
    ensures Overrun(Ctx(Filled(), 0, 1, 0, 0, None), 0xFFFF_FF80, 0x80)
    ensures WORD_LIMIT - 0xFFFF_FF80 == 0x80
  {
  }

  /** The unbounded check admits only copies inside the buffer and agrees
      with the 32-bit one whenever the sum does not wrap. */
  lemma FitsCorrected(offset: u32, n: u8)
    ensures Fits(offset, n) ==> FitsAsWritten(offset, n) && offset + n <= PAGE_BUFFER_SIZE
    ensures offset + n < WORD_LIMIT ==> (Fits(offset, n) <==> FitsAsWritten(offset, n))
  {
  }

  /** Copy a data record into the buffer at `offset` from its start,
      widening the buffer's length if the record reaches past it. */
  function Place(x: Ctx, abs: u32, offset: nat, bytes: seq<u8>): (r: Ctx)
    requires Good(x) && Fits(offset, |bytes|)
    ensures Good(r) && r.start == x.start && r.flashed == x.flashed && r.report == x.report
    ensures r.len == if offset + |bytes| > x.len then offset + |bytes| else x.len
    ensures r.buffer[offset..offset + |bytes|] == bytes
    ensures forall i :: 0 <= i < PAGE_BUFFER_SIZE && !(offset <= i < offset + |bytes|) ==> r.buffer[i] == x.buffer[i]
    ensures r.current == (abs + |bytes|) % WORD_LIMIT
    ensures Clean(x) ==> Clean(r)
  {
    var b := Copy(x.buffer, offset, bytes);
    assert b[offset..offset + |bytes|] == bytes;
    x.(buffer := b,
       len := if offset + |bytes| > x.len then offset + |bytes| else x.len,
       current := (abs + |bytes|) % WORD_LIMIT)
  }

  /** The 32-bit check of lines 91-92 lets a record through whose offset
      plus length wraps past 2^32: the buffer holds data, the record lies
      at or after the buffer start, and only the wrapped sum is small. */
  predicate Overrun(x: Ctx, abs: u32, n: nat)
  {
    x.len > 0 && x.start <= abs && n < 0x100
    && FitsAsWritten(abs - x.start, n) && !Fits(abs - x.start, n)
  }

  /** The copy of an overrunning record with 32-bit pointers: `page_buffer +
      offset` lies `d` bytes before the buffer, so the first `d` bytes land
      outside it and the remaining ones at its start; the length grows to
      the wrapped end when that is larger. */
  function PlaceWrapped(x: Ctx, abs: u32, d: nat, bytes: seq<u8>): (r: Ctx)
    requires Good(x) && d <= |bytes| && |bytes| - d <= PAGE_BUFFER_SIZE
    ensures Good(r) && r.start == x.start && r.flashed == x.flashed && r.report == x.report
    ensures r.len == Max(x.len, |bytes| - d)
    ensures r.buffer[..|bytes| - d] == bytes[d..]
    ensures forall i :: |bytes| - d <= i < PAGE_BUFFER_SIZE ==> r.buffer[i] == x.buffer[i]
    ensures r.current == (abs + |bytes|) % WORD_LIMIT
    ensures Clean(x) ==> Clean(r)
  {
    var b := Copy(x.buffer, 0, bytes[d..]);
    assert b[..|bytes| - d] == bytes[d..];
    x.(buffer := b, len := Max(x.len, |bytes| - d), current := (abs + |bytes|) % WORD_LIMIT)
  }

  /** The data case of hex_flash_callback. `flush` is the result of the
      flush the record caused (`Ok` when there was none); the callback
      itself discards it. `stray` holds the bytes an overrunning record
      writes in front of the buffer, outside the memory this model holds;
      it is empty for every other record. The ghost results name the erase
      step of that flush, as for Flush. */
  method OnData(m: Mem, x: Ctx, bytes: seq<u8>, abs: u32)
    returns (m': Mem, x': Ctx, flush: Err, stray: seq<u8>, ghost erased: Err, ghost mid: Mem)
    requires Ready(m) && Good(x) && |bytes| < 0x100
    ensures Ready(m') && Good(x') && (Clean(x) ==> Clean(x'))
    ensures x'.current == (abs + |bytes|) % WORD_LIMIT && x'.report == x.report
    ensures x.len == 0 ==> m' == m && flush == Ok && x'.start == abs && x'.len == |bytes|
    // apart from an overrun, the record ends up in the buffer at its own
    // address
    ensures stray == [] <==> !Overrun(x, abs, |bytes|)
    ensures stray == [] ==>
      && x'.start <= abs && abs - x'.start + |bytes| <= x'.len
      && x'.buffer[abs - x'.start..abs - x'.start + |bytes|] == bytes
    // a record that fits behind the buffered ones is coalesced without
    // touching the target, keeping every other buffered byte
    ensures x.len > 0 && x.start <= abs && Fits(abs - x.start, |bytes|) ==>
      && m' == m && flush == Ok && x'.start == x.start
      && forall i :: 0 <= i < x.len && !(abs - x.start <= i < abs - x.start + |bytes|) ==> x'.buffer[i] == x.buffer[i]
    // an overrun also leaves the target alone: the head of the record goes
    // in front of the buffer, its tail over the buffer's first bytes
    ensures Overrun(x, abs, |bytes|) ==>
      var d := WORD_LIMIT - (abs - x.start);
      && m' == m && flush == Ok && x'.start == x.start && 0 < d <= |bytes|
      && stray == bytes[..d] && x'.buffer[..|bytes| - d] == bytes[d..]
      && x'.len == Max(x.len, |bytes| - d)
      && forall i :: |bytes| - d <= i < PAGE_BUFFER_SIZE ==> x'.buffer[i] == x.buffer[i]
    // a record the check turns away flushes the buffer first; when that
    // flush fails, the old length survives and the buffer's tail still
    // holds the old bytes, now attributed to the addresses after the new
    // record
    ensures x.len > 0 && !(x.start <= abs && FitsAsWritten(abs - x.start, |bytes|)) ==>
      && Flushed(m, x, m', flush, erased, mid)
      && x'.start == abs
      && (flush == Ok ==> x'.len == |bytes| && x'.flashed == (x.flashed + x.len) % WORD_LIMIT)
      && (flush != Ok ==> x'.len == Max(x.len, |bytes|))
      && (flush != Ok && |bytes| <= x.len ==> x'.buffer[|bytes|..x.len] == x.buffer[|bytes|..x.len])
  {
    stray, erased, mid := [], Ok, m;
    if x.len > 0 && x.start <= abs && FitsAsWritten(abs - x.start, |bytes|) {
      m', flush := m, Ok;
      x', stray := Coalesce(x, bytes, abs);
    } else {
      m', x', flush, erased, mid := Reanchor(m, x, bytes, abs);
    }
  }

  /** The data case for a record the 32-bit check admits behind the
      buffered bytes: copy it in at its offset, or, when the offset plus
      length wraps, split it into stray bytes in front of the buffer and a
      tail over the buffer's first bytes. */
  method Coalesce(x: Ctx, bytes: seq<u8>, abs: u32) returns (x': Ctx, stray: seq<u8>)
    requires Good(x) && |bytes| < 0x100
    requires x.len > 0 && x.start <= abs && FitsAsWritten(abs - x.start, |bytes|)
    ensures Good(x') && (Clean(x) ==> Clean(x'))
    ensures x'.current == (abs + |bytes|) % WORD_LIMIT && x'.report == x.report && x'.start == x.start
    ensures stray == [] <==> Fits(abs - x.start, |bytes|)
    ensures stray == [] ==>
      && abs - x.start + |bytes| <= x'.len
      && x'.buffer[abs - x.start..abs - x.start + |bytes|] == bytes
      && forall i :: 0 <= i < x.len && !(abs - x.start <= i < abs - x.start + |bytes|) ==> x'.buffer[i] == x.buffer[i]
    ensures stray != [] ==>
      var d := WORD_LIMIT - (abs - x.start);
      && 0 < d <= |bytes|
      && stray == bytes[..d] && x'.buffer[..|bytes| - d] == bytes[d..]
      && x'.len == Max(x.len, |bytes| - d)
      && forall i :: |bytes| - d <= i < PAGE_BUFFER_SIZE ==> x'.buffer[i] == x.buffer[i]
  {
    if Fits(abs - x.start, |bytes|) {
      x', stray := Place(x, abs, abs - x.start, bytes), [];
    } else {
      var d := WORD_LIMIT - (abs - x.start);
      x' := PlaceWrapped(x, abs, d, bytes);
      stray := bytes[..d];
    }
  }

  /** The data case for a record that starts the buffer afresh: restart
      at `abs`, flushing a non-empty buffer first, and place the record at
      the start of the buffer. */
  method Reanchor(m: Mem, x: Ctx, bytes: seq<u8>, abs: u32)
    returns (m': Mem, x': Ctx, flush: Err, ghost erased: Err, ghost mid: Mem)
    requires Ready(m) && Good(x) && |bytes| < 0x100
    ensures Ready(m') && Good(x') && (Clean(x) ==> Clean(x'))
    ensures Flushed(m, x, m', flush, erased, mid)
    ensures x'.current == (abs + |bytes|) % WORD_LIMIT && x'.report == x.report
    ensures x'.start == abs && |bytes| <= x'.len && x'.buffer[..|bytes|] == bytes
    ensures flush == Ok ==> x'.len == |bytes| && x'.flashed == (x.flashed + x.len) % WORD_LIMIT
    ensures flush != Ok ==> x'.len == Max(x.len, |bytes|)
    ensures flush != Ok && |bytes| <= x.len ==> x'.buffer[|bytes|..x.len] == x.buffer[|bytes|..x.len]
  {
    var x1;
    m', x1, flush, erased, mid := Restart(m, x, abs);
    x' := Place(x1, abs, 0, bytes);
  }

  /** Re-anchor the buffer at `abs`, flushing it first unless it is empty;
      a failed flush leaves the buffered bytes and their length behind. The
      ghost results name the erase step of the flush, as for Flush. */
  method Restart(m: Mem, x: Ctx, abs: u32) returns (m': Mem, x': Ctx, flush: Err, ghost erased: Err, ghost mid: Mem)
    requires Ready(m) && Good(x)
    ensures Ready(m') && Good(x') && (Clean(x) ==> Clean(x'))
    ensures Flushed(m, x, m', flush, erased, mid)
    ensures x'.start == abs && x'.current == x.current && x'.report == x.report
    ensures x.len == 0 ==> m' == m && flush == Ok && x' == x.(start := abs)
    ensures flush == Ok ==> x'.len == 0 && x'.flashed == (x.flashed + x.len) % WORD_LIMIT
    ensures flush != Ok ==> x' == x.(start := abs)
  {
    m', x', flush, erased, mid := m, x, Ok, Ok, m;
    if x.len > 0 {
      m', x', flush, erased, mid := Flush(m, x);
    }
    x' := x'.(start := abs);
  }

  /** The end-of-file case of hex_flash_callback: flush, then report the
      count of flashed bytes whether or not that flush succeeded. The ghost
      results name the erase step of the flush, as for Flush. */
  method OnEnd(m: Mem, x: Ctx) returns (m': Mem, x': Ctx, flush: Err, ghost erased: Err, ghost mid: Mem)
    requires Ready(m) && Good(x)
    ensures Ready(m') && Good(x') && (Clean(x) ==> Clean(x'))
    ensures Flushed(m, x, m', flush, erased, mid)
    ensures x'.report == Some(x'.flashed)
    ensures flush == Ok ==> x'.len == 0 && x'.flashed == (x.flashed + x.len) % WORD_LIMIT
    ensures flush != Ok ==> x' == x.(report := Some(x.flashed))
  {
    m', x', flush, erased, mid := Flush(m, x);
    x' := x'.(report := Some(x'.flashed));
  }

  /** The extended-linear-address case of hex_flash_callback: a non-empty
      buffer is flushed before the address base changes. The ghost results
      name the erase step of the flush, as for Flush. */
  method OnAddress(m: Mem, x: Ctx) returns (m': Mem, x': Ctx, flush: Err, ghost erased: Err, ghost mid: Mem)
    requires Ready(m) && Good(x)
    ensures Ready(m') && Good(x') && (Clean(x) ==> Clean(x'))
    ensures Flushed(m, x, m', flush, erased, mid)
    ensures x.len == 0 ==> m' == m && x' == x && flush == Ok
    ensures flush == Ok ==> x'.len == 0 && x'.flashed == (x.flashed + x.len) % WORD_LIMIT
    ensures flush != Ok ==> x' == x
  {
    m', x', flush, erased, mid := m, x, Ok, Ok, m;
    if x.len > 0 {
      m', x', flush, erased, mid := Flush(m, x);
    }
  }

  /** hex_flash_callback, with the result of the flush a record caused
      made visible (`Ok` when there was none). Records other than data,
      end of file and extended linear address change nothing. The ghost
      results name the erase step of the flush a record caused, as for
      Flush. */
  method Callback(m: Mem, x: Ctx, rec: Record, abs: u32)
    returns (m': Mem, x': Ctx, flush: Err, stray: seq<u8>, ghost erased: Err, ghost mid: Mem)
    requires Ready(m) && Good(x)
    requires rec.Data? ==> |rec.bytes| < 0x100
    ensures Ready(m') && Good(x') && (Clean(x) ==> Clean(x'))
    // a data record flushes only when the buffer holds bytes and the
    // record is turned away; every other data record leaves the target
    // alone
    ensures rec.Data? && (x.len == 0 || (x.start <= abs && FitsAsWritten(abs - x.start, |rec.bytes|))) ==>
      m' == m && flush == Ok
    ensures rec.Data? && x.len > 0 && !(x.start <= abs && FitsAsWritten(abs - x.start, |rec.bytes|)) ==>
      Flushed(m, x, m', flush, erased, mid)
    ensures rec.EndOfFile? || rec.ExtLinearAddress? ==> Flushed(m, x, m', flush, erased, mid)
    ensures stray != [] <==> rec.Data? && Overrun(x, abs, |rec.bytes|)
    ensures rec.Data? && stray == [] ==>
      && x'.start <= abs && abs - x'.start + |rec.bytes| <= x'.len
      && x'.buffer[abs - x'.start..abs - x'.start + |rec.bytes|] == rec.bytes
    ensures rec.Data? && stray != [] ==>
      && x'.start == x.start && |stray| <= |rec.bytes|
      && stray + x'.buffer[..|rec.bytes| - |stray|] == rec.bytes
    ensures rec.EndOfFile? ==> x'.report == Some(x'.flashed)
    ensures (rec.EndOfFile? || rec.ExtLinearAddress?) && flush == Ok ==> x'.len == 0
    ensures (rec.EndOfFile? || rec.ExtLinearAddress?) && flush != Ok ==> x'.buffer == x.buffer && x'.len == x.len && x'.start == x.start
    ensures rec.OtherRecord? ==> m' == m && x' == x && flush == Ok
  {
    stray, erased, mid := [], Ok, m;
    match rec
    case Data(bytes) =>
      m', x', flush, stray, erased, mid := OnData(m, x, bytes, abs);
      if stray != [] {
        assert bytes == stray + bytes[|stray|..];
      }
    case EndOfFile =>
      m', x', flush, erased, mid := OnEnd(m, x);
    case ExtLinearAddress =>
      m', x', flush, erased, mid := OnAddress(m, x);
    case OtherRecord =>
      m', x', flush := m, x, Ok;
  }

  function Max(a: nat, b: nat): nat
  {
    if a < b then b else a
  }

  // ---------------------------------------------------------------------
  // check_swd_handler: classification of the APPROTECT word

  datatype Protection = HwDisabled | ErasedProtected | Enabled | Unknown

  /** The status the handler reports for an APPROTECT value. */
  function Classify(v: u32): (r: Protection)
    ensures r == HwDisabled <==> v == HW_DISABLED
    ensures r == ErasedProtected <==> v == UNREAD
    ensures r == Enabled <==> v == APPROTECT_ENABLED
  {
    if v == HW_DISABLED then HwDisabled
    else if v == UNREAD then ErasedProtected
    else if v == APPROTECT_ENABLED then Enabled
    else Unknown
  }

  /** The status string of each class, as sent in the JSON reply. */
  function StatusText(p: Protection): (r: string)
    ensures |r| > 0
  {
    match p
    case HwDisabled => "HwDisabled"
    case ErasedProtected => "Erased (Protected)"
    case Enabled => "Enabled"
    case Unknown => "Unknown"
  }

  /** The value and status check_swd_handler reports: the word is read
      only when the link check succeeded, and a failed read leaves the
      initial all-ones value in place. */
  function CheckSwd(m: Mem, connected: bool): (r: (Mem, u32, Protection))
    requires Ready(m)
    ensures Ready(r.0) && r.0.chip == m.chip
    ensures r.2 == Classify(r.1)
    ensures r.2 == HwDisabled ==> connected && m.chip.uicr == HW_DISABLED
    ensures r.2 == Enabled ==> connected && m.chip.uicr == APPROTECT_ENABLED
    ensures !connected ==> r.0 == m && r.2 == ErasedProtected
    ensures connected && NextFate(m) != Failed ==> r.1 == m.chip.uicr
  {
    if !connected then (m, UNREAD, Classify(UNREAD))
    else
      var (m1, e1, v) := MemRead(m, UICR_APPROTECT);
      var value := if e1 == Ok then v else UNREAD;
      (m1, value, Classify(value))
  }

  /** The four classes are told apart by exactly one value each, except
      `Unknown`, and the texts are distinct. */
  lemma ClassifyExact(v: u32)
    ensures Classify(v) == HwDisabled <==> v == HW_DISABLED
    ensures Classify(v) == ErasedProtected <==> v == UNREAD
    ensures Classify(v) == Enabled <==> v == APPROTECT_ENABLED
    ensures forall p, q :: StatusText(p) == StatusText(q) ==> p == q
  {
    assert StatusText(HwDisabled)[0] == 'H' && StatusText(ErasedProtected)[0] == 'E';
    assert StatusText(Enabled)[1] == 'n' && StatusText(ErasedProtected)[1] == 'r';
    assert StatusText(Unknown)[0] == 'U';
  }

  /** After a successful disable_approtect the check handler, reading over
      a working link, reports the target as `HwDisabled`. */
  lemma DisabledReportsDisabled(m: Mem, reconnect: Err, memInit: Err, m2: Mem)
    requires Ready(m) && Ready(m2)
    requires DisableApprotect(m, reconnect, memInit).1 == Ok
    requires m2.chip == DisableApprotect(m, reconnect, memInit).0.chip && NextFate(m2) != Failed
    ensures CheckSwd(m2, true).2 == HwDisabled
  {
  }

  /** After a successful erase_all the check handler reports the target as
      erased, the state in which the chip protects itself again at the next
      reset. */
  lemma ErasedReportsErased(m: Mem, m2: Mem)
    requires Ready(m) && Ready(m2) && m.fates == [] && m.chip.busy < POLLS_100MS
    requires m2.chip == EraseAll(m).0.chip && NextFate(m2) != Failed
    ensures CheckSwd(m2, true).2 == ErasedProtected
  {
    EraseAllReliable(m);
  }
}
